=== FILE: README.md ===
# UKB Git Audit Tool — a Dafny model of the history scan

The audit tool walks the full history of a GitHub repository and reports every file change in which a
UK Biobank participant ID might have leaked. An ID is a seven-digit number between 1000000 and 6500000.
For each change in `git log --all --name-status`, the tool does the following:
- finds the blob the change left behind (`git ls-tree`);
- reads its size from the object index (`git cat-file --batch-check`);
- scans the blob's text once per distinct blob for IDs;
- adds a flag for an ID in the file name.

It then writes one report row per change, sorted by total ID count, with links back to GitHub, plus a table of how often
each ID occurred over all scanned blobs.

This project models that pipeline as pure functions over the text the git commands print.

| module | file | what it models |
|---|---|---|
| `Wrappers`, `Exceptions` | wrappers.dfy | `Option` (None stands for NaN / Python `None`), `Result`, the Python exceptions the pipeline can raise |
| `Text`, `Numbers`, `Seqs`, `Sorting` | text.dfy, numbers.dfy, seqs.dfy, sorting.dfy | `str.split`, `strip`, `splitlines`, `replace`, `int()`, `unique()`, a descending sort |
| `Matcher` | matcher.dfy | the ID regular expression: its literal reading (`re.findall`, `re.search`) and an explicit digit-run scanner proved equal to it |
| `Counts` | counts.dfy | Python dicts of counts as insertion-ordered association lists: `update_dictionary`, `Counter`, `most_common` |
| `GitStatus` | gitstatus.dfy | `contextualise_git_status` via a decoded status variant |
| `Authors` | authors.dfy | `parse_entry` and the entry list of `build_collaborator_table` |
| `Urls` | urls.dfy | `extract_owner_repo`, the URL loop of `run_from_csv`, the repository name and owner of the audit, the report links |
| `SizeIndex` | sizeindex.dfy | `git_to_pandas` over the `cat-file --batch-check` output |
| `History` | history.dfy | `parse_full_log_to_dataframe`, the line state machine over the custom log format |
| `Trees` | trees.dfy | the record parsing and the per-commit loop of `get_blob_hashes_for_commits` |
| `Scan` | scan.dfy | `analyze_glob_hashes_for_pattern`: one scan per distinct blob and the global ID tally |
| `Joins` | joins.dfy | `pd.merge(..., how='left')` as a generic left join |
| `Audit` | audit.dfy | `audit_repository`: the merges, the derived columns, the sorts and the outcome |

## Inputs and parameters

- **Git command outputs.** Each is an input (`Audit.GitOutputs`):
  - the log text, or None when cloning, updating or `git log` failed;
  - the `cat-file` text;
  - a function from a commit to its `ls-tree -r -z` output (None when the command fails);
  - a function from a blob hash to its text (None when `git show` fails or the bytes are not UTF-8).
- **`mimetypes.guess_type`** is the parameter `fileExt`.

## How the code behaves (modelled as written)

These points follow the code, even where its comments say otherwise. There are two exceptions, both corrections listed under "## Findings": the report uses the corrected repository name (src/git_audit.py:248), and the tree listing uses the corrected loop that skips a commit whose `ls-tree` fails (src/git_audit.py:153-155). `Trees.AsWrittenAgrees` bounds the second: wherever the loop as written does not raise UnboundLocalError in its handler, it lists what the corrected loop lists.

- **Uncaught errors end the audit.** `audit_repository` catches only `CalledProcessError`. Several errors are not caught and end the whole audit (`Err`):
  - an unreadable log line (IndexError);
  - a status such as `Rxx` that `int()` rejects (ValueError);
  - an `ls-tree` record without a tab (ValueError);
  - a URL without an owner segment (IndexError).
  - A connection error or timeout of the fork-list request in `fetch_forked_repos` (src/utilities.py:224-226, called at src/git_audit.py:351 outside any `try`) would also end the audit, before the report is written. The model assumes that request does not raise.
- **KeyError on an empty listing or scan.** An empty tree listing or an empty scan table builds a DataFrame with no columns, so the following merge raises KeyError.
- **The "No findings" branch is unreachable.** The left merges keep every log row. So once the log has a row, the report has at least as many rows as the log. `Audit.AuditRepository` proves this.
- **A failed blob read is NaN, not 0.** An unreadable blob's `eid_occ` stays NaN. The handler comment at src/git_audit.py:196 says the default is `eid_occ=0`.
- **`found_ids` is empty text without an ID.** The docstring at src/git_audit.py:163-166 describes `found_ids` as the JSON of the top IDs. A blob without IDs, or one that cannot be read, keeps `""` instead.
- **Missing merge keys match each other.** pandas pairs NaN keys with NaN keys, and the joins here compare keys with plain equality.
- **The link columns follow the other columns.** `repo_link`, `raw_link` and `file_link` are built from the owner, repository name, commit and filename of the same row. So they are members of `Audit.ReportRow`, computed from those fields (`RepoLinkColumn`, `RawLinkColumn`, `FileLinkColumn`).
- **A missing commit prints as `None`.** Such a commit passes the text `None` to `git ls-tree` and into the links.

## Model

| member | source | states |
|---|---|---|
| Matcher.AlternationIsId | src/utilities.py:21 | a seven-character word matches the pattern's alternation iff it is seven ASCII digits whose value lies in [1000000, 6500000] |
| Matcher.MatchAtIff | src/utilities.py:21 | a match starts at i iff an in-range seven-digit ID starts there, no digit is directly before or after it, and it is not preceded by `.` or by `rs` in any case |
| Matcher.FindIds | src/utilities.py:21 | every word the scanner reports is a seven-digit ID in range |
| Matcher.FindIdsIsRegex | src/utilities.py:21 | the maximal-digit-run scanner returns exactly the list `re.findall` returns, in order |
| Matcher.SearchIffFound | src/git_audit.py:217 | `re.search` succeeds iff `re.findall` finds at least one ID, so one matcher serves both uses |
| Matcher.DocExamplesMatch | src/utilities.py:18 | the documented positive examples are found |
| Matcher.DocExamplesDoNotMatch | src/utilities.py:19 | the documented negative examples, and an `rs` SNP identifier, are not found |
| Counts.UpdateDictionary | src/utilities.py:50-61 | the merged dict has the union of keys, the reference keys first in their order, each value the sum of both readings, and the total the sum of both totals |
| Counts.UpdateDictionaryEmpty | src/utilities.py:50-61 | merging an empty dict leaves the reference unchanged |
| Counts.UpdatePositive | src/utilities.py:53-59 | merging dicts whose counts are all at least 1 gives a dict whose counts are all at least 1 |
| Counts.Counter | src/git_audit.py:191 | a Counter has one entry per distinct ID in first-seen order, each count is the ID's multiplicity (at least 1), and the counts sum to the list length |
| Counts.MostCommon | src/git_audit.py:192 | `most_common(n)` keeps min(n, size) entries of the counter, in non-increasing count order |
| Counts.MostCommonDominates | src/git_audit.py:192 | no entry left out has a larger count than an entry kept |
| Counts.MostCommonTies | src/git_audit.py:192 | among entries with equal counts, the kept ones are the first ones in dictionary order |
| Counts.MostCommonValid | src/git_audit.py:192 | `most_common(n)` of a dict lists each key at most once |
| Counts.TopDominates | src/git_audit.py:192 | every entry kept by `most_common(n)` counts at least as much as every entry left out |
| Numbers.PyIntOfDigits | src/utilities.py:82 | `int()` of a digit string is its decimal value, leading zeros included |
| GitStatus.Decode | src/utilities.py:64-87 | it fails exactly for an `R`/`B`/`C` status whose rest `int()` rejects; it gives unknown exactly for a missing status or one that is neither a fixed code nor an `R`/`B`/`C` code; `A`, `D`, `M`, `T` and `U` give their own kinds; an `R`/`B`/`C` status whose rest `int()` reads gives renamed, broken pairing or copied with that integer as the similarity |
| GitStatus.DecodeCode | src/utilities.py:71-86 | every status code, with its similarity in plain decimal, reads back as its own kind; the exact single-letter codes are matched before the prefix codes |
| GitStatus.DecodePadded | src/utilities.py:81-86 | `R`, `B` or `C` followed by any non-empty digit string, leading zeros included, reads back as that kind with the digits' value |
| GitStatus.DecodePrinted | src/utilities.py:71-86 | every code in git's printed form, the similarity zero-padded to three digits (`R086`, `C075`, `B100`), reads back as its own kind |
| GitStatus.DropsLeadingZeros | src/utilities.py:81-86 | `R`, `B` or `C` followed by digits is described with the number without its leading zeros |
| GitStatus.DescribeInjective | src/utilities.py:69-87 | different kinds get different descriptions |
| Authors.ParseEntry | src/utilities.py:174-188 | no result iff the cleaned first line has no `<` before a `>`; otherwise the name is the stripped text before the bracket pair the greedy match settles on, and the email is the stripped, lower-cased text inside it |
| Authors.ParseFormat | src/utilities.py:174-188 | the quoted `name <email>` line git prints parses back to the name and the lower-case email |
| Authors.Contributors | src/utilities.py:127-129 | every non-blank log line that parses contributes its pair, and nothing else is kept |
| Urls.ExtractOwnerRepo | src/main.py:108-114 | no pair iff the URL has no `/`; otherwise the pair is the URL's last two `/`-free segments |
| Urls.ExtractGitHubUrl | src/main.py:108-114 | a `https://github.com/o/n` URL yields exactly (o, n) |
| Urls.TrailingSlashEmptyRepo | src/main.py:111 | a URL ending in `/` yields an empty repository segment |
| Urls.Target | src/main.py:86-94 | a CSV cell is audited only when present and non-blank after stripping, with non-empty owner and repository segments |
| Urls.Targets | src/main.py:86-94 | the audited URLs are exactly the cells that yield a target, each with its owner and repository |
| Urls.TrailingSlashSkipped | src/main.py:91-94 | a URL with a trailing slash is never audited |
| Urls.OwnerOfTarget | src/git_audit.py:322 | for every URL the CSV loop audits, the owner in the report is the owner the loop read |
| Urls.Owner | src/git_audit.py:322 | the owner lookup fails iff the URL, trailing slashes removed, has no `/`; an owner holds no `/` |
| Urls.RepoName | src/git_audit.py:248 | the repository name is the last segment, with a `.git` suffix removed and nothing else |
| Urls.RepoNameOfClone | src/git_audit.py:248 | `base/name.git` and `base/name` both give `name` |
| Urls.RepoNameAsWrittenMangles | src/git_audit.py:248 | the name as written turns the repository `.github` into `hub`; the corrected name keeps `.github` |
| Urls.RepoNameAgrees | src/git_audit.py:248 | the name as written and the corrected name agree whenever `.git` occurs in the last segment at most as its suffix |
| Urls.RelativePath | src/git_audit.py:327 | `lstrip("/")` removes exactly the leading slashes |
| Urls.FileLinkSegments | src/git_audit.py:328-329 | a file link is the GitHub host, then owner, repository, `blob`, commit and the file's own path segments |
| Urls.RawLinkSegments | src/git_audit.py:326-327 | a raw link is the raw-content host, then owner, repository, commit and the file's path segments |
| SizeIndex.BlobLines | src/git_audit.py:50-54 | exactly the lines beginning with `'blob` are kept, none added |
| SizeIndex.BlobLine | src/git_audit.py:54 | a single line is kept iff it begins with `'blob` |
| SizeIndex.BlobLinesAppend | src/git_audit.py:50-54 | the filter works line by line: the kept lines of a concatenation are the kept lines of each part, in order |
| SizeIndex.Fields | src/git_audit.py:55 | a kept line becomes at most four fields, none holding a quote |
| SizeIndex.Size | src/git_audit.py:58 | a size cell that is not a number raises; a missing cell stays missing |
| SizeIndex.ParseSizeIndex | src/git_audit.py:46-60 | it fails iff every kept line is short of four fields or a size does not parse; otherwise one row per kept line, each of type blob |
| SizeIndex.BatchLineKept | src/git_audit.py:54 | a batch line is kept iff its object is a blob, so trees, commits and tags never appear |
| SizeIndex.ParseBatchOutput | src/git_audit.py:46-60 | the batch output for well-formed objects reads back as exactly their blob rows, in order |
| History.ParseFrom | src/git_audit.py:87-121 | reading fails iff some line is unreadable (a short header or change line); otherwise at most one row per line |
| History.ParseLog | src/git_audit.py:76-123 | the whole log fails iff one of its stripped lines is unreadable |
| History.ParseLogAttribution | src/git_audit.py:85-121 | each change line gives exactly one row, with the commit, date and refs of the nearest header line before it, and other lines give nothing |
| History.BlankLogNoRows | src/git_audit.py:85-99 | a blank log gives an empty table |
| History.ParseRendered | src/git_audit.py:76-123 | rendering commits in the log format and parsing gives back one row per change; a rename records the new path as `filename` and the old one as `old_filename` |
| History.CopyRecordsSource | src/git_audit.py:101-121 | a copy line is not special-cased: its source path becomes `filename` and `old_filename` is empty |
| Trees.Records | src/git_audit.py:140-142 | the records are the NUL-separated pieces without the last, none holding NUL |
| Trees.ReadRecord | src/git_audit.py:143-152 | a record without a tab raises; otherwise it yields an entry iff its header has three words, the second `blob`, and the filename is everything after the first tab |
| Trees.ReadRecords | src/git_audit.py:142-152 | reading fails iff some record lacks a tab; every entry carries the listed commit |
| Trees.ListCommit | src/git_audit.py:134-155 | a commit whose listing fails contributes no entries |
| Trees.ListTrees | src/git_audit.py:125-157 | every entry comes from a listed commit |
| Trees.ListAllAppend | src/git_audit.py:133-157 | listing a concatenation of commits lists each part in turn, failing iff either part fails |
| Trees.ListTreesOnce | src/git_audit.py:133 | a commit that appears again adds nothing; a new commit at the end adds its own listing after the others |
| Trees.ListingRoundTrip | src/git_audit.py:140-152 | a `ls-tree -z` listing reads back as its blob records, in order, with paths that may hold tabs |
| Trees.AsWrittenAgrees | src/git_audit.py:133-155 | wherever the loop as written does not fail in its handler, it lists what the corrected loop lists |
| Trees.UnboundOnFirstFailure | src/git_audit.py:153-155 | as written, a failed listing of the first commit raises UnboundLocalError; the corrected loop skips that commit |
| Scan.TopEntries | src/git_audit.py:189-192 | the top entries number min(5, distinct IDs), are distinct entries of the Counter, each with the ID's true count, and none counts less than an ID left out |
| Scan.ScanBlob | src/git_audit.py:176-207 | an unreadable blob has an unknown count, zero distinct IDs and no top IDs; a readable one counts all matches and distinct IDs (distinct ≤ total); its top IDs are at most five distinct entries of the blob's Counter with their true counts, in non-increasing order, none counting less than an ID left out, and present iff the count is positive |
| Scan.ScanAll | src/git_audit.py:175-198 | each hash gets its own scan, and the global tally grows by each readable blob's IDs exactly once, so its total grows by the sum of the counts |
| Scan.AbsorbPositive | src/git_audit.py:190-193 | absorbing one blob into a tally of positive counts leaves every count positive |
| Scan.ScanAllPositive | src/git_audit.py:175-198 | the loop's tally never lists an ID with count 0 when it starts from positive counts |
| Scan.AnalyseBlobs | src/git_audit.py:161-209 | one scan per distinct present hash of the column, covering every present hash; the tally's total equals the sum of the counts; each ID's tally equals its occurrences over the distinct blobs; and no ID is listed with count 0 |
| Joins.LeftJoin | src/git_audit.py:282-283 | every output row comes from a left row, paired with a right row of equal key, or with nothing when no right row has the key |
| Joins.LeftRowsSurvive | src/git_audit.py:282-283 | every left row appears in the output |
| Joins.LeftJoinAppend | src/git_audit.py:282-283 | the join works row by row: joining a concatenation concatenates the joins |
| Joins.UniqueKeysKeepRows | src/git_audit.py:295-300 | with unique right keys the join keeps the row count and order, each row paired with its key's lookup |
| Joins.SameKeySamePartner | src/git_audit.py:295-300 | with unique right keys, rows with equal keys get the same right row |
| Audit.TreeJoin | src/git_audit.py:282 | a row gets the blob hash of its file in its commit, or none exactly when no tree entry has its (commit, filename); no log row is lost |
| Audit.SizeJoin | src/git_audit.py:283 | a row's size is the size of a size-index row with its blob hash, and is missing only when the index row's size is missing or no index row has the hash; nothing else changes and no row is lost |
| Audit.Attach | src/git_audit.py:282-283 | both merges keep every log row; a row's hash comes from a tree entry with its (commit, filename), and is missing exactly when no entry has that key; its size is that of a size-index row with its hash, or missing when no index row has the hash |
| Audit.AttachKeepsRows | src/git_audit.py:282-283 | with unique keys on the right, the merged rows are the log rows, one each, in order |
| Audit.AttachScans | src/git_audit.py:295-300 | with one scan per hash, each row gets its own blob's scan and the row count is kept |
| Audit.Merge | src/git_audit.py:292-300 | after the scan merge, a row with a blob carries that blob's scan, a row without one carries NaN scan fields, and nothing else changes |
| Audit.ScanOfRow | src/git_audit.py:292-300 | the scan row found for a merged row is the scan of its own blob |
| Audit.ScanLookup | src/git_audit.py:295-300 | in a scan table holding one scan per hash and covering the key, the lookup finds that blob's own scan; a missing hash finds nothing |
| Audit.Statuses | src/git_audit.py:309 | the status column fails iff some status cannot be described; otherwise each row gets its own status's description |
| Audit.FilenameOcc | src/git_audit.py:217 | the filename flag is 0 or 1, and 1 iff an ID occurs in the filename |
| Audit.Derive | src/git_audit.py:303-343 | a report row keeps its change's filename, hash and size; the total is the content count (0 when unknown) plus the flag; without a scan the scan fields are NaN; the size in thousandths of a MB is the floor of bytes·1000/1024² |
| Audit.Unsorted | src/git_audit.py:303-331 | the derived columns fail iff some status cannot be described or the URL has no owner; one row per merged row, keeping its hash and size, faithful to the URL and its own blob's scan, with its change's commit, date, refs, paths and described status |
| Audit.DerivedRows | src/git_audit.py:303-331 | each derived row is faithful to the URL and to its own blob's scan, and reports its own change with that change's described status |
| Audit.RowsFromIndexes | src/git_audit.py:282-283 | a derived row keeps the hash the tree listing gives its (commit, filename) and the size the index gives that hash |
| Audit.Sorted | src/git_audit.py:343-344 | the report is a permutation of the derived rows, non-increasing by total; every row is faithful to its URL, its blob and the two indexes; every log row is reported; every row comes from a log row |
| Audit.SortedPromised | src/git_audit.py:343-344 | sorting derived rows that are faithful, come from the indexes, report every change and trace back to one keeps all these promises, since the sort only reorders |
| Audit.ReportBlobs | src/git_audit.py:172 | the scanned blobs are exactly the distinct hashes the report rows hold, whatever their order |
| Audit.Frequencies | src/git_audit.py:360 | the frequency table is a permutation of the tally in non-increasing count order, with every ID's count unchanged |
| Audit.FrequenciesPositive | src/git_audit.py:360 | sorting a tally of positive counts lists no ID with count 0 |
| Audit.NoScanNoHashes | src/git_audit.py:172 | the scan table is empty exactly when no merged row has a blob hash |
| Audit.Finish | src/git_audit.py:292-362 | it fails iff no row has a blob (KeyError) or the derived columns fail; otherwise the report is a permutation of the derived rows, keeps every row promise, its blobs are the distinct hashes of its rows, and each ID's frequency is its occurrence count over those blobs, with no ID listed at count 0 |
| Audit.FinishPromised | src/git_audit.py:292-362 | the derived rows meet what the sort needs, and the sorted report with the tally of the scanned blobs keeps every promise |
| Audit.SameBlobSameCounts | src/git_audit.py:295-300 | in a report that keeps the row promises, rows of the same blob carry the same content counts |
| Audit.Analyse | src/git_audit.py:277-362 | it raises exactly when a tree listing raises, the listing is empty (KeyError), no merged row has a blob (KeyError) or a derived column raises; otherwise it gives a report that keeps every promise for the log, the tree listing of the log's commits and the size index |
| Audit.AuditLog | src/git_audit.py:260-362 | it raises exactly when the size index does not parse or the log has rows whose analysis raises; the placeholder comes exactly for an empty log; any report comes from a non-empty log and keeps every promise for the parsed tree listing and size index |
| Audit.AuditRepository | src/git_audit.py:240-370 | a failed git command gives no report; it raises exactly when the log does not parse or the audit of the parsed log raises; an empty log gives the placeholder; otherwise a report with at least one row per change, non-increasing by total; every row is faithful to the URL and its blob's scan, has the hash the tree listing gives its (commit, filename) and the size the index gives that hash, and is traced to a change whose status it describes; every change is reported; the frequency table counts each ID over exactly the distinct blobs of the rows |

## Left out

- Running git (clone, fetch, pull, `log`, `rev-list`, `cat-file`, `ls-tree`, `show`) and `chdir`: these are I/O. Their outputs are the parameters above.
- The GitHub API (`get_github_email`, `fetch_forked_repos`), the access-token lookup, the interactive menu and the CSV reading of `run_from_csv`: these are network, file and user I/O.
- The CSV and JSON writing: the written report is the `Report` outcome, and the placeholder and failure messages are the `Placeholder` and `GitFailed` outcomes.
- `build_collaborator_table` after the entry list: the e-mail value counts and their merge (src/utilities.py:130-139) are local steps outside the modelled history scan. The owner's profile from `get_github_email` (src/utilities.py:146) is network data. The outer merge, the fill and the sort that follow it (src/utilities.py:151-169) are also left out.
- `mimetypes` and `register_common_ukb_filetypes`: a foreign mutable table, modelled as the parameter `fileExt`.
- The progress bar (`tqdm`).
- Unicode digits: the model reads `\d` as the ASCII digits only, and `str.lower` as ASCII case folding.
- `pd.to_numeric` formats other than plain digit strings (signs, decimals, exponents).
- Audit.Derive: keeps the commit date as git printed it, because the dd/mm/yyyy reformat goes through pandas' timezone conversion.
- Audit.Derive: `size_MB` is the integer number of thousandths of a MB, not a float.
- Audit.Derive: `found_ids` is the list of (ID, count) pairs, not its JSON text.
- Audit.Sorted: claims only a permutation in non-increasing order of `total_occ`. pandas' default sort is not stable, so the order of equal totals is not claimed.
- Audit.Frequencies: claims only a permutation in non-increasing order of `count`, for the same reason.
- Audit.Unsorted: fills `repo_name`, `repo_full_name` and the links with the corrected repository name (`Urls.RepoName`), not with the name as written at src/git_audit.py:248. `Urls.RepoNameAgrees` shows that the two agree whenever `.git` occurs in the last URL segment at most as its suffix.
- Audit.DerivedRows: measures the repository fields against the corrected repository name, for the same reason.
- Audit.AuditRepository: promises the corrected repository name in every row, for the same reason.
- Audit.Analyse: its exact failure condition follows the corrected listing loop (`Trees.ListCommit`, src/git_audit.py:153-155). When the first distinct commit's `ls-tree` fails and a later one lists a blob, the code as written raises UnboundLocalError where the model gives a report. `Trees.AsWrittenAgrees` shows that the two loops agree in every other case.
- Audit.AuditLog: inherits the corrected listing loop through `Audit.Analyse`, for the same reason.
- Audit.AuditRepository: inherits the corrected listing loop through `Audit.AuditLog`, for the same reason.
- Audit.AuditRepository: assumes that the fork-list request of `fetch_forked_repos` (src/utilities.py:224-226, called at src/git_audit.py:351) does not raise. That request is network I/O and sits outside any `try`, so a connection error or timeout there ends the audit with no report and no frequency table, which the model's exact failure condition does not include.

## Findings

| source | as written | input that shows it | evidently intended | confidence | as-written member | corrected member |
|---|---|---|---|---|---|---|
| src/git_audit.py:248 | `split('/')[-1].replace('.git', '')` removes every `.git` in the last segment | `https://github.com/o/.github` gives the repository name `hub` | remove only a trailing `.git` | high; not executed | Urls.RepoNameAsWrittenMangles | Urls.RepoNameOfClone |
| src/git_audit.py:153-155 | the handler prints `ls_tree_cmd.stderr`, but `ls_tree_cmd` is unbound when the first `git ls-tree` fails | a log whose only change comes before any header, so its commit is None and `git ls-tree None` fails; UnboundLocalError ends the audit | report the failure and skip the commit | high; not executed | Trees.UnboundOnFirstFailure | Trees.ListCommit |

=== FILE: audit.dfy ===
/** `audit_repository`: the log, the size index, the tree listings and the
    blob scan joined into one row per change, with the ID counts of the
    change's content and name, sorted by total count. The outputs of the git
    commands are parameters; the CSV and JSON files, the collaborator table
    and the fork list are not modelled. */
module Audit {
  import opened Wrappers
  import opened Exceptions
  import opened Sorting
  import opened Counts
  import opened Matcher
  import opened GitStatus
  import opened Urls
  import opened SizeIndex
  import opened History
  import opened Trees
  import opened Scan
  import opened Joins
  import opened Seqs

  /** What the git commands print. `log` is None when the clone, the update
      or `git log` fails (`CalledProcessError`, caught by the audit);
      `lsTree` and `show` are the per-commit and per-blob commands. */
  datatype GitOutputs = GitOutputs(
    log: Option<string>,
    catFile: string,
    lsTree: string -> Option<string>,
    show: string -> Option<string>)

  /** A log row with what the three merges attach to it */
  datatype Joined = Joined(log: LogRow, blobHash: Option<string>, sizeBytes: Option<nat>, scan: Option<BlobScan>)

  /** One row of the report, its fields in the order of `ordered_cols`.
      None stands for NaN; `sizeMilli` is `size_MB` in thousandths and
      `foundIds` is the dict written as JSON (`""` when empty). The three
      link columns are computed from the owner, name, commit and filename
      columns, so they are the row's member functions. */
  datatype ReportRow = ReportRow(
    repoName: string, repoOwner: string, repoFullName: string,
    commit: Option<string>, date: Option<string>, status: string, filename: string, fileExt: string, blobHash: Option<string>,
    sizeBytes: Option<nat>, sizeMilli: Option<nat>, eidOcc: Option<nat>, filenameOcc: nat, totalOcc: nat,
    uniqueOcc: Option<nat>, foundIds: Option<Dict<string>>,
    refs: Option<string>, oldFilename: string, decision: string, justification: string)
  {
    /** `repo_link` */
    function RepoLinkColumn(): string {
      RepoLink(repoOwner, repoName)
    }

    /** `raw_link` */
    function RawLinkColumn(): string {
      RawLink(repoOwner, repoName, commit, filename)
    }

    /** `file_link` */
    function FileLinkColumn(): string {
      FileLink(repoOwner, repoName, commit, filename)
    }
  }

  datatype Outcome =
    | GitFailed                                              // a git command failed: nothing written
    | Placeholder                                            // no commits: the one-row note
    | Report(rows: seq<ReportRow>, frequencies: Dict<string>) // the report and the ID frequency table

  const BytesPerMB: nat := 1024 * 1024

  function Map<A, B>(xs: seq<A>, f: A -> B): (ys: seq<B>)
    ensures |ys| == |xs| && forall i | 0 <= i < |xs| :: ys[i] == f(xs[i])
  {
    seq(|xs|, i requires 0 <= i < |xs| => f(xs[i]))
  }

  // ---------------------------------------------------------------------
  // the merges

  function CommitOf(row: LogRow): Option<string> {
    if row.header.Some? then Some(row.header.value.commit) else None
  }

  function LogKey(row: LogRow): (Option<string>, string) {
    (CommitOf(row), row.filename)
  }

  function EntryKey(e: TreeEntry): (Option<string>, string) {
    (e.commit, e.filename)
  }

  function HashOf(j: Joined): Option<string> {
    j.blobHash
  }

  function SizeKey(s: SizeRow): Option<string> {
    s.blobHash
  }

  function ScanKey(b: BlobScan): Option<string> {
    Some(b.blobHash)
  }

  function FromTree(p: (LogRow, Option<TreeEntry>)): Joined {
    Joined(p.0, if p.1.Some? then Some(p.1.value.blobHash) else None, None, None)
  }

  function WithSize(p: (Joined, Option<SizeRow>)): Joined {
    p.0.(sizeBytes := if p.1.Some? then p.1.value.sizeBytes else None)
  }

  function WithScan(p: (Joined, Option<BlobScan>)): Joined {
    p.0.(scan := p.1)
  }

  /** The hash a row with the given `(commit, filename)` gets from the tree
      listing: the hash of an entry with that key, or none when no entry
      has the key */
  ghost predicate HashFrom(key: (Option<string>, string), hash: Option<string>, entries: seq<TreeEntry>) {
    && (hash.Some? ==> exists e | e in entries :: EntryKey(e) == key && e.blobHash == hash.value)
    && (hash.None? ==> forall e | e in entries :: EntryKey(e) != key)
  }

  /** The size a row with the given hash gets from the size index: the size
      of an index row with that hash, or none when no index row has it */
  ghost predicate SizeFrom(hash: Option<string>, size: Option<nat>, sizes: seq<SizeRow>) {
    || (exists s | s in sizes :: s.blobHash == hash && s.sizeBytes == size)
    || (size.None? && forall s | s in sizes :: s.blobHash != hash)
  }

  /** The merge on `(commit, filename)` with the tree entries: a row gets
      the blob hash of its file in its commit, or none when the commit's
      listing does not hold the file (a deleted file, say) */
  function TreeJoin(log: seq<LogRow>, entries: seq<TreeEntry>): (rows: seq<Joined>)
    ensures |rows| >= |log|
    ensures forall k | 0 <= k < |rows| :: rows[k].log in log && rows[k].sizeBytes.None? && rows[k].scan.None?
    ensures forall i | 0 <= i < |log| :: HasLog(rows, log[i])
    ensures forall k | 0 <= k < |rows| :: HashFrom(LogKey(rows[k].log), rows[k].blobHash, entries)
  {
    var treed := LeftJoin(log, entries, LogKey, EntryKey);
    var rows := Map(treed, FromTree);
    forall k | 0 <= k < |rows|
      ensures HashFrom(LogKey(rows[k].log), rows[k].blobHash, entries)
    {
      assert Matched(treed[k], entries, LogKey, EntryKey);
    }
    forall i | 0 <= i < |log|
      ensures HasLog(rows, log[i])
    {
      LeftRowsSurvive(log, entries, LogKey, EntryKey, i);
      var k :| 0 <= k < |treed| && treed[k].0 == log[i];
      assert rows[k].log == log[i];
    }
    rows
  }

  /** The merge on `blob_hash` with the size index: a row gets the size of a
      size row with its hash, or none; nothing else changes */
  function SizeJoin(rows: seq<Joined>, sizes: seq<SizeRow>): (out: seq<Joined>)
    ensures |out| >= |rows|
    ensures forall k | 0 <= k < |out| :: out[k].(sizeBytes := None) in Map(rows, ClearSize)
    ensures forall i | 0 <= i < |rows| :: HasLog(out, rows[i].log)
    ensures forall k | 0 <= k < |out| :: SizeFrom(out[k].blobHash, out[k].sizeBytes, sizes)
  {
    var sized := LeftJoin(rows, sizes, HashOf, SizeKey);
    var out := Map(sized, WithSize);
    forall k | 0 <= k < |out|
      ensures out[k].(sizeBytes := None) in Map(rows, ClearSize)
      ensures SizeFrom(out[k].blobHash, out[k].sizeBytes, sizes)
    {
      assert Matched(sized[k], sizes, HashOf, SizeKey);
      if sized[k].1.Some? {
        var s := sized[k].1.value;
        assert s in sizes && s.blobHash == out[k].blobHash && s.sizeBytes == out[k].sizeBytes;
      }
      var i :| 0 <= i < |rows| && rows[i] == sized[k].0;
      assert Map(rows, ClearSize)[i] == out[k].(sizeBytes := None);
    }
    forall i | 0 <= i < |rows|
      ensures HasLog(out, rows[i].log)
    {
      LeftRowsSurvive(rows, sizes, HashOf, SizeKey, i);
      var k :| 0 <= k < |sized| && sized[k].0 == rows[i];
      assert out[k].log == rows[i].log;
    }
    out
  }

  function ClearSize(j: Joined): Joined {
    j.(sizeBytes := None)
  }

  /** Both merges before the scan */
  function Attach(log: seq<LogRow>, entries: seq<TreeEntry>, sizes: seq<SizeRow>): (rows: seq<Joined>)
    ensures |rows| >= |log|
    ensures forall k | 0 <= k < |rows| :: rows[k].log in log && rows[k].scan.None?
    ensures forall i | 0 <= i < |log| :: HasLog(rows, log[i])
    ensures forall k | 0 <= k < |rows| :: HashFrom(LogKey(rows[k].log), rows[k].blobHash, entries)
    ensures forall k | 0 <= k < |rows| :: SizeFrom(rows[k].blobHash, rows[k].sizeBytes, sizes)
  {
    var first := TreeJoin(log, entries);
    var rows := SizeJoin(first, sizes);
    SizesKeepTrees(log, entries, first, rows);
    LogsSurvive(log, first, rows);
    rows
  }

  /** The size merge leaves the log row, the hash and the scan of each row
      as the tree merge set them */
  lemma SizesKeepTrees(log: seq<LogRow>, entries: seq<TreeEntry>, first: seq<Joined>, rows: seq<Joined>)
    requires forall k | 0 <= k < |first| :: first[k].log in log && first[k].scan.None?
    requires forall k | 0 <= k < |first| :: HashFrom(LogKey(first[k].log), first[k].blobHash, entries)
    requires forall k | 0 <= k < |rows| :: rows[k].(sizeBytes := None) in Map(first, ClearSize)
    ensures forall k | 0 <= k < |rows| :: rows[k].log in log && rows[k].scan.None?
    ensures forall k | 0 <= k < |rows| :: HashFrom(LogKey(rows[k].log), rows[k].blobHash, entries)
  {
    forall k | 0 <= k < |rows|
      ensures rows[k].log in log && rows[k].scan.None?
      ensures HashFrom(LogKey(rows[k].log), rows[k].blobHash, entries)
    {
      var cleared := Map(first, ClearSize);
      var i :| 0 <= i < |cleared| && cleared[i] == rows[k].(sizeBytes := None);
      assert first[i].log == rows[k].log && first[i].blobHash == rows[k].blobHash;
    }
  }

  /** A log row that reaches the first merge's output reaches the second's */
  lemma LogsSurvive(log: seq<LogRow>, first: seq<Joined>, rows: seq<Joined>)
    requires forall i | 0 <= i < |log| :: HasLog(first, log[i])
    requires forall i | 0 <= i < |first| :: HasLog(rows, first[i].log)
    ensures forall i | 0 <= i < |log| :: HasLog(rows, log[i])
  {
    forall i | 0 <= i < |log|
      ensures HasLog(rows, log[i])
    {
      var m :| 0 <= m < |first| && first[m].log == log[i];
      assert HasLog(rows, first[m].log);
    }
  }

  /** With one tree entry per `(commit, filename)` and one size row per hash,
      the merges keep the log's rows, in order */
  lemma AttachKeepsRows(log: seq<LogRow>, entries: seq<TreeEntry>, sizes: seq<SizeRow>)
    requires UniqueKeys(entries, EntryKey) && UniqueKeys(sizes, SizeKey)
    ensures |Attach(log, entries, sizes)| == |log|
    ensures forall i | 0 <= i < |log| :: Attach(log, entries, sizes)[i].log == log[i]
  {
    UniqueKeysKeepRows(log, entries, LogKey, EntryKey);
    UniqueKeysKeepRows(TreeJoin(log, entries), sizes, HashOf, SizeKey);
  }

  /** The merge on `blob_hash` with the scan table; the scan has one row per
      hash, so each row gets the scan of its own blob */
  function AttachScans(rows: seq<Joined>, scans: seq<BlobScan>): (out: seq<Joined>)
    requires UniqueKeys(scans, ScanKey)
    ensures |out| == |rows|
    ensures forall i | 0 <= i < |rows| :: out[i] == rows[i].(scan := Lookup(scans, ScanKey, rows[i].blobHash))
  {
    UniqueKeysKeepRows(rows, scans, HashOf, ScanKey);
    Map(LeftJoin(rows, scans, HashOf, ScanKey), WithScan)
  }

  // ---------------------------------------------------------------------
  // the derived columns

  /** `contextualise_git_status` applied to the status column; a status whose
      similarity is not a number raises ValueError */
  function Statuses(rows: seq<Joined>): (r: Result<seq<string>, PyException>)
    ensures r.Err? <==> exists k | 0 <= k < |rows| :: Contextualise(Some(rows[k].log.status)).Err?
    ensures r.Ok? ==> |r.value| == |rows|
    ensures r.Ok? ==> forall k | 0 <= k < |rows| :: Contextualise(Some(rows[k].log.status)) == Ok(r.value[k])
  {
    if rows == [] then Ok([])
    else
      var first :- Contextualise(Some(rows[0].log.status));
      var rest := Statuses(rows[1..]);
      if rest.Err? then
        SomeInTail(rows, (row: Joined) => Contextualise(Some(row.log.status)).Err?);
        Err(rest.error)
      else
        ConsRelated(rows, first, rest.value, (row: Joined, s: string) => Contextualise(Some(row.log.status)) == Ok(s));
        Ok([first] + rest.value)
  }

  /** `1 if re.search(pattern, filename) else 0` */
  function FilenameOcc(filename: string): (n: nat)
    ensures n <= 1
    ensures n == 1 <==> RegexFindAll(filename) != []
  {
    SearchIffFound(filename);
    FindIdsIsRegex(filename);
    if Search(filename) then 1 else 0
  }

  /** `milli` thousandths of a MB is `bytes` rounded down */
  predicate IsMilli(bytes: nat, milli: nat) {
    milli * BytesPerMB <= bytes * 1000 < (milli + 1) * BytesPerMB
  }

  /** `size_MB` in thousandths: the floor of bytes·1000/1024², NaN without a size */
  function SizeMilli(bytes: Option<nat>): (m: Option<nat>)
    ensures m.Some? <==> bytes.Some?
    ensures bytes.Some? ==> IsMilli(bytes.value, m.value)
  {
    if bytes.Some? then Some(bytes.value * 1000 / BytesPerMB) else None
  }

  /** The content columns a merged row receives from its scan, NaN without one */
  function ScanColumns(scan: Option<BlobScan>): (Option<nat>, Option<nat>, Option<Dict<string>>) {
    match scan
    case None => (None, None, None)
    case Some(s) => (s.eidOcc, Some(s.uniqueOcc), Some(s.foundIds))
  }

  /** `total_occ`: the content count, 0 when unknown, plus the filename flag */
  function Total(eid: Option<nat>, nameOcc: nat): nat {
    eid.GetOr(0) + nameOcc
  }

  /** The report row of one merged row */
  function Derive(j: Joined, status: string, owner: string, repo: string, fileExt: string -> Option<string>): (r: ReportRow)
    ensures r.filename == j.log.filename && r.blobHash == j.blobHash && r.sizeBytes == j.sizeBytes
    ensures r.filenameOcc == 1 <==> RegexFindAll(r.filename) != []
    ensures r.totalOcc == r.eidOcc.GetOr(0) + r.filenameOcc
    ensures r.totalOcc >= r.filenameOcc
    ensures j.scan.None? ==> r.eidOcc.None? && r.uniqueOcc.None? && r.foundIds.None?
    ensures j.scan.Some? ==>
      && r.eidOcc == j.scan.value.eidOcc
      && r.uniqueOcc == Some(j.scan.value.uniqueOcc)
      && r.foundIds == Some(j.scan.value.foundIds)
    ensures r.sizeMilli.Some? <==> r.sizeBytes.Some?
    ensures r.sizeBytes.Some? ==> IsMilli(r.sizeBytes.value, r.sizeMilli.value)
  {
    var row := j.log;
    var commit := CommitOf(row);
    var date := if row.header.Some? then Some(row.header.value.date) else None;
    var refs := if row.header.Some? then Some(row.header.value.refs) else None;
    var (eid, unique, found) := ScanColumns(j.scan);
    var nameOcc := FilenameOcc(row.filename);
    var total := Total(eid, nameOcc);
    var milli := SizeMilli(j.sizeBytes);
    var fullName := owner + "/" + repo;
    ReportRow(
      repo, owner, fullName, commit, date,
      status, row.filename, fileExt(row.filename).GetOr("unknown"), j.blobHash,
      j.sizeBytes, milli, eid, nameOcc, total, unique, found,
      refs, row.oldFilename, "", "")
  }

  /** The sort key of the report: a row's `total_occ` */
  function RowTotal(r: ReportRow): int {
    r.totalOcc
  }

  // ---------------------------------------------------------------------
  // the audit

  /** The commit column handed to `get_blob_hashes_for_commits` */
  function Commits(log: seq<LogRow>): seq<Option<string>> {
    Map(log, CommitOf)
  }

  function Hashes(rows: seq<Joined>): seq<Option<string>> {
    Map(rows, HashOf)
  }

  /** The merged row carries the scan of its own blob, NaN without a blob */
  ghost predicate Scanned(j: Joined, show: string -> Option<string>) {
    && (j.blobHash.None? ==> j.scan.None?)
    && (j.blobHash.Some? ==> j.scan == Some(ScanBlob(j.blobHash.value, show(j.blobHash.value))))
  }

  /** The scan of the merged rows' blobs and the merge of its table */
  function Merge(attached: seq<Joined>, show: string -> Option<string>): (joined: seq<Joined>)
    ensures |joined| == |attached|
    ensures forall i | 0 <= i < |attached| ::
      joined[i].log == attached[i].log && joined[i].blobHash == attached[i].blobHash
      && joined[i].sizeBytes == attached[i].sizeBytes
    ensures forall i | 0 <= i < |attached| :: Scanned(joined[i], show)
  {
    var scans := AnalyseBlobs(Hashes(attached), show).0;
    var joined := AttachScans(attached, scans);
    forall i | 0 <= i < |attached|
      ensures Scanned(joined[i], show)
    {
      ScanOfRow(attached, show, i);
    }
    joined
  }

  /** The report rows, one per merged row */
  function DeriveAll(joined: seq<Joined>, statuses: seq<string>, owner: string, repo: string, fileExt: string -> Option<string>): (rows: seq<ReportRow>)
    requires |statuses| == |joined|
    ensures |rows| == |joined|
    ensures forall i | 0 <= i < |joined| :: rows[i] == Derive(joined[i], statuses[i], owner, repo, fileExt)
  {
    seq(|joined|, i requires 0 <= i < |joined| => Derive(joined[i], statuses[i], owner, repo, fileExt))
  }

  /** `total_eids_df.sort_values(by='count', ascending=False)`: the same
      entries, most frequent first, still one per ID */
  function Frequencies(counts: Dict<string>): (f: Dict<string>)
    requires Valid(counts)
    ensures multiset(f) == multiset(counts)
    ensures NonIncreasing(f, Count)
    ensures Valid(f)
    ensures forall id :: Get(f, id) == Get(counts, id)
  {
    var f := SortDesc(counts, Count);
    PermutedValid(counts, f);
    forall id
      ensures Get(f, id) == Get(counts, id)
    {
      GetPermuted(counts, f, id);
    }
    f
  }

  /** Sorting the tally keeps every count positive */
  lemma FrequenciesPositive(counts: Dict<string>)
    requires Valid(counts) && Positive(counts)
    ensures Positive(Frequencies(counts))
  {
    var f := Frequencies(counts);
    forall i | 0 <= i < |f|
      ensures f[i].1 >= 1
    {
      assert f[i] in multiset(counts);
      var j :| 0 <= j < |counts| && counts[j] == f[i];
    }
  }

  /** The blobs the audit reads: the distinct hashes of the merged rows */
  function BlobsOf(attached: seq<Joined>): seq<string> {
    Distinct(Somes(Hashes(attached)))
  }

  /** Some merged row comes from the log row */
  predicate HasLog(rows: seq<Joined>, l: LogRow) {
    exists k | 0 <= k < |rows| :: rows[k].log == l
  }

  /** Some report row comes from the log row */
  ghost predicate Reported(rows: seq<ReportRow>, l: LogRow) {
    exists row | row in rows :: Reports(row, l)
  }

  /** A report row of the given log row: its commit, date, refs, paths, and
      its status described */
  ghost predicate Reports(row: ReportRow, l: LogRow) {
    && row.commit == CommitOf(l)
    && row.filename == l.filename
    && row.oldFilename == l.oldFilename
    && row.date == (if l.header.Some? then Some(l.header.value.date) else None)
    && row.refs == (if l.header.Some? then Some(l.header.value.refs) else None)
    && Contextualise(Some(l.status)) == Ok(row.status)
  }

  /** The report row comes from some row of the log */
  ghost predicate Traced(row: ReportRow, log: seq<LogRow>) {
    exists l | l in log :: Reports(row, l)
  }

  /** The row's blob hash is the one the tree listing holds for its commit
      and filename, and its size the one the size index holds for that hash */
  ghost predicate FromIndexes(row: ReportRow, entries: seq<TreeEntry>, sizes: seq<SizeRow>) {
    HashFrom((row.commit, row.filename), row.blobHash, entries) && SizeFrom(row.blobHash, row.sizeBytes, sizes)
  }

  /** What the audit promises of the report rows: at least one row per
      change, sorted by total, every row faithful to the URL, to its blob
      and to the indexes, every row traced to a change, and every change
      reported */
  ghost predicate RowsPromised(url: string, log: seq<LogRow>, entries: seq<TreeEntry>, sizes: seq<SizeRow>,
                               show: string -> Option<string>, rows: seq<ReportRow>) {
    && |rows| >= |log|
    && Owner(url).Ok?
    && NonIncreasing(rows, RowTotal)
    && (forall row | row in rows :: RowFaithful(row, url, show) && FromIndexes(row, entries, sizes))
    && (forall i | 0 <= i < |log| :: Reported(rows, log[i]))
    && (forall row | row in rows :: Traced(row, log))
  }

  /** What the audit promises of the ID frequency table: one entry per ID,
      most frequent first, each count the ID's occurrences over the blobs,
      and no ID listed with count 0 */
  ghost predicate TablePromised(f: Dict<string>, blobs: seq<string>, show: string -> Option<string>) {
    && NonIncreasing(f, Count)
    && Valid(f)
    && Positive(f)
    && forall id :: Get(f, id) == Occurrences(blobs, show, id)
  }

  /** The blobs are the distinct blobs the report rows hold, each once */
  ghost predicate BlobsOfRows(blobs: seq<string>, rows: seq<ReportRow>) {
    && NoDups(blobs)
    && (forall k | 0 <= k < |blobs| :: exists row | row in rows :: row.blobHash == Some(blobs[k]))
    && (forall row | row in rows && row.blobHash.Some? :: row.blobHash.value in blobs)
  }

  /** What the audit promises of a report for the given log, tree listing
      and size index: the rows as above, and a frequency table counted over
      exactly the blobs of the report's rows */
  ghost predicate Promised(url: string, log: seq<LogRow>, entries: seq<TreeEntry>, sizes: seq<SizeRow>,
                           show: string -> Option<string>, o: Outcome) {
    o.Report? ==>
      var blobs := BlobsOf(Attach(log, entries, sizes));
      && RowsPromised(url, log, entries, sizes, show, o.rows)
      && TablePromised(o.frequencies, blobs, show)
      && BlobsOfRows(blobs, o.rows)
  }

  /** The report rows before the sort: the scan merged in, the status
      described and the derived columns added. A status that `int()`
      cannot read and a URL without an owner segment end the audit. */
  function Unsorted(url: string, attached: seq<Joined>, show: string -> Option<string>, fileExt: string -> Option<string>): (r: Result<seq<ReportRow>, PyException>)
    ensures r.Err? <==>
      || (exists k | 0 <= k < |attached| :: Contextualise(Some(attached[k].log.status)).Err?)
      || Owner(url).Err?
    ensures r.Ok? ==> |r.value| == |attached| && Owner(url).Ok?
    ensures r.Ok? ==> forall i | 0 <= i < |attached| ::
      && RowFaithful(r.value[i], url, show)
      && Reports(r.value[i], attached[i].log)
      && r.value[i].blobHash == attached[i].blobHash
      && r.value[i].sizeBytes == attached[i].sizeBytes
  {
    var joined := Merge(attached, show);
    var statuses :- Statuses(joined);
    var owner :- Owner(url);
    var rows := DeriveAll(joined, statuses, owner, RepoName(url), fileExt);
    DerivedRows(joined, statuses, url, show, fileExt);
    Ok(rows)
  }

  /** The derived row of a scanned merged row is faithful and reports its change */
  lemma DerivedRow(j: Joined, status: string, url: string, show: string -> Option<string>, fileExt: string -> Option<string>)
    requires Owner(url).Ok? && Scanned(j, show)
    requires Contextualise(Some(j.log.status)) == Ok(status)
    ensures var row := Derive(j, status, Owner(url).value, RepoName(url), fileExt);
      RowFaithful(row, url, show) && Reports(row, j.log)
  {
  }

  lemma DerivedRows(joined: seq<Joined>, statuses: seq<string>, url: string, show: string -> Option<string>, fileExt: string -> Option<string>)
    requires Owner(url).Ok? && |statuses| == |joined|
    requires forall i | 0 <= i < |joined| :: Scanned(joined[i], show)
    requires forall i | 0 <= i < |joined| :: Contextualise(Some(joined[i].log.status)) == Ok(statuses[i])
    ensures var rows := DeriveAll(joined, statuses, Owner(url).value, RepoName(url), fileExt);
      forall i | 0 <= i < |joined| :: RowFaithful(rows[i], url, show) && Reports(rows[i], joined[i].log)
  {
    forall i | 0 <= i < |joined|
      ensures var rows := DeriveAll(joined, statuses, Owner(url).value, RepoName(url), fileExt);
        RowFaithful(rows[i], url, show) && Reports(rows[i], joined[i].log)
    {
      DerivedRow(joined[i], statuses[i], url, show, fileExt);
    }
  }

  /** The derived rows take their hash and size from the indexes, as the
      merged rows did */
  lemma RowsFromIndexes(entries: seq<TreeEntry>, sizes: seq<SizeRow>, attached: seq<Joined>, rows: seq<ReportRow>)
    requires |rows| == |attached|
    requires forall k | 0 <= k < |attached| :: HashFrom(LogKey(attached[k].log), attached[k].blobHash, entries)
    requires forall k | 0 <= k < |attached| :: SizeFrom(attached[k].blobHash, attached[k].sizeBytes, sizes)
    requires forall i | 0 <= i < |rows| ::
      && Reports(rows[i], attached[i].log)
      && rows[i].blobHash == attached[i].blobHash
      && rows[i].sizeBytes == attached[i].sizeBytes
    ensures forall i | 0 <= i < |rows| :: FromIndexes(rows[i], entries, sizes)
  {
    forall i | 0 <= i < |rows|
      ensures FromIndexes(rows[i], entries, sizes)
    {
      assert (rows[i].commit, rows[i].filename) == LogKey(attached[i].log);
    }
  }

  /** The derived rows, one per merged row, before sorting: each is faithful
      to the URL, the scan and the indexes, and reports its merged log row,
      and the merged rows are exactly the log's rows */
  ghost predicate Derived(url: string, log: seq<LogRow>, entries: seq<TreeEntry>, sizes: seq<SizeRow>, attached: seq<Joined>,
                          show: string -> Option<string>, rows: seq<ReportRow>) {
    && Owner(url).Ok?
    && |rows| == |attached| >= |log|
    && (forall i | 0 <= i < |log| :: HasLog(attached, log[i]))
    && (forall k | 0 <= k < |attached| :: attached[k].log in log)
    && (forall i | 0 <= i < |rows| :: RowFaithful(rows[i], url, show) && FromIndexes(rows[i], entries, sizes))
    && (forall i | 0 <= i < |rows| :: Reports(rows[i], attached[i].log))
  }

  /** The sorted report: the rows by decreasing total, the tally by
      decreasing count */
  function Sorted(url: string, log: seq<LogRow>, entries: seq<TreeEntry>, sizes: seq<SizeRow>, attached: seq<Joined>,
                  show: string -> Option<string>, rows: seq<ReportRow>, counts: Dict<string>): (o: Outcome)
    requires Valid(counts) && Derived(url, log, entries, sizes, attached, show, rows)
    ensures o.Report? && multiset(o.rows) == multiset(rows) && o.frequencies == Frequencies(counts)
    ensures RowsPromised(url, log, entries, sizes, show, o.rows)
  {
    SortedPromised(url, log, entries, sizes, attached, show, rows);
    Report(SortDesc(rows, RowTotal), Frequencies(counts))
  }

  lemma SortedPromised(url: string, log: seq<LogRow>, entries: seq<TreeEntry>, sizes: seq<SizeRow>, attached: seq<Joined>,
                       show: string -> Option<string>, rows: seq<ReportRow>)
    requires Derived(url, log, entries, sizes, attached, show, rows)
    ensures RowsPromised(url, log, entries, sizes, show, SortDesc(rows, RowTotal))
  {
    var sorted := SortDesc(rows, RowTotal);
    AnyOrderFaithful(url, entries, sizes, show, rows, sorted);
    AnyOrderReported(log, attached, rows, sorted);
    AnyOrderTraced(log, attached, rows, sorted);
  }

  /** Faithful rows stay faithful in any order */
  lemma AnyOrderFaithful(url: string, entries: seq<TreeEntry>, sizes: seq<SizeRow>, show: string -> Option<string>,
                         rows: seq<ReportRow>, sorted: seq<ReportRow>)
    requires forall i | 0 <= i < |rows| :: RowFaithful(rows[i], url, show) && FromIndexes(rows[i], entries, sizes)
    requires multiset(sorted) == multiset(rows)
    ensures forall row | row in sorted :: RowFaithful(row, url, show) && FromIndexes(row, entries, sizes)
  {
    forall row | row in sorted
      ensures RowFaithful(row, url, show) && FromIndexes(row, entries, sizes)
    {
      assert row in multiset(rows);
    }
  }

  /** Every change that reached the merged rows reaches the report, in any order */
  lemma AnyOrderReported(log: seq<LogRow>, attached: seq<Joined>, rows: seq<ReportRow>, sorted: seq<ReportRow>)
    requires forall i | 0 <= i < |log| :: HasLog(attached, log[i])
    requires |rows| == |attached|
    requires forall i | 0 <= i < |rows| :: Reports(rows[i], attached[i].log)
    requires multiset(sorted) == multiset(rows)
    ensures forall i | 0 <= i < |log| :: Reported(sorted, log[i])
  {
    forall i | 0 <= i < |log|
      ensures Reported(sorted, log[i])
    {
      var k :| 0 <= k < |attached| && attached[k].log == log[i];
      assert rows[k] in multiset(sorted);
    }
  }

  /** Every report row comes from a change, in any order */
  lemma AnyOrderTraced(log: seq<LogRow>, attached: seq<Joined>, rows: seq<ReportRow>, sorted: seq<ReportRow>)
    requires forall k | 0 <= k < |attached| :: attached[k].log in log
    requires |rows| == |attached|
    requires forall i | 0 <= i < |rows| :: Reports(rows[i], attached[i].log)
    requires multiset(sorted) == multiset(rows)
    ensures forall row | row in sorted :: Traced(row, log)
  {
    forall row | row in sorted
      ensures Traced(row, log)
    {
      assert row in multiset(rows);
      var i :| 0 <= i < |rows| && rows[i] == row;
      assert Reports(row, attached[i].log);
    }
  }

  /** The scanned blobs are the distinct blobs of the report rows, whatever
      their order */
  lemma ReportBlobs(attached: seq<Joined>, rows: seq<ReportRow>, sorted: seq<ReportRow>)
    requires |rows| == |attached|
    requires forall i | 0 <= i < |rows| :: rows[i].blobHash == attached[i].blobHash
    requires multiset(sorted) == multiset(rows)
    ensures BlobsOfRows(BlobsOf(attached), sorted)
  {
    var column := Hashes(attached);
    var blobs := BlobsOf(attached);
    forall k | 0 <= k < |blobs|
      ensures exists row | row in sorted :: row.blobHash == Some(blobs[k])
    {
      var i :| 0 <= i < |column| && column[i] == Some(blobs[k]);
      assert rows[i] in multiset(sorted);
    }
    forall row | row in sorted && row.blobHash.Some?
      ensures row.blobHash.value in blobs
    {
      assert row in multiset(rows);
      var i :| 0 <= i < |rows| && rows[i] == row;
      assert column[i] == row.blobHash;
    }
  }

  /** The audit once the log has rows and the tree listing has entries: the
      merges, the scan, its merge, the derived columns and the sorts. A
      scan table without rows has no `blob_hash` column to merge on, and
      pandas raises KeyError. */
  function Finish(url: string, log: seq<LogRow>, entries: seq<TreeEntry>, sizes: seq<SizeRow>,
                  show: string -> Option<string>, fileExt: string -> Option<string>): (r: Result<Outcome, PyException>)
    ensures var attached := Attach(log, entries, sizes);
      && (r.Err? <==> NoBlobs(attached) || Unsorted(url, attached, show, fileExt).Err?)
      && (NoBlobs(attached) ==> r == Err(KeyError))
      && (r.Ok? ==> r.value.Report? && Promised(url, log, entries, sizes, show, r.value))
      && (r.Ok? ==> multiset(r.value.rows) == multiset(Unsorted(url, attached, show, fileExt).value))
  {
    var attached := Attach(log, entries, sizes);
    var scanned := AnalyseBlobs(Hashes(attached), show);
    NoScanNoHashes(attached, show);
    if scanned.0 == [] then Err(KeyError)
    else
      var rows :- Unsorted(url, attached, show, fileExt);
      FinishPromised(url, log, entries, sizes, show, fileExt, rows);
      Ok(Sorted(url, log, entries, sizes, attached, show, rows, scanned.1))
  }

  /** The sorted report of the derived rows keeps every promise */
  lemma FinishPromised(url: string, log: seq<LogRow>, entries: seq<TreeEntry>, sizes: seq<SizeRow>,
                       show: string -> Option<string>, fileExt: string -> Option<string>, rows: seq<ReportRow>)
    requires Unsorted(url, Attach(log, entries, sizes), show, fileExt) == Ok(rows)
    ensures var attached := Attach(log, entries, sizes);
      var counts := AnalyseBlobs(Hashes(attached), show).1;
      && Valid(counts)
      && Derived(url, log, entries, sizes, attached, show, rows)
      && Promised(url, log, entries, sizes, show, Sorted(url, log, entries, sizes, attached, show, rows, counts))
  {
    var attached := Attach(log, entries, sizes);
    var counts := AnalyseBlobs(Hashes(attached), show).1;
    RowsFromIndexes(entries, sizes, attached, rows);
    FrequenciesPositive(counts);
    var o := Sorted(url, log, entries, sizes, attached, show, rows, counts);
    ReportBlobs(attached, rows, o.rows);
  }

  /** No merged row has a blob hash */
  predicate NoBlobs(attached: seq<Joined>) {
    forall k | 0 <= k < |attached| :: attached[k].blobHash.None?
  }

  /** The scan table is empty exactly when no merged row has a blob */
  lemma NoScanNoHashes(attached: seq<Joined>, show: string -> Option<string>)
    ensures AnalyseBlobs(Hashes(attached), show).0 == [] <==> NoBlobs(attached)
  {
    var column := Hashes(attached);
    var scans := AnalyseBlobs(column, show).0;
    if scans != [] {
      assert Some(scans[0].blobHash) in column;
    }
    forall k | 0 <= k < |attached| && attached[k].blobHash.Some?
      ensures scans != []
    {
      assert column[k].Some?;
    }
  }

  /** The tree listing of the log's commits */
  function Listing(log: seq<LogRow>, git: GitOutputs): Result<seq<TreeEntry>, PyException> {
    ListTrees(Commits(log), git.lsTree)
  }

  /** When the analysis of a non-empty log raises: a tree listing raises,
      the listing is empty, no merged row has a blob, or a derived column
      raises */
  predicate AnalysisFails(url: string, log: seq<LogRow>, sizes: seq<SizeRow>, git: GitOutputs, fileExt: string -> Option<string>) {
    || Listing(log, git).Err?
    || Listing(log, git) == Ok([])
    || NoBlobs(Attach(log, Listing(log, git).value, sizes))
    || Unsorted(url, Attach(log, Listing(log, git).value, sizes), git.show, fileExt).Err?
  }

  /** The audit once the log has rows: the tree listings and the merges,
      then the rest. An empty listing leaves a frame without the merge
      columns, and pandas raises KeyError. */
  function Analyse(url: string, log: seq<LogRow>, sizes: seq<SizeRow>, git: GitOutputs, fileExt: string -> Option<string>): (r: Result<Outcome, PyException>)
    ensures r.Ok? ==> r.value.Report? && Listing(log, git).Ok? && Promised(url, log, Listing(log, git).value, sizes, git.show, r.value)
    ensures Listing(log, git) == Ok([]) ==> r == Err(KeyError)
    ensures r.Err? <==> AnalysisFails(url, log, sizes, git, fileExt)
  {
    var entries :- Listing(log, git);
    if entries == [] then Err(KeyError)
    else Finish(url, log, entries, sizes, git.show, fileExt)
  }

  // ---------------------------------------------------------------------
  // what each report row holds

  /** A report row as the audit promises it: the repository fields from
      the URL (and with them the links), the filename flag from the matcher, the total,
      the size in thousandths of a MB, and the scan fields of the row's own
      blob (NaN for a row without a blob) */
  ghost predicate RowFaithful(row: ReportRow, url: string, show: string -> Option<string>) {
    && row.repoName == RepoName(url)
    && Owner(url) == Ok(row.repoOwner)
    && row.repoFullName == row.repoOwner + "/" + row.repoName
    && (row.filenameOcc == 1 <==> RegexFindAll(row.filename) != [])
    && row.filenameOcc <= 1
    && row.totalOcc == row.eidOcc.GetOr(0) + row.filenameOcc
    && (row.sizeMilli.Some? <==> row.sizeBytes.Some?)
    && (row.sizeBytes.Some? ==> IsMilli(row.sizeBytes.value, row.sizeMilli.value))
    && (row.blobHash.None? ==> row.eidOcc.None? && row.uniqueOcc.None? && row.foundIds.None?)
    && (row.blobHash.Some? ==>
          var scan := ScanBlob(row.blobHash.value, show(row.blobHash.value));
          && row.eidOcc == scan.eidOcc
          && row.uniqueOcc == Some(scan.uniqueOcc)
          && row.foundIds == Some(scan.foundIds))
  }

  /** The scan a merged row receives is the scan of its own blob */
  lemma ScanOfRow(attached: seq<Joined>, show: string -> Option<string>, i: nat)
    requires i < |attached|
    ensures var scans := AnalyseBlobs(Hashes(attached), show).0;
      var s := Lookup(scans, ScanKey, attached[i].blobHash);
      && (attached[i].blobHash.None? ==> s.None?)
      && (attached[i].blobHash.Some? ==>
            s == Some(ScanBlob(attached[i].blobHash.value, show(attached[i].blobHash.value))))
  {
    var column := Hashes(attached);
    var scans := AnalyseBlobs(column, show).0;
    assert column[i] == attached[i].blobHash;
    ScanLookup(scans, show, attached[i].blobHash);
  }

  /** Looking a hash up in a table of scans that covers it finds its scan */
  lemma ScanLookup(scans: seq<BlobScan>, show: string -> Option<string>, key: Option<string>)
    requires forall k | 0 <= k < |scans| :: scans[k] == ScanBlob(scans[k].blobHash, show(scans[k].blobHash))
    requires key.Some? ==> exists k | 0 <= k < |scans| :: scans[k].blobHash == key.value
    ensures key.None? ==> Lookup(scans, ScanKey, key).None?
    ensures key.Some? ==> Lookup(scans, ScanKey, key) == Some(ScanBlob(key.value, show(key.value)))
  {
    var s := Lookup(scans, ScanKey, key);
    if key.Some? {
      var k :| 0 <= k < |scans| && scans[k].blobHash == key.value;
      assert ScanKey(scans[k]) == key;
      var m :| 0 <= m < |scans| && scans[m] == s.value;
    }
  }

  /** Rows of the same blob report the same content counts */
  lemma SameBlobSameCounts(url: string, log: seq<LogRow>, entries: seq<TreeEntry>, sizes: seq<SizeRow>,
                           show: string -> Option<string>, rows: seq<ReportRow>, a: ReportRow, b: ReportRow)
    requires RowsPromised(url, log, entries, sizes, show, rows)
    requires a in rows && b in rows && a.blobHash == b.blobHash
    ensures a.eidOcc == b.eidOcc && a.uniqueOcc == b.uniqueOcc && a.foundIds == b.foundIds
  {
    assert RowFaithful(a, url, show) && RowFaithful(b, url, show);
  }

  /** A report for the log keeps every promise, with the tree listing and
      the size index the git outputs give */
  ghost predicate Audited(url: string, log: seq<LogRow>, git: GitOutputs, o: Outcome) {
    && ParseSizeIndex(git.catFile).Ok?
    && Listing(log, git).Ok?
    && Promised(url, log, Listing(log, git).value, ParseSizeIndex(git.catFile).value, git.show, o)
  }

  /** When the audit of a parsed log raises: the size index does not parse,
      or the log has rows and their analysis raises */
  predicate AuditFails(url: string, log: seq<LogRow>, git: GitOutputs, fileExt: string -> Option<string>) {
    || ParseSizeIndex(git.catFile).Err?
    || (log != [] && AnalysisFails(url, log, ParseSizeIndex(git.catFile).value, git, fileExt))
  }

  /** The audit once the log is parsed: the size index, then the
      placeholder for an empty log or the analysis */
  function AuditLog(url: string, log: seq<LogRow>, git: GitOutputs, fileExt: string -> Option<string>): (r: Result<Outcome, PyException>)
    ensures r != Ok(GitFailed)
    ensures r == Ok(Placeholder) <==> log == [] && ParseSizeIndex(git.catFile).Ok?
    ensures r.Ok? && r.value.Report? ==> log != [] && Audited(url, log, git, r.value)
    ensures r.Err? <==> AuditFails(url, log, git, fileExt)
  {
    var sizes :- ParseSizeIndex(git.catFile);
    if log == [] then Ok(Placeholder)
    else Analyse(url, log, sizes, git, fileExt)
  }

  /** `audit_repository(url)`. Errors other than a failed git command are not
      caught and end the audit. */
  function AuditRepository(url: string, git: GitOutputs, fileExt: string -> Option<string>): (r: Result<Outcome, PyException>)
    ensures r == Ok(GitFailed) <==> git.log.None?
    ensures r == Ok(Placeholder) <==>
      git.log.Some? && ParseLog(git.log.value) == Ok([]) && ParseSizeIndex(git.catFile).Ok?
    ensures r.Ok? && r.value.Report? ==>
      && ParseLog(git.log.value).Ok?
      && ParseLog(git.log.value).value != []
      && Audited(url, ParseLog(git.log.value).value, git, r.value)
    ensures r.Err? <==>
      git.log.Some? && (ParseLog(git.log.value).Err? || AuditFails(url, ParseLog(git.log.value).value, git, fileExt))
  {
    match git.log
    case None => Ok(GitFailed)
    case Some(raw) =>
      var log :- ParseLog(raw);
      AuditLog(url, log, git, fileExt)
  }
}

=== FILE: authors.dfy ===
/** `parse_entry`: one line of `git log --pretty=format:'%an <%ae>'` read as
    a (name, email) pair, and the contributor entries built from such a log. */
module Authors {
  import opened Wrappers
  import opened Text
  import opened Seqs

  /** Position of the last `c` in `s` */
  function LastIndexOf(s: string, c: char): (r: Option<nat>)
    ensures r.None? <==> c !in s
    ensures r.Some? ==> r.value < |s| && s[r.value] == c
    ensures r.Some? ==> forall k | r.value < k < |s| :: s[k] != c
  {
    if s == [] then None
    else if s[|s| - 1] == c then Some(|s| - 1)
    else
      var r := LastIndexOf(s[..|s| - 1], c);
      assert s == s[..|s| - 1] + [s[|s| - 1]];
      r
  }

  /** The text `.` can run over: up to the first newline */
  function FirstLine(s: string): (line: string)
    ensures '\n' !in line && StartsWith(s, line)
  {
    var parts := Split(s, '\n');
    assert parts == [parts[0]] || s == parts[0] + ['\n'] + Join(parts[1..], '\n');
    parts[0]
  }

  /** Where the greedy groups of `(.*)<(.*)>` put the brackets: the last `>`
      of the line, and the last `<` before it */
  predicate GreedyBrackets(line: string, i: nat, j: nat) {
    && i < j < |line|
    && line[i] == '<' && line[j] == '>'
    && (forall k | j < k < |line| :: line[k] != '>')
    && (forall k | i < k < j :: line[k] != '<')
  }

  /** The entry with its quotes removed and the escaped brackets restored */
  function Clean(entry: string): string {
    var e := StripChar(entry, '\'');
    StripChar(ReplaceAll(ReplaceAll(e, "&amp;lt;", "<"), "&amp;gt;", ">"), '\'')
  }

  /** The bracket positions the match settles on, None when it fails */
  function FindBrackets(line: string): (r: Option<(nat, nat)>)
    ensures r.None? <==> !exists i, j | 0 <= i < j < |line| :: line[i] == '<' && line[j] == '>'
    ensures r.Some? ==> GreedyBrackets(line, r.value.0, r.value.1)
  {
    match LastIndexOf(line, '>')
    case None => None
    case Some(j) =>
      var before := line[..j];
      assert forall i | 0 <= i < j :: line[i] == before[i];
      match LastIndexOf(before, '<')
      case None => None
      case Some(i) => Some((i, j))
  }

  /** `parse_entry(entry)`; None stands for the pair (None, None) */
  function ParseEntry(entry: string): (r: Option<(string, string)>)
    ensures var line := FirstLine(Clean(entry));
      && (r.None? <==> !exists i, j | 0 <= i < j < |line| :: line[i] == '<' && line[j] == '>')
      && (r.Some? ==> exists i: nat, j: nat | GreedyBrackets(line, i, j) ::
            r.value == (Strip(line[..i]), Lower(Strip(line[i + 1..j]))))
  {
    ParseLine(FirstLine(Clean(entry)))
  }

  /** The match on the cleaned first line */
  function ParseLine(line: string): (r: Option<(string, string)>)
    ensures r.None? <==> !exists i, j | 0 <= i < j < |line| :: line[i] == '<' && line[j] == '>'
    ensures r.Some? ==> exists i: nat, j: nat | GreedyBrackets(line, i, j) ::
      r.value == (Strip(line[..i]), Lower(Strip(line[i + 1..j])))
  {
    match FindBrackets(line)
    case None => None
    case Some((i, j)) =>
      assert GreedyBrackets(line, i, j);
      Some((Strip(line[..i]), Lower(Strip(line[i + 1..j]))))
  }

  // ---------------------------------------------------------------------
  // round trip with git's output format

  /** A name or email git can print inside `'%an <%ae>'` without making the
      line ambiguous: no brackets, newlines, quotes or ampersands, and no
      surrounding whitespace */
  predicate Plain(s: string) {
    && '<' !in s && '>' !in s && '\n' !in s && '&' !in s && '\'' !in s
    && (s == [] || (!IsSpace(s[0]) && !IsSpace(s[|s| - 1])))
  }

  /** The line `git log --pretty=format:'%an <%ae>'` prints */
  function Format(name: string, email: string): string {
    "'" + Body(name, email) + "'"
  }

  function Body(name: string, email: string): string {
    name + " <" + email + ">"
  }

  lemma NoAmpNoMatch(s: string, pat: string)
    requires |pat| > 0 && pat[0] == '&' && '&' !in s
    ensures !Contains(s, pat)
  {
  }

  lemma StripCharKeeps(s: string, c: char)
    requires s != [] && s[0] != c && s[|s| - 1] != c
    ensures StripChar(s, c) == s
  {
    assert LStrip(s, x => x == c) == s;
  }

  lemma StripCharQuoted(x: string, c: char)
    requires x != [] && x[0] != c && x[|x| - 1] != c
    ensures StripChar([c] + x + [c], c) == x
  {
    var s := [c] + x + [c];
    var drop := x => x == c;
    assert s[1..] == x + [c];
    assert LStrip(s, drop) == LStrip(x + [c], drop);
    assert LStrip(x + [c], drop) == x + [c];
    assert (x + [c])[..|x|] == x;
    assert RStrip(x + [c], drop) == RStrip(x, drop);
  }

  lemma StripPlain(s: string)
    requires Plain(s)
    ensures Strip(s) == s
  {
    StripNoSpaceEnds(s);
  }

  lemma StripPlainSpace(s: string)
    requires Plain(s)
    ensures Strip(s + " ") == s
  {
    var t := s + " ";
    assert t[..|s|] == s;
    assert RStrip(t, IsSpace) == RStrip(s, IsSpace);
    if s != [] {
      assert LStrip(t, IsSpace) == t;
      assert RStrip(s, IsSpace) == s;
    } else {
      assert LStrip(t, IsSpace) == [];
    }
  }

  lemma CleanFormat(name: string, email: string)
    requires Plain(name) && Plain(email)
    ensures Clean(Format(name, email)) == Body(name, email)
  {
    var x := Body(name, email);
    BodyEnds(name, email);
    var e := StripChar(Format(name, email), '\'');
    assert e == x by {
      assert Format(name, email) == ['\''] + x + ['\''];
      StripCharQuoted(x, '\'');
    }
    var lt := ReplaceAll(e, "&amp;lt;", "<");
    assert lt == x by {
      NoAmpNoMatch(x, "&amp;lt;");
    }
    var gt := ReplaceAll(lt, "&amp;gt;", ">");
    assert gt == x by {
      NoAmpNoMatch(x, "&amp;gt;");
    }
    StripCharKeeps(x, '\'');
  }

  /** The body neither starts nor ends with a quote and holds no ampersand */
  lemma BodyEnds(name: string, email: string)
    requires Plain(name) && Plain(email)
    ensures var x := Body(name, email);
      x != [] && x[0] != '\'' && x[|x| - 1] != '\'' && '&' !in x
  {
    var x := Body(name, email);
    if name != [] {
      assert x[0] == name[0];
    } else {
      assert x[0] == ' ';
    }
    forall k | 0 <= k < |x| ensures x[k] != '&' {
      if k < |name| {
        assert x[k] == name[k];
      } else if |name| + 2 <= k < |name| + 2 + |email| {
        assert x[k] == email[k - |name| - 2];
      }
    }
  }

  /** The greedy bracket pair is unique */
  lemma GreedyUnique(line: string, i: nat, j: nat, i2: nat, j2: nat)
    requires GreedyBrackets(line, i, j) && GreedyBrackets(line, i2, j2)
    ensures i == i2 && j == j2
  {
  }

  lemma BodyBrackets(name: string, email: string)
    requires Plain(name) && Plain(email)
    ensures FindBrackets(Body(name, email)) == Some((|name| + 1, |name| + 2 + |email|))
  {
    var x := Body(name, email);
    var i := |name| + 1;
    var j := |x| - 1;
    assert x[i] == '<' && x[j] == '>';
    assert x[i + 1..j] == email;
    assert forall k | i < k < j :: x[k] == email[k - i - 1];
    assert GreedyBrackets(x, i, j);
    var r := FindBrackets(x);
    GreedyUnique(x, i, j, r.value.0, r.value.1);
  }

  /** A formatted line parses back to its name and (lower-case) email */
  lemma ParseFormat(name: string, email: string)
    requires Plain(name) && Plain(email)
    requires forall k | 0 <= k < |email| :: !IsUpper(email[k])
    ensures ParseEntry(Format(name, email)) == Some((name, email))
  {
    BodyBrackets(name, email);
    LineOfFormat(name, email);
    BodyParts(name, email);
    ParseFrom(Format(name, email), Body(name, email), |name| + 1, |name| + 2 + |email|, name, email);
  }

  lemma LineOfFormat(name: string, email: string)
    requires Plain(name) && Plain(email)
    ensures FirstLine(Clean(Format(name, email))) == Body(name, email)
  {
    var x := Body(name, email);
    CleanFormat(name, email);
    BodyOneLine(name, email);
    SplitNoSep(x, '\n');
  }

  lemma BodyOneLine(name: string, email: string)
    requires Plain(name) && Plain(email)
    ensures '\n' !in Body(name, email)
  {
    var x := Body(name, email);
    forall k | 0 <= k < |x| ensures x[k] != '\n' {
      if k < |name| {
        assert x[k] == name[k];
      } else if |name| + 2 <= k < |name| + 2 + |email| {
        assert x[k] == email[k - |name| - 2];
      }
    }
  }

  lemma BodyParts(name: string, email: string)
    requires Plain(name) && Plain(email)
    requires forall k | 0 <= k < |email| :: !IsUpper(email[k])
    ensures var x := Body(name, email);
      && Strip(x[..|name| + 1]) == name
      && Lower(Strip(x[|name| + 2..|name| + 2 + |email|])) == email
  {
    var x := Body(name, email);
    assert x[..|name| + 1] == name + " ";
    assert x[|name| + 2..|name| + 2 + |email|] == email;
    StripPlainSpace(name);
    StripPlain(email);
  }

  lemma ParseFrom(q: string, x: string, i: nat, j: nat, name: string, email: string)
    requires FirstLine(Clean(q)) == x && FindBrackets(x) == Some((i, j))
    requires Strip(x[..i]) == name && Lower(Strip(x[i + 1..j])) == email
    ensures ParseEntry(q) == Some((name, email))
  {
  }

  // ---------------------------------------------------------------------
  // contributor entries

  /** The pair a log line contributes: blank lines are skipped and lines
      without an email dropped */
  function Entry(line: string): Option<(string, string)> {
    if Strip(line) != [] then ParseEntry(line) else None
  }

  /** The entries of `build_collaborator_table` after `dropna(subset=["Email"])`:
      every non-blank log line that parses, in log order */
  function Contributors(log: string): (entries: seq<(string, string)>)
    ensures var lines := Split(log, '\n');
      && |entries| <= |lines|
      && (forall k | 0 <= k < |lines| && Entry(lines[k]).Some? :: Entry(lines[k]).value in entries)
      && (forall k | 0 <= k < |entries| :: Some(entries[k]) in Entries(lines))
  {
    Somes(Entries(Split(log, '\n')))
  }

  function Entries(lines: seq<string>): (es: seq<Option<(string, string)>>)
    ensures |es| == |lines| && forall k | 0 <= k < |lines| :: es[k] == Entry(lines[k])
  {
    seq(|lines|, k requires 0 <= k < |lines| => Entry(lines[k]))
  }
}

=== FILE: counts.dfy ===
/** ID→count dictionaries: `update_dictionary`, `collections.Counter` and
    `Counter.most_common`. A Python dict is an insertion-ordered sequence of
    (key, value) entries with distinct keys; its order matters because
    `most_common` breaks ties by it. */
module Counts {
  import opened Seqs
  import opened Sorting

  type Dict<K> = seq<(K, int)>

  function Keys<K>(d: Dict<K>): (ks: seq<K>)
    ensures |ks| == |d| && forall i | 0 <= i < |d| :: ks[i] == d[i].0
  {
    if d == [] then [] else [d[0].0] + Keys(d[1..])
  }

  /** Keys are distinct, as in every Python dict */
  predicate Valid<K(==)>(d: Dict<K>) {
    NoDups(Keys(d))
  }

  /** The value stored under k, 0 when absent (a Counter's reading) */
  function Get<K(==)>(d: Dict<K>, k: K): int {
    if d == [] then 0 else if d[0].0 == k then d[0].1 else Get(d[1..], k)
  }

  function Sum<K>(d: Dict<K>): int {
    if d == [] then 0 else d[0].1 + Sum(d[1..])
  }

  lemma {:induction false} GetAbsent<K>(d: Dict<K>, k: K)
    requires k !in Keys(d)
    ensures Get(d, k) == 0
    decreases |d|
  {
    if d != [] {
      assert Keys(d[1..]) == Keys(d)[1..];
      GetAbsent(d[1..], k);
    }
  }

  /** `d[key] += value` if key is present, `d[key] = value` otherwise */
  function Add<K(==,!new)>(d: Dict<K>, key: K, value: int): (r: Dict<K>)
    ensures Keys(r) == if key in Keys(d) then Keys(d) else Keys(d) + [key]
    ensures Valid(d) ==> Valid(r)
    ensures Get(r, key) == Get(d, key) + value
    ensures forall k | k != key :: Get(r, k) == Get(d, k)
    ensures Sum(r) == Sum(d) + value
    decreases |d|
  {
    if d == [] then [(key, value)]
    else if d[0].0 == key then
      assert Keys(d[1..]) == Keys(d)[1..];
      var r := [(key, d[0].1 + value)] + d[1..];
      AddHere(d, key, value);
      KeysKeepValid(d, r, key);
      r
    else
      var rest := Add(d[1..], key, value);
      var r := [d[0]] + rest;
      AddBehind(d, rest, key);
      AddBehindReads(d, rest, key, value);
      KeysKeepValid(d, r, key);
      r
  }

  /** Adding to the first entry's key changes that entry's value only */
  lemma AddHere<K>(d: Dict<K>, key: K, value: int)
    requires d != [] && d[0].0 == key
    ensures var r := [(key, d[0].1 + value)] + d[1..];
      && Get(r, key) == Get(d, key) + value
      && (forall k | k != key :: Get(r, k) == Get(d, k))
      && Sum(r) == Sum(d) + value
  {
    var r := [(key, d[0].1 + value)] + d[1..];
    assert r[1..] == d[1..];
  }

  /** Adding behind a different first entry reads as adding to the tail */
  lemma AddBehindReads<K>(d: Dict<K>, rest: Dict<K>, key: K, value: int)
    requires d != [] && d[0].0 != key
    requires Get(rest, key) == Get(d[1..], key) + value
    requires forall k | k != key :: Get(rest, k) == Get(d[1..], k)
    requires Sum(rest) == Sum(d[1..]) + value
    ensures var r := [d[0]] + rest;
      && Get(r, key) == Get(d, key) + value
      && (forall k | k != key :: Get(r, k) == Get(d, k))
      && Sum(r) == Sum(d) + value
  {
    var r := [d[0]] + rest;
    assert r[1..] == rest;
  }

  /** A key added behind a different first entry: the first key, then the tail's keys */
  lemma AddBehind<K>(d: Dict<K>, rest: Dict<K>, key: K)
    requires d != [] && d[0].0 != key
    requires Keys(rest) == if key in Keys(d[1..]) then Keys(d[1..]) else Keys(d[1..]) + [key]
    ensures Keys([d[0]] + rest) == if key in Keys(d) then Keys(d) else Keys(d) + [key]
  {
    var r := [d[0]] + rest;
    var tail := Keys(d[1..]);
    assert Keys(d) == [d[0].0] + tail;
    assert r[1..] == rest;
    assert Keys(r) == [d[0].0] + Keys(rest);
    assert key in Keys(d) <==> key in tail;
    AppendAssoc([d[0].0], tail, [key]);
  }

  /** Adding a key only when it is new keeps the keys distinct */
  lemma KeysKeepValid<K>(d: Dict<K>, r: Dict<K>, key: K)
    requires Keys(r) == if key in Keys(d) then Keys(d) else Keys(d) + [key]
    ensures Valid(d) ==> Valid(r)
  {
  }

  /** In a dict with distinct keys, each entry is what its key reads */
  lemma {:induction false} GetEntry<K>(d: Dict<K>, j: nat)
    requires Valid(d) && j < |d|
    ensures Get(d, d[j].0) == d[j].1
    decreases j
  {
    if j > 0 {
      assert Keys(d[1..]) == Keys(d)[1..];
      assert Keys(d)[0] != Keys(d)[j];
      assert d[1..][j - 1] == d[j];
      GetEntry(d[1..], j - 1);
    }
  }

  /** An element at two positions is counted twice */
  lemma TwoPositions<T>(xs: seq<T>, i: nat, j: nat)
    requires i < j < |xs| && xs[i] == xs[j]
    ensures multiset(xs)[xs[i]] >= 2
  {
    assert xs == xs[..j] + [xs[j]] + xs[j + 1..];
    assert xs[..j][i] == xs[i];
    assert multiset(xs[..j])[xs[i]] >= 1;
  }

  /** Entries with distinct keys occur once each */
  lemma {:induction false} ValidOnce<K>(d: Dict<K>, a: nat)
    requires Valid(d) && a < |d|
    ensures multiset(d)[d[a]] == 1
  {
    var x := d[a];
    assert d == d[..a] + [x] + d[a + 1..];
    assert x !in d[..a] by {
      forall k | 0 <= k < a
        ensures d[..a][k] != x
      {
        assert Keys(d)[k] != Keys(d)[a];
      }
    }
    assert x !in d[a + 1..] by {
      forall k | a < k < |d|
        ensures d[k] != x
      {
        assert Keys(d)[a] != Keys(d)[k];
      }
    }
  }

  /** A reordered dict still has distinct keys */
  lemma PermutedValid<K>(d: Dict<K>, e: Dict<K>)
    requires Valid(d) && multiset(e) == multiset(d)
    ensures Valid(e)
  {
    SubDictValid(d, e);
  }

  /** Entries taken from a dict, each at most as often as there, have distinct keys */
  lemma SubDictValid<K>(d: Dict<K>, e: Dict<K>)
    requires Valid(d) && multiset(e) <= multiset(d)
    ensures Valid(e)
  {
    forall i, j | 0 <= i < j < |e|
      ensures Keys(e)[i] != Keys(e)[j]
    {
      assert e[i] in multiset(d) && e[j] in multiset(d);
      var a :| 0 <= a < |d| && d[a] == e[i];
      var b :| 0 <= b < |d| && d[b] == e[j];
      if a == b {
        TwoPositions(e, i, j);
        ValidOnce(d, a);
      } else {
        assert Keys(d)[a] != Keys(d)[b];
      }
    }
  }

  /** Reordering a dict does not change what any key reads */
  lemma GetPermuted<K>(d: Dict<K>, e: Dict<K>, k: K)
    requires Valid(d) && multiset(e) == multiset(d)
    ensures Get(e, k) == Get(d, k)
  {
    PermutedValid(d, e);
    if k in Keys(d) {
      var j :| 0 <= j < |d| && Keys(d)[j] == k;
      GetEntry(d, j);
      assert d[j] in multiset(e);
      var m :| 0 <= m < |e| && e[m] == d[j];
      GetEntry(e, m);
    } else {
      assert k !in Keys(e) by {
        forall m | 0 <= m < |e|
          ensures Keys(e)[m] != k
        {
          assert e[m] in multiset(d);
          var j :| 0 <= j < |d| && d[j] == e[m];
          assert Keys(d)[j] == e[m].0;
        }
      }
      GetAbsent(d, k);
      GetAbsent(e, k);
    }
  }

  /** `update_dictionary(ref, new)`: every entry of `new`, in its order,
      added into `ref` */
  function UpdateDictionary<K(==,!new)>(ref: Dict<K>, incoming: Dict<K>): (r: Dict<K>)
    requires Valid(ref) && Valid(incoming)
    ensures Valid(r)
    ensures forall k :: Get(r, k) == Get(ref, k) + Get(incoming, k)
    ensures forall k :: k in Keys(r) <==> k in Keys(ref) || k in Keys(incoming)
    ensures Keys(ref) <= Keys(r)
    ensures Sum(r) == Sum(ref) + Sum(incoming)
    decreases |incoming|
  {
    if incoming == [] then ref
    else
      var (key, value) := incoming[0];
      var rest := incoming[1..];
      assert Keys(rest) == Keys(incoming)[1..];
      assert key !in Keys(rest);
      GetAbsent(rest, key);
      var added := Add(ref, key, value);
      UpdateDictionary(added, rest)
  }

  /** Merging counts that are all positive gives counts that are all positive */
  lemma {:induction false} UpdatePositive<K(!new)>(ref: Dict<K>, incoming: Dict<K>)
    requires Valid(ref) && Valid(incoming)
    requires forall i | 0 <= i < |ref| :: ref[i].1 >= 1
    requires forall i | 0 <= i < |incoming| :: incoming[i].1 >= 1
    ensures var r := UpdateDictionary(ref, incoming);
      forall i | 0 <= i < |r| :: r[i].1 >= 1
    decreases |incoming|
  {
    if incoming != [] {
      var key, value := incoming[0].0, incoming[0].1;
      var rest := incoming[1..];
      assert Keys(rest) == Keys(incoming)[1..];
      var added := Add(ref, key, value);
      assert UpdateDictionary(ref, incoming) == UpdateDictionary(added, rest);
      AddPositive(ref, key, value);
      UpdatePositive(added, rest);
    }
  }

  /** Merging a Counter into positive counts keeps them positive */
  lemma CounterMergePositive<K(!new)>(ref: Dict<K>, ids: seq<K>)
    requires Valid(ref) && forall i | 0 <= i < |ref| :: ref[i].1 >= 1
    ensures var r := UpdateDictionary(ref, Counter(ids));
      forall i | 0 <= i < |r| :: r[i].1 >= 1
  {
    UpdatePositive(ref, Counter(ids));
  }

  /** An empty `new` leaves `ref` as it was */
  lemma UpdateDictionaryEmpty<K(!new)>(ref: Dict<K>)
    requires Valid(ref)
    ensures UpdateDictionary(ref, []) == ref
  {
  }

  /** `Counter(ids)`: each distinct element with its multiplicity, in order
      of first appearance */
  function Counter<K(==,!new)>(ids: seq<K>): (c: Dict<K>)
    ensures Valid(c)
    ensures Keys(c) == Distinct(ids)
    ensures forall k :: Get(c, k) == multiset(ids)[k]
    ensures forall i | 0 <= i < |c| :: c[i].1 >= 1
    ensures Sum(c) == |ids|
  {
    if ids == [] then []
    else
      var init := ids[..|ids| - 1];
      var last := ids[|ids| - 1];
      assert ids == init + [last];
      var c := Counter(init);
      CounterStep(init, last, c);
      Add(c, last, 1)
  }

  /** Counting one more element */
  lemma CounterStep<K(!new)>(init: seq<K>, last: K, c: Dict<K>)
    requires Valid(c) && Keys(c) == Distinct(init)
    requires forall k :: Get(c, k) == multiset(init)[k]
    requires forall i | 0 <= i < |c| :: c[i].1 >= 1
    requires Sum(c) == |init|
    ensures var r := Add(c, last, 1);
      && Valid(r)
      && Keys(r) == Distinct(init + [last])
      && (forall k :: Get(r, k) == multiset(init + [last])[k])
      && (forall i | 0 <= i < |r| :: r[i].1 >= 1)
      && Sum(r) == |init + [last]|
  {
    CounterKeys(init, last, c);
    AddPositive(c, last, 1);
    CounterGet(init, last, c);
    assert |init + [last]| == |init| + 1;
  }

  /** A new element becomes the last key; a seen one changes no key */
  lemma CounterKeys<K(!new)>(init: seq<K>, last: K, c: Dict<K>)
    requires Keys(c) == Distinct(init)
    ensures Keys(Add(c, last, 1)) == Distinct(init + [last])
  {
    DistinctSnoc(init, last);
  }

  lemma CounterGet<K(!new)>(init: seq<K>, last: K, c: Dict<K>)
    requires forall k :: Get(c, k) == multiset(init)[k]
    ensures forall k :: Get(Add(c, last, 1), k) == multiset(init + [last])[k]
  {
    var m := multiset(init + [last]);
    assert m == multiset(init) + multiset{last};
    forall k
      ensures Get(Add(c, last, 1), k) == m[k]
    {
      assert Get(c, k) == multiset(init)[k];
    }
  }

  lemma {:induction false} AddPositive<K(!new)>(d: Dict<K>, key: K, value: int)
    requires value >= 1 && forall i | 0 <= i < |d| :: d[i].1 >= 1
    ensures forall i | 0 <= i < |Add(d, key, value)| :: Add(d, key, value)[i].1 >= 1
    decreases |d|
  {
    if d != [] && d[0].0 != key {
      AddPositive(d[1..], key, value);
    }
  }

  // ---------------------------------------------------------------------
  // most_common

  function Count<K>(p: (K, int)): int {
    p.1
  }

  /** `c.most_common(n)`: the entries by decreasing count, equal counts in
      dictionary order, cut after n */
  function MostCommon<K>(c: Dict<K>, n: nat): (top: Dict<K>)
    ensures |top| == if n < |c| then n else |c|
    ensures NonIncreasing(top, Count)
    ensures multiset(top) <= multiset(c)
  {
    var sorted := SortDesc(c, Count);
    var m := if n < |c| then n else |c|;
    assert sorted == sorted[..m] + sorted[m..];
    sorted[..m]
  }

  /** `most_common(n)` of a dict holds each key at most once */
  lemma MostCommonValid<K>(c: Dict<K>, n: nat)
    requires Valid(c)
    ensures Valid(MostCommon(c, n))
  {
    SubDictValid(c, MostCommon(c, n));
  }

  /** Every entry of `most_common(n)` counts at least as much as every entry left out */
  lemma TopDominates<K>(c: Dict<K>, n: nat)
    ensures var top := MostCommon(c, n);
      forall p | p in multiset(c) - multiset(top) :: forall i | 0 <= i < |top| :: top[i].1 >= p.1
  {
    var top := MostCommon(c, n);
    forall p | p in multiset(c) - multiset(top)
      ensures forall i | 0 <= i < |top| :: top[i].1 >= p.1
    {
      MostCommonDominates(c, n, p);
    }
  }

  /** Nothing left out of `most_common(n)` has a larger count than anything in it */
  lemma MostCommonDominates<K>(c: Dict<K>, n: nat, p: (K, int))
    requires p in multiset(c) - multiset(MostCommon(c, n))
    ensures forall i | 0 <= i < |MostCommon(c, n)| :: MostCommon(c, n)[i].1 >= p.1
  {
    var sorted := SortDesc(c, Count);
    var m := if n < |c| then n else |c|;
    assert MostCommon(c, n) == sorted[..m];
    var j := LeftOut(sorted, m, p);
    SortedPrefixDominates(sorted, Count, m);
    assert forall i | 0 <= i < m :: Count(sorted[i]) >= Count(sorted[j]);
  }

  /** An element of `xs` beyond its first m has a position there */
  lemma LeftOut<T>(xs: seq<T>, m: nat, p: T) returns (j: nat)
    requires m <= |xs| && p in multiset(xs) - multiset(xs[..m])
    ensures m <= j < |xs| && xs[j] == p
  {
    assert xs == xs[..m] + xs[m..];
    assert multiset(xs) == multiset(xs[..m]) + multiset(xs[m..]);
    assert p in xs[m..];
    var k :| 0 <= k < |xs[m..]| && xs[m..][k] == p;
    j := m + k;
  }

  lemma {:induction false} WithKeyPrefix<T>(xs: seq<T>, key: T -> int, v: int, m: nat)
    requires m <= |xs|
    ensures WithKey(xs[..m], key, v) <= WithKey(xs, key, v)
    decreases m
  {
    if m > 0 {
      assert xs[..m][1..] == xs[1..][..m - 1];
      WithKeyPrefix(xs[1..], key, v, m - 1);
    }
  }

  /** Ties keep dictionary order: the entries of `most_common(n)` with a given
      count are the first ones of `c` with that count */
  lemma MostCommonTies<K>(c: Dict<K>, n: nat, v: int)
    ensures WithKey(MostCommon(c, n), Count, v) <= WithKey(c, Count, v)
  {
    var sorted := SortDesc(c, Count);
    var m := if n < |c| then n else |c|;
    SortDescStable(c, Count, v);
    WithKeyPrefix(sorted, Count, v, m);
  }
}

=== FILE: gitstatus.dfy ===
/** `contextualise_git_status`: the status letters of `git log --name-status`
    turned into short descriptions. */
module GitStatus {
  import opened Wrappers
  import opened Text
  import opened Numbers
  import opened Exceptions

  /** The change kinds git reports; the three pairing kinds carry the
      similarity percentage that follows their letter */
  datatype Status =
    | Added
    | Deleted
    | Modified
    | TypeChange
    | Unmerged
    | Renamed(similarity: int)
    | BrokenPairing(similarity: int)
    | Copied(similarity: int)
    | Unknown

  predicate IsPairingLetter(c: char) {
    c == 'R' || c == 'B' || c == 'C'
  }

  predicate IsFixedCode(s: string) {
    s == "A" || s == "D" || s == "M" || s == "T" || s == "U"
  }

  /** The pairing kind a letter names, with its similarity */
  function Pairing(c: char, n: int): Status
    requires IsPairingLetter(c)
  {
    if c == 'R' then Renamed(n) else if c == 'B' then BrokenPairing(n) else Copied(n)
  }

  /** `int(status[1:])`; ValueError when the rest is not an integer */
  function SimilarityOf(s: string): (r: Result<int, PyException>)
    requires s != []
    ensures r.Ok? <==> PyInt(s[1..]).Some?
    ensures r.Ok? ==> r.value == PyInt(s[1..]).value
  {
    match PyInt(s[1..])
    case Some(n) => Ok(n)
    case None => Err(ValueError)
  }

  /** The decision half of `contextualise_git_status`: a missing status (NaN)
      and unrecognised codes are Unknown; the exact single letters are checked
      before the R, B and C prefixes */
  function Decode(status: Option<string>): (r: Result<Status, PyException>)
    ensures r.Err? <==>
      status.Some? && status.value != [] && IsPairingLetter(status.value[0])
      && PyInt(status.value[1..]).None?
    ensures r == Ok(Unknown) <==>
      status.None?
      || (!IsFixedCode(status.value) && (status.value == [] || !IsPairingLetter(status.value[0])))
    ensures r.Ok? && r.value.Renamed? ==>
      status.Some? && status.value[..1] == "R" && PyInt(status.value[1..]) == Some(r.value.similarity)
    ensures r.Ok? && r.value.BrokenPairing? ==>
      status.Some? && status.value[..1] == "B" && PyInt(status.value[1..]) == Some(r.value.similarity)
    ensures r.Ok? && r.value.Copied? ==>
      status.Some? && status.value[..1] == "C" && PyInt(status.value[1..]) == Some(r.value.similarity)
    ensures status.Some? && IsFixedCode(status.value) ==> r.Ok? && Code(r.value) == status.value
    ensures status.Some? && status.value != [] && IsPairingLetter(status.value[0]) && PyInt(status.value[1..]).Some? ==>
      r == Ok(Pairing(status.value[0], PyInt(status.value[1..]).value))
  {
    match status
    case None => Ok(Unknown)
    case Some(s) =>
      StartsWithLetter(s, 'R');
      StartsWithLetter(s, 'B');
      StartsWithLetter(s, 'C');
      if s == "A" then Ok(Added)
      else if s == "D" then Ok(Deleted)
      else if s == "M" then Ok(Modified)
      else if s == "T" then Ok(TypeChange)
      else if s == "U" then Ok(Unmerged)
      else if StartsWith(s, "R") then
        var n :- SimilarityOf(s);
        Ok(Renamed(n))
      else if StartsWith(s, "B") then
        var n :- SimilarityOf(s);
        Ok(BrokenPairing(n))
      else if StartsWith(s, "C") then
        var n :- SimilarityOf(s);
        Ok(Copied(n))
      else Ok(Unknown)
  }

  /** The description written into the report's `status` column */
  function Describe(st: Status): string {
    match st
    case Added => "added"
    case Deleted => "deleted"
    case Modified => "modified"
    case TypeChange => "type_change"
    case Unmerged => "unmerged_conflict"
    case Renamed(n) => "renamed_similarity_" + IntToString(n) + "%"
    case BrokenPairing(n) => "broken_pairing_similarity_" + IntToString(n) + "%"
    case Copied(n) => "copied_similarity_" + IntToString(n) + "%"
    case Unknown => "unknown"
  }

  /** `contextualise_git_status(status)` */
  function Contextualise(status: Option<string>): Result<string, PyException> {
    var st :- Decode(status);
    Ok(Describe(st))
  }

  /** The code git prints for each kind (X is git's own "unknown") */
  function Code(st: Status): string {
    match st
    case Added => "A"
    case Deleted => "D"
    case Modified => "M"
    case TypeChange => "T"
    case Unmerged => "U"
    case Renamed(n) => "R" + IntToString(n)
    case BrokenPairing(n) => "B" + IntToString(n)
    case Copied(n) => "C" + IntToString(n)
    case Unknown => "X"
  }

  /** Decoding reads back every code */
  lemma DecodeCode(st: Status)
    ensures Decode(Some(Code(st))) == Ok(st)
  {
    match st
    case Renamed(n) => DecodeRenamed(n);
    case BrokenPairing(n) => DecodeBroken(n);
    case Copied(n) => DecodeCopied(n);
    case _ =>
  }

  lemma CodeSimilarity(c: char, t: string, n: int)
    requires PyInt(t) == Some(n)
    ensures SimilarityOf([c] + t) == Ok(n)
    ensures !IsFixedCode([c] + t)
  {
    var s := [c] + t;
    assert s[1..] == t;
  }

  lemma DecodeRenamed(n: int)
    ensures Decode(Some("R" + IntToString(n))) == Ok(Renamed(n))
  {
    var t := IntToString(n);
    PyIntOfIntToString(n);
    CodeSimilarity('R', t, n);
    var s := "R" + t;
    assert s[0] == 'R';
    StartsWithLetter(s, 'R');
    StartsWithLetter(s, 'B');
    StartsWithLetter(s, 'C');
  }

  lemma DecodeBroken(n: int)
    ensures Decode(Some("B" + IntToString(n))) == Ok(BrokenPairing(n))
  {
    var t := IntToString(n);
    PyIntOfIntToString(n);
    CodeSimilarity('B', t, n);
    var s := "B" + t;
    assert s[0] == 'B';
    StartsWithLetter(s, 'R');
    StartsWithLetter(s, 'B');
    StartsWithLetter(s, 'C');
  }

  lemma DecodeCopied(n: int)
    ensures Decode(Some("C" + IntToString(n))) == Ok(Copied(n))
  {
    var t := IntToString(n);
    PyIntOfIntToString(n);
    CodeSimilarity('C', t, n);
    var s := "C" + t;
    assert s[0] == 'C';
    StartsWithLetter(s, 'R');
    StartsWithLetter(s, 'B');
    StartsWithLetter(s, 'C');
  }

  /** git prints the score of a pairing as `%03d`, so a code may carry
      leading zeros; it still decodes to its kind with the score's value:
      `R086`, `B100` and `C075` are read as 86, 100 and 75 */
  lemma DecodePadded(c: char, w: string)
    requires IsPairingLetter(c) && w != [] && AllDigits(w)
    ensures Decode(Some([c] + w)) == Ok(Pairing(c, Value(w)))
  {
    var s := [c] + w;
    assert s[0] == c && s[1..] == w;
    PyIntOfDigits(w);
  }

  /** The score as git's `%03d` prints it: at least three digits */
  function Padded(n: nat): (w: string)
    ensures w != [] && AllDigits(w) && |w| >= 3
  {
    var d := NatToString(n);
    if |d| >= 3 then d else if |d| == 2 then "0" + d else "00" + d
  }

  lemma PaddedValue(n: nat)
    ensures Value(Padded(n)) == n
  {
    var d := NatToString(n);
    if |d| == 2 {
      ValueCons('0', d);
    } else if |d| < 2 {
      ValueCons('0', d);
      ValueCons('0', "0" + d);
      assert "00" + d == ['0'] + ("0" + d);
    }
  }

  /** The code `git log --name-status` prints for a kind: the letter, and for
      a pairing the score as `%03d` */
  function PrintedCode(st: Status): string
    requires st.Renamed? || st.BrokenPairing? || st.Copied? ==> st.similarity >= 0
  {
    match st
    case Renamed(n) => "R" + Padded(n)
    case BrokenPairing(n) => "B" + Padded(n)
    case Copied(n) => "C" + Padded(n)
    case _ => Code(st)
  }

  lemma DecodePaddedScore(c: char, n: nat)
    requires IsPairingLetter(c)
    ensures Decode(Some([c] + Padded(n))) == Ok(Pairing(c, n))
  {
    PaddedValue(n);
    DecodePadded(c, Padded(n));
  }

  /** Every code git prints reads back as its own kind */
  lemma DecodePrinted(st: Status)
    requires st.Renamed? || st.BrokenPairing? || st.Copied? ==> st.similarity >= 0
    ensures Decode(Some(PrintedCode(st))) == Ok(st)
  {
    match st
    case Renamed(n) => DecodePaddedScore('R', n);
    case BrokenPairing(n) => DecodePaddedScore('B', n);
    case Copied(n) => DecodePaddedScore('C', n);
    case _ => DecodeCode(st);
  }

  /** Similarity digits are read as a number, so leading zeros disappear:
      `R086` is described as `renamed_similarity_86%`, and likewise for the
      `B` and `C` codes */
  lemma DropsLeadingZeros(c: char, w: string)
    requires IsPairingLetter(c) && w != [] && AllDigits(w)
    ensures c == 'R' ==> Contextualise(Some([c] + w)) == Ok("renamed_similarity_" + NatToString(Value(w)) + "%")
    ensures c == 'B' ==> Contextualise(Some([c] + w)) == Ok("broken_pairing_similarity_" + NatToString(Value(w)) + "%")
    ensures c == 'C' ==> Contextualise(Some([c] + w)) == Ok("copied_similarity_" + NatToString(Value(w)) + "%")
  {
    DecodePadded(c, w);
  }

  lemma IntToStringInjective(a: int, b: int)
    requires IntToString(a) == IntToString(b)
    ensures a == b
  {
    PyIntOfIntToString(a);
    PyIntOfIntToString(b);
  }

  /** Distinct statuses get distinct descriptions */
  lemma DescribeInjective(a: Status, b: Status)
    requires Describe(a) == Describe(b)
    ensures a == b
  {
    var d := Describe(a);
    if a.Renamed? && b.Renamed? {
      var p := "renamed_similarity_";
      assert d[|p|..|d| - 1] == IntToString(a.similarity);
      assert Describe(b)[|p|..|d| - 1] == IntToString(b.similarity);
      IntToStringInjective(a.similarity, b.similarity);
    } else if a.BrokenPairing? && b.BrokenPairing? {
      var p := "broken_pairing_similarity_";
      assert d[|p|..|d| - 1] == IntToString(a.similarity);
      assert Describe(b)[|p|..|d| - 1] == IntToString(b.similarity);
      IntToStringInjective(a.similarity, b.similarity);
    } else if a.Copied? && b.Copied? {
      var p := "copied_similarity_";
      assert d[|p|..|d| - 1] == IntToString(a.similarity);
      assert Describe(b)[|p|..|d| - 1] == IntToString(b.similarity);
      IntToStringInjective(a.similarity, b.similarity);
    } else {
      assert d[0] == Describe(b)[0] && d[2] == Describe(b)[2];
    }
  }
}

=== FILE: history.dfy ===
/** `parse_full_log_to_dataframe`: the output of
    `git log --all --name-status --pretty=format:COMMIT_START|%H|%ad|%d`
    read line by line. A header line sets the current commit, date and refs;
    every line that starts with an upper-case letter is a change and becomes
    one row under the current header; every other line is skipped. */
module History {
  import opened Wrappers
  import opened Seqs
  import opened Text
  import opened Exceptions

  const HeaderTag := "COMMIT_START"

  datatype Header = Header(commit: string, date: string, refs: string)

  /** One row of the log table; `header` is None for a change seen before
      any header (its commit, date and refs are None) */
  datatype LogRow = LogRow(header: Option<Header>, status: string, filename: string, oldFilename: string)

  /** The text the log is cut into lines from: `raw.strip().split('\n')` */
  function LogLines(raw: string): (lines: seq<string>)
    ensures |lines| >= 1
  {
    Split(Strip(raw), '\n')
  }

  predicate IsHeaderLine(line: string) {
    StartsWith(line, HeaderTag)
  }

  /** `re.match(r'^[A-Z]', line)`, for a line that is not a header */
  predicate IsChangeLine(line: string) {
    !IsHeaderLine(line) && line != [] && IsUpper(line[0])
  }

  predicate IsRename(status: string) {
    StartsWith(status, "R")
  }

  /** How many tab-separated fields a change line needs */
  function FieldsNeeded(line: string): nat {
    if IsRename(Split(line, '\t')[0]) then 3 else 2
  }

  /** The line can be read without an IndexError */
  predicate Readable(line: string) {
    && (IsHeaderLine(line) ==> |Split(line, '|')| >= 4)
    && (IsChangeLine(line) ==> |Split(line, '\t')| >= FieldsNeeded(line))
  }

  /** `parts[1]`, `parts[2]`, `parts[3]` of a header line */
  function HeaderOf(line: string): Header
    requires IsHeaderLine(line) && Readable(line)
  {
    var parts := Split(line, '|');
    Header(parts[1], parts[2], parts[3])
  }

  /** A rename records its new name as the file and its old name beside it;
      every other change records its one path */
  function RowOf(line: string, header: Option<Header>): LogRow
    requires IsChangeLine(line) && Readable(line)
  {
    var parts := Split(line, '\t');
    if IsRename(parts[0]) then LogRow(header, parts[0], parts[2], parts[1])
    else LogRow(header, parts[0], parts[1], "")
  }

  /** The loop from line i on, with `header` the current commit */
  function ParseFrom(lines: seq<string>, i: nat, header: Option<Header>): (r: Result<seq<LogRow>, PyException>)
    requires i <= |lines|
    ensures r.Err? <==> exists k | i <= k < |lines| :: !Readable(lines[k])
    ensures r.Ok? ==> |r.value| <= |lines| - i
    decreases |lines| - i
  {
    if i == |lines| then Ok([])
    else
      var line := lines[i];
      if !Readable(line) then Err(IndexError)
      else if IsHeaderLine(line) then ParseFrom(lines, i + 1, Some(HeaderOf(line)))
      else if !IsChangeLine(line) then ParseFrom(lines, i + 1, header)
      else
        var rest :- ParseFrom(lines, i + 1, header);
        Ok([RowOf(line, header)] + rest)
  }

  /** `parse_full_log_to_dataframe(raw)`; IndexError for a header with fewer
      than four `|` fields or a change line short of paths */
  function ParseLog(raw: string): (r: Result<seq<LogRow>, PyException>)
    ensures r.Err? <==> exists k | 0 <= k < |LogLines(raw)| :: !Readable(LogLines(raw)[k])
  {
    ParseFrom(LogLines(raw), 0, None)
  }

  // ---------------------------------------------------------------------
  // which row comes from which line

  /** The header in force at line k: the nearest header line above it */
  function HeaderAt(lines: seq<string>, k: nat): Option<Header>
    requires k <= |lines|
    requires forall j | 0 <= j < k :: Readable(lines[j])
  {
    if k == 0 then None
    else if IsHeaderLine(lines[k - 1]) then Some(HeaderOf(lines[k - 1]))
    else HeaderAt(lines, k - 1)
  }

  /** One row per change line from i on, each under the header at its place */
  function ChangesFrom(lines: seq<string>, i: nat): (rows: seq<LogRow>)
    requires i <= |lines|
    requires forall j | 0 <= j < |lines| :: Readable(lines[j])
    decreases |lines| - i
  {
    if i == |lines| then []
    else
      (if IsChangeLine(lines[i]) then [RowOf(lines[i], HeaderAt(lines, i))] else [])
        + ChangesFrom(lines, i + 1)
  }

  lemma {:induction false} ParseFromChanges(lines: seq<string>, i: nat)
    requires i <= |lines|
    requires forall j | 0 <= j < |lines| :: Readable(lines[j])
    ensures ParseFrom(lines, i, HeaderAt(lines, i)) == Ok(ChangesFrom(lines, i))
    decreases |lines| - i
  {
    if i < |lines| {
      var j := i + 1;
      ParseFromChanges(lines, j);
      if IsHeaderLine(lines[i]) {
        assert HeaderAt(lines, j) == Some(HeaderOf(lines[i]));
      } else {
        assert HeaderAt(lines, j) == HeaderAt(lines, i);
      }
      if !IsChangeLine(lines[i]) {
        assert ChangesFrom(lines, i) == ChangesFrom(lines, j);
      }
    }
  }

  /** Each change line yields exactly one row, tagged with the nearest
      header above it; other lines yield nothing */
  lemma ParseLogAttribution(raw: string)
    requires forall j | 0 <= j < |LogLines(raw)| :: Readable(LogLines(raw)[j])
    ensures ParseLog(raw) == Ok(ChangesFrom(LogLines(raw), 0))
  {
    ParseFromChanges(LogLines(raw), 0);
  }

  /** A log without change lines gives an empty table */
  lemma {:induction false} NoChangesNoRows(lines: seq<string>, i: nat, header: Option<Header>)
    requires i <= |lines|
    requires forall j | i <= j < |lines| :: Readable(lines[j]) && !IsChangeLine(lines[j])
    ensures ParseFrom(lines, i, header) == Ok([])
    decreases |lines| - i
  {
    if i < |lines| {
      var h := if IsHeaderLine(lines[i]) then Some(HeaderOf(lines[i])) else header;
      NoChangesNoRows(lines, i + 1, h);
    }
  }

  /** An empty or blank log gives an empty table, which sends the audit to
      its placeholder report */
  lemma BlankLogNoRows(raw: string)
    requires forall k | 0 <= k < |raw| :: IsSpace(raw[k])
    ensures ParseLog(raw) == Ok([])
  {
    BlankLogLines(raw);
    EmptyLineNoRows();
  }

  /** A blank log strips to the empty text, which splits into one empty line */
  lemma BlankLogLines(raw: string)
    requires forall k | 0 <= k < |raw| :: IsSpace(raw[k])
    ensures LogLines(raw) == [""]
  {
    StripEmptyIffBlank(raw);
  }

  /** The one empty line is neither a header nor a change */
  lemma EmptyLineNoRows()
    ensures ParseFrom([""], 0, None) == Ok([])
  {
    assert !IsHeaderLine("") && !IsChangeLine("");
    NoChangesNoRows([""], 0, None);
  }

  // ---------------------------------------------------------------------
  // round trip with git's output

  /** One `--name-status` entry */
  datatype Change = Change(status: string, filename: string, oldFilename: string)

  datatype Commit = Commit(header: Header, changes: seq<Change>)

  /** No separator or line break inside a field */
  predicate Field(s: string, sep: char) {
    sep !in s && '\n' !in s
  }

  predicate ValidHeader(h: Header) {
    Field(h.commit, '|') && Field(h.date, '|') && Field(h.refs, '|')
  }

  /** A status git prints: a capital letter first, a short code, and an old
      name exactly for renames */
  predicate ValidChange(c: Change) {
    && c.status != [] && IsUpper(c.status[0]) && |c.status| < |HeaderTag|
    && Field(c.status, '\t') && Field(c.filename, '\t') && Field(c.oldFilename, '\t')
    && (!IsRename(c.status) ==> c.oldFilename == [])
  }

  predicate ValidChanges(cs: seq<Change>) {
    forall k | 0 <= k < |cs| :: ValidChange(cs[k])
  }

  predicate ValidCommit(c: Commit) {
    ValidHeader(c.header) && ValidChanges(c.changes)
  }

  predicate ValidCommits(commits: seq<Commit>) {
    forall k | 0 <= k < |commits| :: ValidCommit(commits[k])
  }

  /** `COMMIT_START|%H|%ad|%d` */
  function HeaderLine(h: Header): string {
    Join([HeaderTag, h.commit, h.date, h.refs], '|')
  }

  function ChangeLine(c: Change): string {
    if IsRename(c.status) then Join([c.status, c.oldFilename, c.filename], '\t')
    else Join([c.status, c.filename], '\t')
  }

  function ChangeLines(cs: seq<Change>): (lines: seq<string>)
    ensures |lines| == |cs| && forall k | 0 <= k < |cs| :: lines[k] == ChangeLine(cs[k])
  {
    seq(|cs|, k requires 0 <= k < |cs| => ChangeLine(cs[k]))
  }

  /** The lines of a log, each commit's header followed by its changes */
  function RenderLines(commits: seq<Commit>): seq<string> {
    if commits == [] then []
    else [HeaderLine(commits[0].header)] + ChangeLines(commits[0].changes) + RenderLines(commits[1..])
  }

  function ChangeRows(h: Header, cs: seq<Change>): (rows: seq<LogRow>)
    ensures |rows| == |cs|
    ensures forall k | 0 <= k < |cs| :: rows[k] == LogRow(Some(h), cs[k].status, cs[k].filename, cs[k].oldFilename)
  {
    seq(|cs|, k requires 0 <= k < |cs| => LogRow(Some(h), cs[k].status, cs[k].filename, cs[k].oldFilename))
  }

  /** The table a log should give: every change of every commit, in order */
  function Rows(commits: seq<Commit>): seq<LogRow> {
    if commits == [] then [] else ChangeRows(commits[0].header, commits[0].changes) + Rows(commits[1..])
  }

  lemma HeaderLineReads(h: Header)
    requires ValidHeader(h)
    ensures IsHeaderLine(HeaderLine(h)) && Readable(HeaderLine(h))
    ensures HeaderOf(HeaderLine(h)) == h
  {
    var parts := [HeaderTag, h.commit, h.date, h.refs];
    SplitJoin(parts, '|');
    var line := HeaderLine(h);
    assert line == HeaderTag + "|" + Join(parts[1..], '|');
    assert line[..|HeaderTag|] == HeaderTag;
  }

  lemma ChangeLineReads(c: Change, header: Option<Header>)
    requires ValidChange(c)
    ensures IsChangeLine(ChangeLine(c)) && Readable(ChangeLine(c))
    ensures RowOf(ChangeLine(c), header) == LogRow(header, c.status, c.filename, c.oldFilename)
  {
    var parts := if IsRename(c.status) then [c.status, c.oldFilename, c.filename] else [c.status, c.filename];
    SplitJoin(parts, '\t');
    var line := ChangeLine(c);
    assert line == c.status + "\t" + Join(parts[1..], '\t');
    assert line[0] == c.status[0];
    assert !IsHeaderLine(line) by {
      assert line[|c.status|] == '\t';
      assert '\t' !in HeaderTag;
      assert |line| < |HeaderTag| || line[..|HeaderTag|][|c.status|] != HeaderTag[|c.status|];
    }
  }

  /** `rows` in front of a successful parse; an error stays an error */
  function Prepend(rows: seq<LogRow>, r: Result<seq<LogRow>, PyException>): Result<seq<LogRow>, PyException> {
    match r
    case Ok(rest) => Ok(rows + rest)
    case Err(e) => Err(e)
  }

  lemma PrependPrepend(a: seq<LogRow>, b: seq<LogRow>, r: Result<seq<LogRow>, PyException>)
    ensures Prepend(a, Prepend(b, r)) == Prepend(a + b, r)
  {
    if r.Ok? {
      assert a + (b + r.value) == (a + b) + r.value;
    }
  }

  lemma ParseChangeStep(lines: seq<string>, h: Option<Header>)
    requires lines != [] && IsChangeLine(lines[0]) && Readable(lines[0])
    ensures ParseFrom(lines, 0, h) == Prepend([RowOf(lines[0], h)], ParseFrom(lines[1..], 0, h))
  {
    ParseFromShift(lines, 1, h);
  }

  lemma {:induction false} ParseChangeLines(cs: seq<Change>, more: seq<string>, h: Header)
    requires ValidChanges(cs)
    ensures ParseFrom(ChangeLines(cs) + more, 0, Some(h))
         == Prepend(ChangeRows(h, cs), ParseFrom(more, 0, Some(h)))
    decreases |cs|
  {
    if cs != [] {
      var c := cs[0];
      var tail := ChangeLines(cs[1..]) + more;
      assert ValidChange(c);
      assert ValidChanges(cs[1..]) by {
        forall k | 0 <= k < |cs| - 1 ensures ValidChange(cs[1..][k]) {
          assert cs[1..][k] == cs[k + 1];
        }
      }
      ParseChangeLines(cs[1..], more, h);
      ChangesCons(cs, more, h);
      ParseChangeCons(c, tail, h);
      PrependPrepend([LogRow(Some(h), c.status, c.filename, c.oldFilename)],
        ChangeRows(h, cs[1..]), ParseFrom(more, 0, Some(h)));
    } else {
      assert ChangeLines(cs) + more == more;
      assert ChangeRows(h, cs) == [];
      PrependNothing(ParseFrom(more, 0, Some(h)));
    }
  }

  lemma PrependNothing(r: Result<seq<LogRow>, PyException>)
    ensures Prepend([], r) == r
  {
    if r.Ok? {
      assert [] + r.value == r.value;
    }
  }

  /** The first change's line and row come first */
  lemma ChangesCons(cs: seq<Change>, more: seq<string>, h: Header)
    requires cs != []
    ensures ChangeLines(cs) + more == [ChangeLine(cs[0])] + (ChangeLines(cs[1..]) + more)
    ensures ChangeRows(h, cs)
         == [LogRow(Some(h), cs[0].status, cs[0].filename, cs[0].oldFilename)] + ChangeRows(h, cs[1..])
  {
    var lines := ChangeLines(cs[1..]);
    ChangeLinesCons(cs);
    AppendAssoc([ChangeLine(cs[0])], lines, more);
    ChangeRowsCons(cs, h);
  }

  lemma ChangeLinesCons(cs: seq<Change>)
    requires cs != []
    ensures ChangeLines(cs) == [ChangeLine(cs[0])] + ChangeLines(cs[1..])
  {
    MapCons(cs, ChangeLines(cs), ChangeLines(cs[1..]), ChangeLine);
  }

  lemma ChangeRowsCons(cs: seq<Change>, h: Header)
    requires cs != []
    ensures ChangeRows(h, cs)
         == [LogRow(Some(h), cs[0].status, cs[0].filename, cs[0].oldFilename)] + ChangeRows(h, cs[1..])
  {
    var all := ChangeRows(h, cs);
    var want := [LogRow(Some(h), cs[0].status, cs[0].filename, cs[0].oldFilename)] + ChangeRows(h, cs[1..]);
    forall k | 0 <= k < |all|
      ensures all[k] == want[k]
    {
      if k > 0 {
        var m := k - 1;
        assert cs[1..][m] == cs[k];
      }
    }
  }

  /** One change line in front: its row goes in front */
  lemma ParseChangeCons(c: Change, tail: seq<string>, h: Header)
    requires ValidChange(c)
    ensures ParseFrom([ChangeLine(c)] + tail, 0, Some(h))
         == Prepend([LogRow(Some(h), c.status, c.filename, c.oldFilename)], ParseFrom(tail, 0, Some(h)))
  {
    var lines := [ChangeLine(c)] + tail;
    ChangeLineReads(c, Some(h));
    ParseChangeStep(lines, Some(h));
    assert lines[1..] == tail;
  }

  /** The loop from line i reads the rest of the lines as a log of its own */
  lemma {:induction false} ParseFromShift(lines: seq<string>, i: nat, header: Option<Header>)
    requires i <= |lines|
    ensures ParseFrom(lines, i, header) == ParseFrom(lines[i..], 0, header)
    decreases |lines| - i
  {
    if i < |lines| {
      var line := lines[i];
      var h := if Readable(line) && IsHeaderLine(line) then Some(HeaderOf(line)) else header;
      ParseFromShift(lines, i + 1, h);
      ParseFromShift(lines[i..], 1, h);
      assert lines[i..][1..] == lines[i + 1..];
    }
  }

  /** A log git prints reads back as its changes, each under its commit */
  lemma {:induction false} ParseRendered(commits: seq<Commit>, header: Option<Header>)
    requires ValidCommits(commits)
    ensures ParseFrom(RenderLines(commits), 0, header) == Ok(Rows(commits))
    decreases |commits|
  {
    if commits != [] {
      var c := commits[0];
      assert ValidCommit(c);
      assert ValidCommits(commits[1..]) by {
        forall k | 0 <= k < |commits| - 1 ensures ValidCommit(commits[1..][k]) {
          assert commits[1..][k] == commits[k + 1];
        }
      }
      ParseRendered(commits[1..], Some(c.header));
      ParseCommitCons(commits, header);
    }
  }

  /** One commit in front: its header, then its changes' rows in front */
  lemma ParseCommitCons(commits: seq<Commit>, header: Option<Header>)
    requires commits != [] && ValidCommit(commits[0])
    requires ParseFrom(RenderLines(commits[1..]), 0, Some(commits[0].header)) == Ok(Rows(commits[1..]))
    ensures ParseFrom(RenderLines(commits), 0, header) == Ok(Rows(commits))
  {
    var c := commits[0];
    var rest := RenderLines(commits[1..]);
    var lines := ChangeLines(c.changes);
    var body := lines + rest;
    assert RenderLines(commits) == ([HeaderLine(c.header)] + lines) + rest;
    AppendAssoc([HeaderLine(c.header)], lines, rest);
    ParseHeaderCons(c.header, body, header);
    ParseChangeLines(c.changes, rest, c.header);
    assert Rows(commits) == ChangeRows(c.header, c.changes) + Rows(commits[1..]);
  }

  /** A header line in front sets the commit for what follows */
  lemma ParseHeaderCons(h: Header, tail: seq<string>, header: Option<Header>)
    requires ValidHeader(h)
    ensures ParseFrom([HeaderLine(h)] + tail, 0, header) == ParseFrom(tail, 0, Some(h))
  {
    var lines := [HeaderLine(h)] + tail;
    HeaderLineReads(h);
    ParseFromShift(lines, 1, Some(h));
    assert lines[1..] == tail;
  }

  /** Only renames are read with two paths: a copy line `C<score> src dst`
      is recorded under its source path, and its destination is dropped */
  lemma CopyRecordsSource(score: string, src: string, dst: string, header: Option<Header>)
    requires Field(score, '\t') && |score| < |HeaderTag| - 1
    requires Field(src, '\t') && Field(dst, '\t')
    ensures var line := Join(["C" + score, src, dst], '\t');
      IsChangeLine(line) && Readable(line) && RowOf(line, header) == LogRow(header, "C" + score, src, "")
  {
    var status := "C" + score;
    var parts := [status, src, dst];
    var line := Join(parts, '\t');
    assert '\t' !in status;
    SplitJoin(parts, '\t');
    assert line == status + "\t" + Join(parts[1..], '\t');
    assert line[0] == 'C';
    assert !IsRename(status);
    assert !IsHeaderLine(line) by {
      assert line[|status|] == '\t';
      assert '\t' !in HeaderTag;
      assert |line| < |HeaderTag| || line[..|HeaderTag|][|status|] != HeaderTag[|status|];
    }
  }
}

=== FILE: joins.dfy ===
/** pandas' `merge(left, right, on=..., how='left')`, on one key. Keys are
    compared with plain equality; a missing key is a value like any other,
    which is how pandas pairs missing keys too (a missing key on the left
    matches a missing key on the right). */
module Joins {
  import opened Wrappers

  /** The right rows whose key is `k`, in their order */
  function Partners<R, K(==)>(right: seq<R>, rkey: R -> K, k: K): (ps: seq<R>)
    ensures |ps| <= |right|
    ensures forall i | 0 <= i < |ps| :: ps[i] in right && rkey(ps[i]) == k
    ensures forall r | r in right && rkey(r) == k :: r in ps
  {
    if right == [] then []
    else
      var rest := Partners(right[1..], rkey, k);
      assert forall r | r in right[1..] :: r in right;
      (if rkey(right[0]) == k then [right[0]] else []) + rest
  }

  /** The rows one left row becomes: one per partner, or itself alone */
  function Pair<L, R, K(==)>(l: L, right: seq<R>, lkey: L -> K, rkey: R -> K): (out: seq<(L, Option<R>)>)
    ensures |out| >= 1
    ensures forall i | 0 <= i < |out| :: out[i].0 == l
  {
    var ps := Partners(right, rkey, lkey(l));
    if ps == [] then [(l, None)]
    else seq(|ps|, i requires 0 <= i < |ps| => (l, Some(ps[i])))
  }

  /** A joined row pairs its left row with a right row of the same key, or
      with nothing when no right row has that key */
  ghost predicate Matched<L, R, K>(row: (L, Option<R>), right: seq<R>, lkey: L -> K, rkey: R -> K) {
    match row.1
    case Some(r) => r in right && rkey(r) == lkey(row.0)
    case None => forall r | r in right :: rkey(r) != lkey(row.0)
  }

  /** `pd.merge(left, right, how='left')`: every left row, in order, with each
      of its partners */
  function LeftJoin<L, R, K(==)>(left: seq<L>, right: seq<R>, lkey: L -> K, rkey: R -> K): (out: seq<(L, Option<R>)>)
    ensures |out| >= |left|
    ensures forall k | 0 <= k < |out| :: out[k].0 in left
    ensures forall k | 0 <= k < |out| :: Matched(out[k], right, lkey, rkey)
    decreases |left|
  {
    if left == [] then []
    else
      var first := Pair(left[0], right, lkey, rkey);
      var rest := LeftJoin(left[1..], right, lkey, rkey);
      assert forall k | 0 <= k < |first| :: Matched(first[k], right, lkey, rkey) by {
        var ps := Partners(right, rkey, lkey(left[0]));
        if ps != [] {
          assert forall k | 0 <= k < |first| :: first[k].1 == Some(ps[k]);
        }
      }
      assert forall l | l in left[1..] :: l in left;
      first + rest
  }

  /** Joining a concatenation joins each part: the rows keep the left order */
  lemma {:induction false} LeftJoinAppend<L, R, K>(a: seq<L>, b: seq<L>, right: seq<R>, lkey: L -> K, rkey: R -> K)
    ensures LeftJoin(a + b, right, lkey, rkey) == LeftJoin(a, right, lkey, rkey) + LeftJoin(b, right, lkey, rkey)
    decreases |a|
  {
    if a == [] {
      assert a + b == b;
    } else {
      assert (a + b)[0] == a[0] && (a + b)[1..] == a[1..] + b;
      LeftJoinAppend(a[1..], b, right, lkey, rkey);
      var first := Pair(a[0], right, lkey, rkey);
      var ja := LeftJoin(a[1..], right, lkey, rkey);
      var jb := LeftJoin(b, right, lkey, rkey);
      assert first + (ja + jb) == (first + ja) + jb;
    }
  }

  /** Every left row survives the join */
  lemma {:induction false} LeftRowsSurvive<L, R, K>(left: seq<L>, right: seq<R>, lkey: L -> K, rkey: R -> K, i: nat)
    requires i < |left|
    ensures exists k | 0 <= k < |LeftJoin(left, right, lkey, rkey)| :: LeftJoin(left, right, lkey, rkey)[k].0 == left[i]
    decreases i
  {
    var out := LeftJoin(left, right, lkey, rkey);
    var first := Pair(left[0], right, lkey, rkey);
    assert out == first + LeftJoin(left[1..], right, lkey, rkey);
    if i == 0 {
      assert out[0] == first[0];
    } else {
      LeftRowsSurvive(left[1..], right, lkey, rkey, i - 1);
      var rest := LeftJoin(left[1..], right, lkey, rkey);
      var k :| 0 <= k < |rest| && rest[k].0 == left[1..][i - 1];
      assert out[|first| + k] == rest[k];
    }
  }

  predicate UniqueKeys<R, K(==)>(right: seq<R>, rkey: R -> K) {
    forall i, j | 0 <= i < j < |right| :: rkey(right[i]) != rkey(right[j])
  }

  /** Reference lookup: the right row with key `k`, if any */
  function Lookup<R, K(==)>(right: seq<R>, rkey: R -> K, k: K): (r: Option<R>)
    ensures r.Some? ==> r.value in right && rkey(r.value) == k
    ensures r.None? ==> forall x | x in right :: rkey(x) != k
  {
    if right == [] then None
    else if rkey(right[0]) == k then Some(right[0])
    else
      assert forall x | x in right :: x == right[0] || x in right[1..];
      Lookup(right[1..], rkey, k)
  }

  /** With unique keys on the right a key has at most one partner */
  lemma {:induction false} PartnersUnique<R, K>(right: seq<R>, rkey: R -> K, k: K)
    requires UniqueKeys(right, rkey)
    ensures Partners(right, rkey, k) == if Lookup(right, rkey, k).Some? then [Lookup(right, rkey, k).value] else []
    decreases |right|
  {
    if right != [] {
      assert UniqueKeys(right[1..], rkey) by {
        assert forall i | 1 <= i < |right| :: right[i] == right[1..][i - 1];
      }
      PartnersUnique(right[1..], rkey, k);
      if rkey(right[0]) == k {
        assert forall x | x in right[1..] :: rkey(x) != k by {
          forall x | x in right[1..]
            ensures rkey(x) != k
          {
            var j :| 0 <= j < |right[1..]| && right[1..][j] == x;
            assert right[j + 1] == x;
          }
        }
        assert Partners(right[1..], rkey, k) == [];
      }
    }
  }

  /** With unique keys on the right the join keeps the row count, and row i
      is left row i with the right row of its key, if there is one */
  lemma {:induction false} UniqueKeysKeepRows<L, R, K>(left: seq<L>, right: seq<R>, lkey: L -> K, rkey: R -> K)
    requires UniqueKeys(right, rkey)
    ensures |LeftJoin(left, right, lkey, rkey)| == |left|
    ensures forall i | 0 <= i < |left| ::
      LeftJoin(left, right, lkey, rkey)[i] == (left[i], Lookup(right, rkey, lkey(left[i])))
    decreases |left|
  {
    if left != [] {
      PartnersUnique(right, rkey, lkey(left[0]));
      UniqueKeysKeepRows(left[1..], right, lkey, rkey);
      var first := Pair(left[0], right, lkey, rkey);
      assert first == [(left[0], Lookup(right, rkey, lkey(left[0])))];
      var out := LeftJoin(left, right, lkey, rkey);
      assert forall i | 1 <= i < |left| :: out[i] == LeftJoin(left[1..], right, lkey, rkey)[i - 1];
    }
  }

  /** With unique keys on the right, rows with the same key get the same
      right-hand fields */
  lemma SameKeySamePartner<L, R, K>(left: seq<L>, right: seq<R>, lkey: L -> K, rkey: R -> K, i: nat, j: nat)
    requires UniqueKeys(right, rkey)
    requires i < |left| && j < |left| && lkey(left[i]) == lkey(left[j])
    ensures LeftJoin(left, right, lkey, rkey)[i].1 == LeftJoin(left, right, lkey, rkey)[j].1
  {
    UniqueKeysKeepRows(left, right, lkey, rkey);
  }
}

=== FILE: matcher.dfy ===
/** The sensitive-ID pattern of `regex_pattern`: a seven-digit number from
    1000000 to 6500000 that is not part of a longer digit run, does not follow
    a full stop (a decimal fraction) and does not follow `rs` in any letter
    case (a SNP identifier).

    Two readings are given and proved equal: `RegexFindAll` follows the
    regular expression position by position, the way a backtracking engine's
    `findall` does; `FindIds` is a scanner over maximal digit runs. */
module Matcher {
  import opened Text
  import opened Numbers

  const IdLength: nat := 7
  const MinId: nat := 1000000
  const MaxId: nat := 6500000

  /** A seven-digit string whose value lies in the ID range */
  predicate IsId(w: string) {
    |w| == IdLength && AllDigits(w) && MinId <= Value(w) <= MaxId
  }

  // ---------------------------------------------------------------------
  // the regular expression, read literally

  /** `10[0-9]{5}|[1-5][0-9]{6}|6[0-4][0-9]{5}|6500000`; every branch is
      seven characters long */
  predicate Alternation(w: string)
    requires |w| == 7
  {
    || (w[0] == '1' && w[1] == '0' && AllDigits(w[2..]))
    || ('1' <= w[0] <= '5' && AllDigits(w[1..]))
    || (w[0] == '6' && '0' <= w[1] <= '4' && AllDigits(w[2..]))
    || w == "6500000"
  }

  /** `(?<!\d)(?<!\.)(?<!rs)(?<!RS)(?<!Rs)(?<!rS)` at position i */
  predicate Lookbehinds(s: string, i: nat)
    requires i <= |s|
  {
    && !(i >= 1 && IsDigit(s[i - 1]))
    && !(i >= 1 && s[i - 1] == '.')
    && !(i >= 2 && s[i - 2..i] == "rs")
    && !(i >= 2 && s[i - 2..i] == "RS")
    && !(i >= 2 && s[i - 2..i] == "Rs")
    && !(i >= 2 && s[i - 2..i] == "rS")
  }

  /** The whole pattern matches at position i. As all branches have the same
      length, backtracking into the alternation cannot rescue a failed
      lookahead, so one length-7 window decides. */
  predicate MatchAt(s: string, i: nat) {
    && i + 7 <= |s|
    && Lookbehinds(s, i)
    && Alternation(s[i..i + 7])
    && !(i + 7 < |s| && IsDigit(s[i + 7]))
  }

  /** `re.findall` from position i: try each position in turn; after a match
      resume right after it */
  function RegexFindAllFrom(s: string, i: nat): seq<string>
    requires i <= |s|
    decreases |s| - i
  {
    if i == |s| then []
    else if MatchAt(s, i) then [s[i..i + 7]] + RegexFindAllFrom(s, i + 7)
    else RegexFindAllFrom(s, i + 1)
  }

  function RegexFindAll(s: string): seq<string> {
    RegexFindAllFrom(s, 0)
  }

  /** `re.search(...)` is truthy */
  predicate Search(s: string) {
    exists i: nat | i < |s| :: MatchAt(s, i)
  }

  // ---------------------------------------------------------------------
  // the run scanner

  /** End of the digit run starting at i */
  function RunEnd(s: string, i: nat): (e: nat)
    requires i <= |s|
    ensures i <= e <= |s| && (e == |s| || !IsDigit(s[e]))
    ensures forall k | i <= k < e :: IsDigit(s[k])
    decreases |s| - i
  {
    if i == |s| || !IsDigit(s[i]) then i else RunEnd(s, i + 1)
  }

  /** Position i follows a full stop or `rs` in any letter case */
  predicate Excluded(s: string, i: nat)
    requires i <= |s|
  {
    || (i >= 1 && s[i - 1] == '.')
    || (i >= 2 && LowerChar(s[i - 2]) == 'r' && LowerChar(s[i - 1]) == 's')
  }

  /** i does not fall strictly inside a digit run */
  predicate AtBoundary(s: string, i: nat) {
    0 < i < |s| ==> !(IsDigit(s[i - 1]) && IsDigit(s[i]))
  }

  /** The IDs among the maximal digit runs from i on */
  function ScanFrom(s: string, i: nat): (ids: seq<string>)
    requires i <= |s| && AtBoundary(s, i)
    ensures forall k | 0 <= k < |ids| :: IsId(ids[k])
    decreases |s| - i
  {
    if i == |s| then []
    else if !IsDigit(s[i]) then ScanFrom(s, i + 1)
    else
      var e := RunEnd(s, i);
      var run := s[i..e];
      (if IsId(run) && !Excluded(s, i) then [run] else []) + ScanFrom(s, e)
  }

  /** Every ID in `s`, in order of appearance */
  function FindIds(s: string): (ids: seq<string>)
    ensures forall k | 0 <= k < |ids| :: IsId(ids[k])
  {
    ScanFrom(s, 0)
  }

  // ---------------------------------------------------------------------
  // the two readings agree

  lemma Pow10Values()
    ensures Pow10(5) == 100000 && Pow10(6) == 1000000
  {
    assert Pow10(2) == 100;
    assert Pow10(4) == 10000;
  }

  /** The alternation accepts exactly the seven-digit strings in range */
  lemma AlternationIsId(w: string)
    requires |w| == 7
    ensures Alternation(w) <==> IsId(w)
  {
    Pow10Values();
    var tail := w[1..];
    var tail2 := w[2..];
    assert w == [w[0]] + tail;
    assert tail == [w[1]] + tail2;
    if AllDigits(w) {
      assert AllDigits(tail) && AllDigits(tail2);
      ValueCons(w[0], tail);
      ValueCons(w[1], tail2);
      ValueBound(tail);
      ValueBound(tail2);
      ValueZero(tail2);
      var v := Value(w);
      var d0 := DigitOf(w[0]);
      var d1 := DigitOf(w[1]);
      assert v == d0 * 1000000 + d1 * 100000 + Value(tail2);
      if w[0] == '6' && w[1] == '5' && Value(tail2) == 0 {
        assert tail2 == "00000";
        assert w == "6500000";
      }
    } else {
      var k :| 0 <= k < 7 && !IsDigit(w[k]);
      if k >= 2 {
        assert !IsDigit(tail2[k - 2]);
      }
      if k >= 1 {
        assert !IsDigit(tail[k - 1]);
      }
    }
  }

  /** The six lookbehinds say: no digit, no full stop and no `rs` before i */
  lemma LookbehindsIff(s: string, i: nat)
    requires i <= |s|
    ensures Lookbehinds(s, i) <==> !(i >= 1 && IsDigit(s[i - 1])) && !Excluded(s, i)
  {
    if i >= 2 {
      assert s[i - 2..i] == [s[i - 2], s[i - 1]];
    }
  }

  /** What a match is: a maximal run of exactly seven digits with a value in
      the ID range, after neither a full stop nor `rs` */
  lemma MatchAtIff(s: string, i: nat)
    ensures MatchAt(s, i) <==>
      && i + IdLength <= |s|
      && IsId(s[i..i + IdLength])
      && (i == 0 || !IsDigit(s[i - 1]))
      && (i + IdLength == |s| || !IsDigit(s[i + IdLength]))
      && !Excluded(s, i)
  {
    if i + 7 <= |s| {
      AlternationIsId(s[i..i + 7]);
      LookbehindsIff(s, i);
    }
  }

  /** Inside a digit run nothing matches, so findall skips to the run's end */
  lemma {:induction false} SkipInsideRun(s: string, j: nat, e: nat)
    requires 1 <= j <= e <= |s|
    requires forall k | j - 1 <= k < e :: IsDigit(s[k])
    ensures RegexFindAllFrom(s, j) == RegexFindAllFrom(s, e)
    decreases e - j
  {
    if j < e {
      assert !MatchAt(s, j);
      SkipInsideRun(s, j + 1, e);
    }
  }

  /** The scanner computes what the regular expression finds */
  lemma {:induction false} ScanFromIsRegex(s: string, i: nat)
    requires i <= |s| && AtBoundary(s, i)
    ensures ScanFrom(s, i) == RegexFindAllFrom(s, i)
    decreases |s| - i
  {
    if i < |s| {
      if !IsDigit(s[i]) {
        var j := i + 1;
        ScanFromIsRegex(s, j);
        MatchAtIff(s, i);
        RegexStep(s, i, j);
      } else {
        var e := RunEnd(s, i);
        ScanFromIsRegex(s, e);
        RunIsRegex(s, i, e);
      }
    }
  }

  /** A digit run from i to e: the scanner and findall both continue at e,
      having taken the run exactly when it is a match */
  lemma RunIsRegex(s: string, i: nat, e: nat)
    requires i < |s| && AtBoundary(s, i) && IsDigit(s[i]) && e == RunEnd(s, i)
    requires ScanFrom(s, e) == RegexFindAllFrom(s, e)
    ensures ScanFrom(s, i) == RegexFindAllFrom(s, i)
  {
    MatchAtIff(s, i);
    if MatchAt(s, i) {
      var w := s[i..i + 7];
      assert forall k | i <= k < i + 7 :: s[k] == w[k - i];
      RunEndIs(s, i, i + 7);
      RegexMatchStep(s, i, e);
    } else {
      var j := i + 1;
      RegexStep(s, i, j);
      SkipInsideRun(s, j, e);
      assert |s[i..e]| == 7 ==> s[i..e] == s[i..i + 7];
    }
  }

  /** No match at i: findall moves on to j = i + 1 */
  lemma RegexStep(s: string, i: nat, j: nat)
    requires i < |s| && j == i + 1 && !MatchAt(s, i)
    ensures RegexFindAllFrom(s, i) == RegexFindAllFrom(s, j)
  {
  }

  /** A match at i ending at e: findall resumes at e */
  lemma RegexMatchStep(s: string, i: nat, e: nat)
    requires e == i + 7 && MatchAt(s, i)
    ensures RegexFindAllFrom(s, i) == [s[i..e]] + RegexFindAllFrom(s, e)
  {
  }

  lemma {:induction false} RunEndIs(s: string, i: nat, b: nat)
    requires i <= b <= |s| && (b == |s| || !IsDigit(s[b]))
    requires forall k | i <= k < b :: IsDigit(s[k])
    ensures RunEnd(s, i) == b
    decreases b - i
  {
    if i < b {
      RunEndIs(s, i + 1, b);
    }
  }

  lemma FindIdsIsRegex(s: string)
    ensures FindIds(s) == RegexFindAll(s)
  {
    ScanFromIsRegex(s, 0);
  }

  /** findall from i is empty exactly when the pattern matches nowhere from i */
  lemma {:induction false} RegexFindAllFromEmpty(s: string, i: nat)
    requires i <= |s|
    ensures RegexFindAllFrom(s, i) == [] <==> forall j: nat | i <= j < |s| :: !MatchAt(s, j)
    decreases |s| - i
  {
    if i < |s| && !MatchAt(s, i) {
      RegexFindAllFromEmpty(s, i + 1);
    }
  }

  /** The filename flag and the content scan use one matcher: `search`
      succeeds exactly when `findall` finds something */
  lemma SearchIffFound(s: string)
    ensures Search(s) <==> FindIds(s) != []
  {
    FindIdsIsRegex(s);
    RegexFindAllFromEmpty(s, 0);
  }

  // ---------------------------------------------------------------------
  // the examples documented with the pattern

  lemma DocExamplesMatch()
    ensures Search("1234567")
    ensures Search("patient5082392")
    ensures Search("3081375_20215_0_0.zip")
    ensures Search("3240971.tsv")
  {
    BareIdMatches();
    PrefixedIdMatches();
    ZipNameMatches();
    TsvNameMatches();
  }

  lemma BareIdMatches() ensures MatchAt("1234567", 0) {
    var s := "1234567";
    assert AllDigits(s[1..7]);
  }

  lemma PrefixedIdMatches() ensures MatchAt("patient5082392", 7) {
    var s := "patient5082392";
    assert s[7..14] == "5082392";
    assert s[5..7] == "nt";
    assert AllDigits(s[7..14][1..]);
  }

  lemma ZipNameMatches() ensures MatchAt("3081375_20215_0_0.zip", 0) {
    var s := "3081375_20215_0_0.zip";
    assert s[0..7] == "3081375";
    assert AllDigits(s[0..7][1..]);
  }

  lemma TsvNameMatches() ensures MatchAt("3240971.tsv", 0) {
    var s := "3240971.tsv";
    assert s[0..7] == "3240971";
    assert AllDigits(s[0..7][1..]);
  }

  lemma DocExamplesDoNotMatch()
    ensures !Search("123456")
    ensures !Search("0123456")
    ensures !Search("01234567")
    ensures !Search("6500001")
    ensures !Search("91234567")
    ensures !Search("1234_567")
    ensures !Search("rs1234567")
  {
    var s := "6500001";
    assert s[0..7][6] != "6500000"[6];
    assert !MatchAt(s, 0);
    s := "01234567";
    assert !MatchAt(s, 0) && !MatchAt(s, 1);
    s := "91234567";
    assert !MatchAt(s, 0) && !MatchAt(s, 1);
    s := "1234_567";
    assert s[0..7][4] == '_' && s[1..8][3] == '_';
    assert !MatchAt(s, 0) && !MatchAt(s, 1);
    s := "rs1234567";
    assert s[0..2] == "rs";
    assert !MatchAt(s, 0) && !MatchAt(s, 1) && !MatchAt(s, 2);
  }
}

=== FILE: numbers.dfy ===
/** Decimal digit strings: their value, Python's `int(str)` and `str(int)`. */
module Numbers {
  import opened Wrappers
  import opened Text

  predicate AllDigits(w: string) {
    forall k | 0 <= k < |w| :: IsDigit(w[k])
  }

  function DigitOf(c: char): nat
    requires IsDigit(c)
  {
    (c as int) - ('0' as int)
  }

  function DigitChar(d: nat): (c: char)
    requires d < 10
    ensures IsDigit(c) && DigitOf(c) == d
  {
    (('0' as int) + d) as char
  }

  function Pow10(n: nat): (p: nat)
    ensures p >= 1
  {
    if n == 0 then 1 else 10 * Pow10(n - 1)
  }

  /** The number a digit string denotes, read most significant digit first */
  function Value(w: string): nat
    requires AllDigits(w)
  {
    if w == [] then 0 else Value(w[..|w| - 1]) * 10 + DigitOf(w[|w| - 1])
  }

  /** A digit string of length n denotes a number below 10^n */
  lemma {:induction false} ValueBound(w: string)
    requires AllDigits(w)
    ensures Value(w) < Pow10(|w|)
    decreases |w|
  {
    if w != [] {
      ValueBound(w[..|w| - 1]);
    }
  }

  /** The leading digit weighs 10^(number of digits after it) */
  lemma {:induction false} ValueCons(c: char, w: string)
    requires IsDigit(c) && AllDigits(w)
    ensures AllDigits([c] + w)
    ensures Value([c] + w) == DigitOf(c) * Pow10(|w|) + Value(w)
    decreases |w|
  {
    var s := [c] + w;
    if w != [] {
      var init := w[..|w| - 1];
      var last := DigitOf(w[|w| - 1]);
      assert s[..|s| - 1] == [c] + init;
      assert s[|s| - 1] == w[|w| - 1];
      ValueCons(c, init);
      var d := DigitOf(c);
      calc {
        Value(s);
        Value([c] + init) * 10 + last;
        (d * Pow10(|init|) + Value(init)) * 10 + last;
        { assert (d * Pow10(|init|)) * 10 == d * (10 * Pow10(|init|)); }
        d * Pow10(|w|) + (Value(init) * 10 + last);
        d * Pow10(|w|) + Value(w);
      }
    } else {
      assert s[..0] == [];
    }
  }

  /** A digit string denotes 0 exactly when all its digits are '0' */
  lemma {:induction false} ValueZero(w: string)
    requires AllDigits(w)
    ensures Value(w) == 0 <==> forall k | 0 <= k < |w| :: w[k] == '0'
    decreases |w|
  {
    if w != [] {
      var init := w[..|w| - 1];
      ValueZero(init);
      assert forall k | 0 <= k < |init| :: init[k] == w[k];
    }
  }

  /** Python's `str(n)` for a natural number */
  function NatToString(n: nat): (s: string)
    ensures s != [] && AllDigits(s)
    ensures n > 0 ==> s[0] != '0'
    ensures Value(s) == n
  {
    if n < 10 then
      var s := [DigitChar(n)];
      assert s[..0] == [];
      s
    else
      var init := NatToString(n / 10);
      var s := init + [DigitChar(n % 10)];
      assert s[..|s| - 1] == init;
      s
  }

  /** Digits without redundant leading zeros are exactly what NatToString prints */
  lemma {:induction false} NatToStringOfValue(w: string)
    requires w != [] && AllDigits(w) && (w[0] == '0' ==> |w| == 1)
    ensures NatToString(Value(w)) == w
    decreases |w|
  {
    var n := Value(w);
    if |w| == 1 {
      assert w[..0] == [];
    } else {
      var init := w[..|w| - 1];
      assert init[0] == w[0];
      if Value(init) == 0 {
        ValueZero(init);
        assert false;
      }
      NatToStringOfValue(init);
      assert n / 10 == Value(init) && n % 10 == DigitOf(w[|w| - 1]);
      assert n >= 10;
      assert w == init + [w[|w| - 1]];
    }
  }

  /** Python's `str(i)` for any integer */
  function IntToString(i: int): (s: string)
    ensures s != []
    ensures i >= 0 <==> s[0] != '-'
  {
    if i < 0 then "-" + NatToString(-i) else NatToString(i)
  }

  /** Digits with single underscores between them, as `int()` accepts */
  predicate IsDigitBody(b: string) {
    && b != []
    && IsDigit(b[|b| - 1])
    && forall k | 0 <= k < |b| :: IsDigit(b[k]) || (b[k] == '_' && 0 < k < |b| - 1 && IsDigit(b[k + 1]))
  }

  function DropUnderscores(b: string): (d: string)
    requires forall k | 0 <= k < |b| :: IsDigit(b[k]) || b[k] == '_'
    ensures AllDigits(d)
    ensures AllDigits(b) ==> d == b
  {
    if b == [] then []
    else if b[0] == '_' then DropUnderscores(b[1..])
    else [b[0]] + DropUnderscores(b[1..])
  }

  /** Python's `int(s)` in base 10 on a `str`: surrounding whitespace, one
      optional sign, then digits with single underscores between them; None
      where Python raises ValueError. Only ASCII digits are read. */
  function PyInt(s: string): (r: Option<int>)
    ensures r.Some? ==> Strip(s) != []
  {
    var t := Strip(s);
    var negative := t != [] && t[0] == '-';
    var body := if t != [] && (t[0] == '-' || t[0] == '+') then t[1..] else t;
    if IsDigitBody(body) then
      var v := Value(DropUnderscores(body));
      var n: int := if negative then -(v as int) else v;
      Some(n)
    else None
  }

  lemma StripKeeps(s: string)
    requires s != [] && (IsDigit(s[0]) || s[0] == '-') && IsDigit(s[|s| - 1])
    ensures Strip(s) == s
  {
    assert !IsSpace(s[0]) && !IsSpace(s[|s| - 1]);
    StripNoSpaceEnds(s);
  }

  /** `int()` reads back every integer `str()` prints */
  lemma PyIntOfIntToString(i: int)
    ensures PyInt(IntToString(i)) == Some(i)
  {
    var s := IntToString(i);
    var digits := NatToString(if i < 0 then -i else i);
    StripKeeps(s);
    if i < 0 {
      assert s[1..] == digits;
    }
    assert IsDigitBody(digits);
  }

  /** `int()` of a plain digit string is its value, leading zeros and all */
  lemma PyIntOfDigits(w: string)
    requires w != [] && AllDigits(w)
    ensures PyInt(w) == Some(Value(w))
  {
    StripKeeps(w);
    assert w[0] != '-' && w[0] != '+';
    assert IsDigitBody(w);
    assert DropUnderscores(w) == w;
  }

  /** Digits parsed as a natural number: None for anything else */
  function ParseNat(s: string): (r: Option<nat>)
    ensures r.Some? <==> s != [] && AllDigits(s)
    ensures r.Some? ==> NatToString(r.value) == s || s[0] == '0'
  {
    if s != [] && AllDigits(s) then
      if s[0] != '0' || |s| == 1 then
        NatToStringOfValue(s);
        Some(Value(s))
      else Some(Value(s))
    else None
  }
}

=== FILE: scan.dfy ===
/** `analyze_glob_hashes_for_pattern`: every distinct blob of the history is
    read once (`git show <hash>`) and the participant IDs in its text are
    counted, per blob and over the whole repository. Reading a blob is a
    parameter: `show(hash)` is the decoded text, or None when the command
    fails or the content is not UTF-8. */
module Scan {
  import opened Wrappers
  import opened Seqs
  import opened Counts
  import opened Matcher
  import opened Sorting

  /** `most_common(5)`: at most this many IDs are reported per blob */
  const TopIds: nat := 5

  /** One row of the scan table. `eidOcc` is None (NaN) when the blob could
      not be read, `foundIds` is the dict later written as JSON ("" when
      empty). */
  datatype BlobScan = BlobScan(blobHash: string, eidOcc: Option<nat>, uniqueOcc: nat, foundIds: Dict<string>)

  function Min(a: nat, b: nat): nat {
    if a < b then a else b
  }

  /** Distinct values of a sequence, counted */
  lemma DistinctCard<T>(xs: seq<T>)
    ensures |Distinct(xs)| == |Elements(xs)|
  {
    assert Elements(Distinct(xs)) == Elements(xs);
    NoDupsCard(Distinct(xs));
  }

  /** The top IDs of a blob are distinct entries of its counter, counted
      correctly, as many as distinct IDs up to five, and none counts less
      than an ID left out */
  lemma TopEntries(ids: seq<string>)
    ensures var c := Counter(ids);
      var top := MostCommon(c, TopIds);
      && |top| == Min(TopIds, |Elements(ids)|)
      && (forall i | 0 <= i < |top| :: top[i].1 == multiset(ids)[top[i].0] >= 1)
      && Valid(top)
      && multiset(top) <= multiset(c)
      && forall p | p in multiset(c) - multiset(top) :: forall i | 0 <= i < |top| :: top[i].1 >= p.1
  {
    var c := Counter(ids);
    var top := MostCommon(c, TopIds);
    DistinctCard(ids);
    assert |c| == |Keys(c)|;
    TopCounted(c, top, ids);
    MostCommonValid(c, TopIds);
    TopDominates(c, TopIds);
  }

  /** Entries taken from a counter of `ids` carry their counts in `ids` */
  lemma TopCounted(c: Dict<string>, top: Dict<string>, ids: seq<string>)
    requires Valid(c) && multiset(top) <= multiset(c)
    requires forall k :: Get(c, k) == multiset(ids)[k]
    requires forall i | 0 <= i < |c| :: c[i].1 >= 1
    ensures forall i | 0 <= i < |top| :: top[i].1 == multiset(ids)[top[i].0] >= 1
  {
    forall i | 0 <= i < |top|
      ensures top[i].1 == multiset(ids)[top[i].0] >= 1
    {
      assert top[i] in multiset(c);
      var j := EntryAt(c, top[i]);
      GetEntry(c, j);
    }
  }

  lemma EntryAt<T>(xs: seq<T>, x: T) returns (j: nat)
    requires x in multiset(xs)
    ensures j < |xs| && xs[j] == x
  {
    j :| 0 <= j < |xs| && xs[j] == x;
  }

  /** The IDs found in one blob: its ID count, distinct count and top IDs */
  function ScanBlob(hash: string, text: Option<string>): (r: BlobScan)
    ensures r.blobHash == hash
    ensures r.eidOcc.Some? <==> text.Some?
    ensures text.Some? ==> var ids := RegexFindAll(text.value);
      && r.eidOcc.value == |ids|
      && r.uniqueOcc == |Elements(ids)|
      && (forall i | 0 <= i < |r.foundIds| :: r.foundIds[i].1 == multiset(ids)[r.foundIds[i].0] >= 1)
      && multiset(r.foundIds) <= multiset(Counter(ids))
      && forall p | p in multiset(Counter(ids)) - multiset(r.foundIds) ::
           forall i | 0 <= i < |r.foundIds| :: r.foundIds[i].1 >= p.1
    ensures Valid(r.foundIds)
    ensures r.uniqueOcc <= r.eidOcc.GetOr(0)
    ensures |r.foundIds| == Min(TopIds, r.uniqueOcc)
    ensures r.foundIds != [] <==> r.eidOcc.GetOr(0) > 0
    ensures NonIncreasing(r.foundIds, Count)
  {
    match text
    case None => BlobScan(hash, None, 0, [])
    case Some(t) =>
      var ids := FindIds(t);
      FindIdsIsRegex(t);
      DistinctCard(ids);
      var unique := |Elements(ids)|;
      if |ids| > 0 then
        var top := MostCommon(Counter(ids), TopIds);
        TopEntries(ids);
        BlobScan(hash, Some(|ids|), unique, top)
      else
        BlobScan(hash, Some(0), unique, [])
  }

  /** The IDs found over a scan, blob by blob */
  function TotalOcc(rows: seq<BlobScan>): nat {
    if rows == [] then 0 else rows[0].eidOcc.GetOr(0) + TotalOcc(rows[1..])
  }

  /** Reference count: how often `id` occurs in the readable blobs */
  function Occurrences(hashes: seq<string>, show: string -> Option<string>, id: string): nat {
    if hashes == [] then 0
    else
      var here := match show(hashes[0]) case Some(t) => multiset(RegexFindAll(t))[id] case None => 0;
      here + Occurrences(hashes[1..], show, id)
  }

  /** Every count is at least 1 */
  predicate Positive(d: Dict<string>) {
    forall i | 0 <= i < |d| :: d[i].1 >= 1
  }

  /** `eid_dict = update_dictionary(eid_dict, Counter(ids))`, done only
      when the blob holds an ID */
  function AbsorbIds(seen: Dict<string>, ids: seq<string>): (r: Dict<string>)
    requires Valid(seen)
    ensures Valid(r)
    ensures Sum(r) == Sum(seen) + |ids|
    ensures forall id :: Get(r, id) == Get(seen, id) + multiset(ids)[id]
  {
    if |ids| > 0 then UpdateDictionary(seen, Counter(ids)) else seen
  }

  /** The tally after one blob: unchanged for an unreadable blob */
  function Absorb(seen: Dict<string>, text: Option<string>): (r: Dict<string>)
    requires Valid(seen)
    ensures Valid(r)
    ensures Sum(r) == Sum(seen) + (if text.Some? then |RegexFindAll(text.value)| else 0)
    ensures forall id :: Get(r, id) == Get(seen, id) + (if text.Some? then multiset(RegexFindAll(text.value))[id] else 0)
  {
    match text
    case None => seen
    case Some(t) =>
      FindIdsIsRegex(t);
      AbsorbIds(seen, FindIds(t))
  }

  /** Absorbing the IDs of a blob keeps every count of the tally positive */
  lemma AbsorbIdsPositive(seen: Dict<string>, ids: seq<string>)
    requires Valid(seen) && Positive(seen)
    ensures Positive(AbsorbIds(seen, ids))
  {
    if |ids| > 0 {
      assert AbsorbIds(seen, ids) == UpdateDictionary(seen, Counter(ids));
      CounterMergePositive(seen, ids);
    } else {
      assert AbsorbIds(seen, ids) == seen;
    }
  }

  /** Absorbing a blob keeps every count of the tally positive */
  lemma AbsorbPositive(seen: Dict<string>, text: Option<string>)
    requires Valid(seen) && Positive(seen)
    ensures Positive(Absorb(seen, text))
  {
    if text.Some? {
      AbsorbIdsPositive(seen, FindIds(text.value));
    }
  }

  /** The loop over blobs: one row per blob, and `eid_dict` updated with the
      counts of each blob that holds an ID */
  function ScanAll(hashes: seq<string>, show: string -> Option<string>, seen: Dict<string>): (r: (seq<BlobScan>, Dict<string>))
    requires Valid(seen)
    ensures |r.0| == |hashes|
    ensures forall k | 0 <= k < |hashes| :: r.0[k] == ScanBlob(hashes[k], show(hashes[k]))
    ensures forall k | 0 <= k < |hashes| :: r.0[k].blobHash == hashes[k]
    ensures Valid(r.1)
    ensures Sum(r.1) == Sum(seen) + TotalOcc(r.0)
    ensures forall id :: Get(r.1, id) == Get(seen, id) + Occurrences(hashes, show, id)
    decreases |hashes|
  {
    if hashes == [] then ([], seen)
    else
      var hash := hashes[0];
      var row := ScanBlob(hash, show(hash));
      var updated := Absorb(seen, show(hash));
      assert forall id :: Get(updated, id) == Get(seen, id) + Occurrences([hash], show, id);
      var rest := ScanAll(hashes[1..], show, updated);
      var rows := [row] + rest.0;
      assert rows[1..] == rest.0;
      assert forall k | 1 <= k < |hashes| :: hashes[k] == hashes[1..][k - 1];
      (rows, rest.1)
  }

  /** The tally of the loop never holds an ID with count 0: it starts
      from positive counts and only ever absorbs Counter entries */
  lemma {:induction false} ScanAllPositive(hashes: seq<string>, show: string -> Option<string>, seen: Dict<string>)
    requires Valid(seen) && Positive(seen)
    ensures Positive(ScanAll(hashes, show, seen).1)
    decreases |hashes|
  {
    if hashes != [] {
      var updated := Absorb(seen, show(hashes[0]));
      AbsorbPositive(seen, show(hashes[0]));
      ScanAllPositive(hashes[1..], show, updated);
    }
  }

  /** `analyze_glob_hashes_for_pattern(df)`: one row per distinct present
      blob hash, in order of first appearance, and the repository-wide ID
      counts */
  function AnalyseBlobs(column: seq<Option<string>>, show: string -> Option<string>): (r: (seq<BlobScan>, Dict<string>))
    ensures forall i, j | 0 <= i < j < |r.0| :: r.0[i].blobHash != r.0[j].blobHash
    ensures forall k | 0 <= k < |r.0| :: Some(r.0[k].blobHash) in column
    ensures forall k | 0 <= k < |r.0| :: r.0[k] == ScanBlob(r.0[k].blobHash, show(r.0[k].blobHash))
    ensures forall i | 0 <= i < |column| && column[i].Some? ::
      exists k | 0 <= k < |r.0| :: r.0[k].blobHash == column[i].value
    ensures Valid(r.1)
    ensures Sum(r.1) == TotalOcc(r.0)
    ensures forall id :: Get(r.1, id) == Occurrences(Distinct(Somes(column)), show, id)
    ensures Positive(r.1)
  {
    var hashes := Distinct(Somes(column));
    var r := ScanAll(hashes, show, []);
    ScanAllPositive(hashes, show, []);
    CoversColumn(column, r.0);
    FromColumn(column, r.0);
    r
  }

  /** Rows whose hashes are the distinct present values of the column hold
      distinct hashes, each present in the column */
  lemma FromColumn(column: seq<Option<string>>, rows: seq<BlobScan>)
    requires |rows| == |Distinct(Somes(column))|
    requires forall k | 0 <= k < |rows| :: rows[k].blobHash == Distinct(Somes(column))[k]
    ensures forall i, j | 0 <= i < j < |rows| :: rows[i].blobHash != rows[j].blobHash
    ensures forall k | 0 <= k < |rows| :: Some(rows[k].blobHash) in column
  {
    var present := Somes(column);
    var hashes := Distinct(present);
    forall k | 0 <= k < |rows|
      ensures Some(rows[k].blobHash) in column
    {
      assert hashes[k] in present;
      var m :| 0 <= m < |present| && present[m] == hashes[k];
    }
  }

  /** Rows whose hashes are the distinct present values of the column have
      one row per present value */
  lemma CoversColumn(column: seq<Option<string>>, rows: seq<BlobScan>)
    requires |rows| == |Distinct(Somes(column))|
    requires forall k | 0 <= k < |rows| :: rows[k].blobHash == Distinct(Somes(column))[k]
    ensures forall i | 0 <= i < |column| && column[i].Some? ::
      exists k | 0 <= k < |rows| :: rows[k].blobHash == column[i].value
  {
    var hashes := Distinct(Somes(column));
    forall i | 0 <= i < |column| && column[i].Some?
      ensures exists k | 0 <= k < |rows| :: rows[k].blobHash == column[i].value
    {
      assert column[i].value in Somes(column);
      var k :| 0 <= k < |hashes| && hashes[k] == column[i].value;
      assert rows[k].blobHash == column[i].value;
    }
  }
}

=== FILE: seqs.dfy ===
/** Sequence helpers for pandas' column operations: `dropna()` and `unique()`. */
module Seqs {
  import opened Wrappers

  predicate NoDups<T(==)>(xs: seq<T>) {
    forall i, j | 0 <= i < j < |xs| :: xs[i] != xs[j]
  }

  function Elements<T>(xs: seq<T>): set<T> {
    set x | x in xs
  }

  lemma AppendAssoc<T>(a: seq<T>, b: seq<T>, c: seq<T>)
    ensures (a + b) + c == a + (b + c)
  {
  }

  /** A sequence whose head is `x` and whose rest agrees with `tail` index by index is `[x] + tail` */
  lemma ConsOfShift<T>(all: seq<T>, x: T, tail: seq<T>)
    requires |all| == |tail| + 1 && all[0] == x
    requires forall m | 0 <= m < |tail| :: all[m + 1] == tail[m]
    ensures all == [x] + tail
  {
    var want := [x] + tail;
    forall k | 0 <= k < |all|
      ensures all[k] == want[k]
    {
      if k > 0 {
        var m := k - 1;
        assert all[m + 1] == tail[m];
      }
    }
  }

  /** A sequence that maps `f` over `xs` is the image of the head, then the image of the rest */
  lemma MapCons<S, T>(xs: seq<S>, ys: seq<T>, tail: seq<T>, f: S -> T)
    requires xs != [] && |ys| == |xs| && |tail| == |xs| - 1
    requires forall k | 0 <= k < |xs| :: ys[k] == f(xs[k])
    requires forall m | 0 <= m < |tail| :: tail[m] == f(xs[1..][m])
    ensures ys == [f(xs[0])] + tail
  {
    forall m | 0 <= m < |tail|
      ensures ys[m + 1] == tail[m]
    {
      var k := m + 1;
      assert xs[1..][m] == xs[k];
    }
    ConsOfShift(ys, f(xs[0]), tail);
  }

  /** A relation that holds between the head pair and along both tails holds index by index */
  lemma ConsRelated<S, T>(xs: seq<S>, first: T, rest: seq<T>, rel: (S, T) -> bool)
    requires xs != [] && |rest| == |xs| - 1 && rel(xs[0], first)
    requires forall m | 0 <= m < |rest| :: rel(xs[1..][m], rest[m])
    ensures forall k | 0 <= k < |xs| :: rel(xs[k], ([first] + rest)[k])
  {
    forall k | 0 <= k < |xs|
      ensures rel(xs[k], ([first] + rest)[k])
    {
      if k > 0 {
        var m := k - 1;
        assert xs[1..][m] == xs[k];
      }
    }
  }

  /** An element of the tail is an element of the whole sequence */
  lemma SomeInTail<S>(xs: seq<S>, p: S -> bool)
    requires xs != [] && exists m | 0 <= m < |xs[1..]| :: p(xs[1..][m])
    ensures exists k | 0 <= k < |xs| :: p(xs[k])
  {
    var m :| 0 <= m < |xs[1..]| && p(xs[1..][m]);
    assert xs[m + 1] == xs[1..][m];
  }

  /** Position of the first occurrence of `x` */
  function FirstIndex<T(==)>(xs: seq<T>, x: T): (i: nat)
    requires x in xs
    ensures i < |xs| && xs[i] == x
    ensures forall k | 0 <= k < i :: xs[k] != x
  {
    if xs[0] == x then 0 else 1 + FirstIndex(xs[1..], x)
  }

  lemma FirstIndexPrefix<T>(xs: seq<T>, n: nat, x: T)
    requires n <= |xs| && x in xs[..n]
    ensures FirstIndex(xs, x) == FirstIndex(xs[..n], x)
  {
    var a := FirstIndex(xs, x);
    var b := FirstIndex(xs[..n], x);
    assert xs[b] == xs[..n][b] == x;
    assert a <= b;
    assert xs[..n][a] == x;
  }

  /** pandas' `unique()`: each distinct element once, in order of first appearance */
  function Distinct<T(==)>(xs: seq<T>): (r: seq<T>)
    ensures NoDups(r)
    ensures forall i | 0 <= i < |r| :: r[i] in xs
    ensures forall i | 0 <= i < |xs| :: xs[i] in r
    ensures forall i, j | 0 <= i < j < |r| :: FirstIndex(xs, r[i]) < FirstIndex(xs, r[j])
    ensures |r| <= |xs|
  {
    if xs == [] then []
    else
      var init := xs[..|xs| - 1];
      var last := xs[|xs| - 1];
      var r := Distinct(init);
      DistinctStep(xs, r);
      if last in r then r else r + [last]
  }

  /** One more element for `unique()`: appended when unseen, dropped otherwise */
  lemma DistinctStep<T>(xs: seq<T>, r: seq<T>)
    requires xs != []
    requires var init := xs[..|xs| - 1];
      && NoDups(r)
      && (forall i | 0 <= i < |r| :: r[i] in init)
      && (forall i | 0 <= i < |init| :: init[i] in r)
      && (forall i, j | 0 <= i < j < |r| :: FirstIndex(init, r[i]) < FirstIndex(init, r[j]))
      && |r| <= |init|
    ensures var last := xs[|xs| - 1];
      var out := if last in r then r else r + [last];
      && NoDups(out)
      && (forall i | 0 <= i < |out| :: out[i] in xs)
      && (forall i | 0 <= i < |xs| :: xs[i] in out)
      && (forall i, j | 0 <= i < j < |out| :: FirstIndex(xs, out[i]) < FirstIndex(xs, out[j]))
      && |out| <= |xs|
  {
    var init := xs[..|xs| - 1];
    var last := xs[|xs| - 1];
    assert xs == init + [last];
    forall i | 0 <= i < |xs| - 1 ensures xs[i] in r {
      assert xs[i] == init[i];
    }
    DistinctStepOrder(xs, r);
  }

  /** The first-appearance order survives the extra element */
  lemma DistinctStepOrder<T>(xs: seq<T>, r: seq<T>)
    requires xs != []
    requires forall i | 0 <= i < |r| :: r[i] in xs[..|xs| - 1]
    requires forall i | 0 <= i < |xs| - 1 :: xs[i] in r
    requires forall i, j | 0 <= i < j < |r| :: FirstIndex(xs[..|xs| - 1], r[i]) < FirstIndex(xs[..|xs| - 1], r[j])
    ensures var last := xs[|xs| - 1];
      var out := if last in r then r else r + [last];
      forall i, j | 0 <= i < j < |out| :: FirstIndex(xs, out[i]) < FirstIndex(xs, out[j])
  {
    var init := xs[..|xs| - 1];
    var last := xs[|xs| - 1];
    forall i | 0 <= i < |r|
      ensures FirstIndex(xs, r[i]) == FirstIndex(init, r[i]) < |init|
    {
      FirstIndexPrefix(xs, |xs| - 1, r[i]);
    }
    if last !in r {
      assert FirstIndex(xs, last) == |init| by {
        forall k | 0 <= k < |init| ensures xs[k] != last {
          assert xs[k] in r;
        }
      }
      var out := r + [last];
      forall i, j | 0 <= i < j < |out|
        ensures FirstIndex(xs, out[i]) < FirstIndex(xs, out[j])
      {
        assert out[i] == r[i];
        if j < |r| {
          assert out[j] == r[j];
        }
      }
    }
  }

  lemma DistinctSnoc<T>(init: seq<T>, x: T)
    ensures Distinct(init + [x]) == if x in Distinct(init) then Distinct(init) else Distinct(init) + [x]
  {
    assert (init + [x])[..|init|] == init;
  }

  /** A duplicate-free sequence has as many elements as its set */
  lemma {:induction false} NoDupsCard<T>(xs: seq<T>)
    requires NoDups(xs)
    ensures |Elements(xs)| == |xs|
    decreases |xs|
  {
    if xs != [] {
      var init := xs[..|xs| - 1];
      NoDupsCard(init);
      assert Elements(xs) == Elements(init) + {xs[|xs| - 1]};
      assert xs[|xs| - 1] !in Elements(init);
    }
  }

  /** pandas' `dropna()` on an object column: the present values, in order */
  function Somes<T>(xs: seq<Option<T>>): (r: seq<T>)
    ensures |r| <= |xs|
    ensures forall i | 0 <= i < |r| :: Some(r[i]) in xs
    ensures forall i | 0 <= i < |xs| && xs[i].Some? :: xs[i].value in r
  {
    if xs == [] then []
    else
      var rest := Somes(xs[1..]);
      assert forall i | 1 <= i < |xs| :: xs[i] == xs[1..][i - 1];
      match xs[0]
      case Some(v) => [v] + rest
      case None => rest
  }
}

=== FILE: sizeindex.dfy ===
/** `git_to_pandas`: the listing of `git cat-file --batch-check` read into the
    size index. The batch format is written with its own quotes, so every
    line comes out as `'<type> <hash> <size> <path>'`; only blob lines are
    kept. */
module SizeIndex {
  import opened Wrappers
  import opened Text
  import opened Numbers
  import opened Exceptions
  import opened Seqs

  const BlobPrefix := "'blob"

  /** objecttype, objectname, objectsize, filename */
  const Columns: nat := 4

  /** One row of the size index; a short line leaves its last cells empty */
  datatype SizeRow = SizeRow(
    objectType: string,
    blobHash: Option<string>,
    sizeBytes: Option<nat>,
    filename: Option<string>)

  /** The lines that start with `'blob`, in order */
  function BlobLines(lines: seq<string>): (kept: seq<string>)
    ensures |kept| <= |lines|
    ensures forall k | 0 <= k < |kept| :: StartsWith(kept[k], BlobPrefix) && kept[k] in lines
    ensures forall k | 0 <= k < |lines| && StartsWith(lines[k], BlobPrefix) :: lines[k] in kept
  {
    if lines == [] then []
    else
      var rest := BlobLines(lines[1..]);
      assert forall k | 1 <= k < |lines| :: lines[k] == lines[1..][k - 1];
      (if StartsWith(lines[0], BlobPrefix) then [lines[0]] else []) + rest
  }

  /** One line is kept iff it starts with `'blob` */
  lemma BlobLine(line: string)
    ensures BlobLines([line]) == if StartsWith(line, BlobPrefix) then [line] else []
  {
    assert [line][1..] == [];
  }

  /** The filter works line by line: the lines keep their order and their
      repetitions */
  lemma {:induction false} BlobLinesAppend(a: seq<string>, b: seq<string>)
    ensures BlobLines(a + b) == BlobLines(a) + BlobLines(b)
    decreases |a|
  {
    if a == [] {
      assert a + b == b;
    } else {
      assert (a + b)[0] == a[0] && (a + b)[1..] == a[1..] + b;
      BlobLinesAppend(a[1..], b);
      var head := if StartsWith(a[0], BlobPrefix) then [a[0]] else [];
      AppendAssoc(head, BlobLines(a[1..]), BlobLines(b));
    }
  }

  /** `line.replace("'", "").split(maxsplit=3)` */
  function Fields(line: string): (fields: seq<string>)
    ensures |fields| <= Columns
    ensures forall k | 0 <= k < |fields| :: '\'' !in fields[k]
  {
    var s := ReplaceAll(line, "'", "");
    ReplaceCharIsRemove(line, '\'');
    assert s[0..] == s;
    SplitWsFromAvoids(s, 0, 3, '\'');
    SplitWhitespace(s, 3)
  }

  /** The cells of each line */
  function FieldsOf(lines: seq<string>): (rows: seq<seq<string>>)
    ensures |rows| == |lines| && forall k | 0 <= k < |lines| :: rows[k] == Fields(lines[k])
  {
    if lines == [] then [] else [Fields(lines[0])] + FieldsOf(lines[1..])
  }

  /** The cells of the kept lines, before pandas sees them */
  function FieldRows(out: string): seq<seq<string>> {
    FieldsOf(BlobLines(SplitLines(out)))
  }

  function Cell(fields: seq<string>, k: nat): Option<string> {
    if k < |fields| then Some(fields[k]) else None
  }

  /** `pd.to_numeric` of one size cell: a missing cell stays missing, and a
      cell that is not a number raises */
  function Size(cell: Option<string>): (r: Result<Option<nat>, PyException>)
    ensures r.Err? <==> cell.Some? && !(cell.value != [] && AllDigits(cell.value))
    ensures r == Ok(None) <==> cell.None?
  {
    match cell
    case None => Ok(None)
    case Some(t) =>
      match ParseNat(t)
      case None => Err(ValueError)
      case Some(n) => Ok(Some(n))
  }

  /** The size cell of a row parses */
  predicate SizeParses(fields: seq<string>) {
    Size(Cell(fields, 2)).Ok?
  }

  function RowsOf(rows: seq<seq<string>>): (r: Result<seq<SizeRow>, PyException>)
    requires forall k | 0 <= k < |rows| :: rows[k] != []
    ensures r.Err? <==> exists k | 0 <= k < |rows| :: !SizeParses(rows[k])
    ensures r.Ok? ==> |r.value| == |rows|
    ensures r.Ok? ==> forall k | 0 <= k < |rows| ::
      && r.value[k].objectType == rows[k][0]
      && r.value[k].blobHash == Cell(rows[k], 1)
      && Size(Cell(rows[k], 2)) == Ok(r.value[k].sizeBytes)
      && r.value[k].filename == Cell(rows[k], 3)
  {
    if rows == [] then Ok([])
    else
      var f := rows[0];
      assert forall k | 1 <= k < |rows| :: rows[k] == rows[1..][k - 1];
      match Size(Cell(f, 2))
      case Err(e) => Err(e)
      case Ok(size) =>
        match RowsOf(rows[1..])
        case Err(e) =>
          assert exists k | 0 <= k < |rows[1..]| :: !SizeParses(rows[1..][k]);
          Err(e)
        case Ok(rest) => Ok([SizeRow(f[0], Cell(f, 1), size, Cell(f, 3))] + rest)
  }

  /** `git_to_pandas(out, columns)`. ValueError when the kept lines are all
      shorter than four cells (the frame is narrower than its column list)
      or a size is not a number. */
  function ParseSizeIndex(out: string): (r: Result<seq<SizeRow>, PyException>)
    ensures var rows := FieldRows(out);
      && (r.Err? <==>
            || (rows != [] && forall k | 0 <= k < |rows| :: |rows[k]| < Columns)
            || exists k | 0 <= k < |rows| :: !SizeParses(rows[k]))
      && (r.Ok? ==> |r.value| == |rows|)
      && (r.Ok? ==> forall k | 0 <= k < |r.value| :: StartsWith(r.value[k].objectType, "blob"))
  {
    var rows := FieldRows(out);
    var kept := BlobLines(SplitLines(out));
    forall k | 0 <= k < |kept|
      ensures rows[k] != [] && StartsWith(rows[k][0], "blob")
    {
      BlobFirstField(kept[k]);
    }
    if rows != [] && forall k | 0 <= k < |rows| :: |rows[k]| < Columns then Err(ValueError)
    else RowsOf(rows)
  }

  /** A kept line's first cell is its object type, which begins with `blob` */
  lemma BlobFirstField(line: string)
    requires StartsWith(line, BlobPrefix)
    ensures Fields(line) != [] && StartsWith(Fields(line)[0], "blob")
  {
    var s := ReplaceAll(line, "'", "");
    assert s[..4] == "blob" by {
      var rest := line[5..];
      assert line == BlobPrefix + rest;
      ReplaceCharIsRemove(line, '\'');
      RemoveCharAppend(BlobPrefix, rest, '\'');
      assert RemoveChar(BlobPrefix, '\'') == "blob" by {
        assert BlobPrefix[1..] == "blob";
        RemoveCharAbsent("blob", '\'');
      }
    }
    SplitWhitespaceFirst(s, 3);
    var b := WordEnd(s, 0);
    assert b >= 4 by {
      assert !IsSpace(s[0]) && !IsSpace(s[1]) && !IsSpace(s[2]) && !IsSpace(s[3]);
    }
    assert s[..b][..4] == "blob";
  }

  // ---------------------------------------------------------------------
  // round trip with the batch format

  /** One object as the batch check describes it */
  datatype Object = Object(kind: string, hash: string, size: nat, path: string)

  predicate IsKind(kind: string) {
    kind == "blob" || kind == "tree" || kind == "commit" || kind == "tag"
  }

  /** A hash or path the listing can carry as one cell */
  predicate Cellable(w: string) {
    w != [] && IsWord(w) && '\'' !in w && forall k | 0 <= k < |w| :: !IsLineBreak(w[k])
  }

  predicate WellFormed(o: Object) {
    IsKind(o.kind) && Cellable(o.hash) && Cellable(o.path)
  }

  /** The line `--batch-check='%(objecttype) %(objectname) %(objectsize) %(rest)'` prints */
  function BatchLine(o: Object): string {
    "'" + o.kind + " " + o.hash + " " + NatToString(o.size) + " " + o.path + "'"
  }

  function BatchLines(objects: seq<Object>): (lines: seq<string>)
    ensures |lines| == |objects| && forall k | 0 <= k < |objects| :: lines[k] == BatchLine(objects[k])
  {
    seq(|objects|, k requires 0 <= k < |objects| => BatchLine(objects[k]))
  }

  /** The row each blob should produce */
  function Blobs(objects: seq<Object>): (rows: seq<SizeRow>) {
    if objects == [] then []
    else
      var o := objects[0];
      (if o.kind == "blob" then [SizeRow("blob", Some(o.hash), Some(o.size), Some(o.path))] else [])
        + Blobs(objects[1..])
  }

  lemma BatchLineText(o: Object)
    ensures BatchLine(o) == "'" + Join([o.kind, o.hash, NatToString(o.size), o.path], ' ') + "'"
  {
    var words := [o.kind, o.hash, NatToString(o.size), o.path];
    assert Join(words[3..], ' ') == o.path;
    assert Join(words[2..], ' ') == NatToString(o.size) + " " + o.path;
    assert Join(words[1..], ' ') == o.hash + " " + NatToString(o.size) + " " + o.path;
  }

  lemma RemoveQuotes(body: string)
    requires '\'' !in body
    ensures RemoveChar("'" + body + "'", '\'') == body
  {
    RemoveCharAppend("'" + body, "'", '\'');
    RemoveCharAppend("'", body, '\'');
    RemoveCharAbsent(body, '\'');
  }

  lemma FieldsOfBatchLine(o: Object)
    requires WellFormed(o)
    ensures Fields(BatchLine(o)) == [o.kind, o.hash, NatToString(o.size), o.path]
  {
    var words := [o.kind, o.hash, NatToString(o.size), o.path];
    var body := Join(words, ' ');
    CellWords(o, words);
    assert '\'' !in body by {
      JoinAvoids(words, ' ', '\'');
    }
    assert ReplaceAll(BatchLine(o), "'", "") == body by {
      BatchLineText(o);
      ReplaceCharIsRemove(BatchLine(o), '\'');
      RemoveQuotes(body);
    }
    SplitWhitespaceJoin(words, 3);
  }

  /** The four cells of a well-formed object are quote-free words */
  lemma CellWords(o: Object, words: seq<string>)
    requires WellFormed(o) && words == [o.kind, o.hash, NatToString(o.size), o.path]
    ensures Words(words) && forall k | 0 <= k < |words| :: '\'' !in words[k]
  {
    var n := NatToString(o.size);
    assert IsWord(o.kind) && '\'' !in o.kind;
    assert IsWord(n) && '\'' !in n by {
      forall k | 0 <= k < |n| ensures !IsSpace(n[k]) && n[k] != '\'' {
        assert IsDigit(n[k]);
      }
    }
    forall k | 0 <= k < |words| ensures words[k] != [] && IsWord(words[k]) && '\'' !in words[k] {
      if k == 0 {
        assert words[k] == o.kind;
      } else if k == 1 {
        assert words[k] == o.hash;
      } else if k == 2 {
        assert words[k] == n;
      } else {
        assert words[k] == o.path;
      }
    }
  }

  lemma BatchLineKept(o: Object)
    requires IsKind(o.kind)
    ensures StartsWith(BatchLine(o), BlobPrefix) <==> o.kind == "blob"
  {
    var line := BatchLine(o);
    assert line[1..1 + |o.kind|] == o.kind;
    assert line[0] == '\'';
    if o.kind == "blob" {
      assert line[..5] == [line[0]] + line[1..5];
      assert line[..5] == BlobPrefix;
    } else {
      assert line[1] == o.kind[0] && o.kind[0] != 'b';
      assert line[..5][1] != BlobPrefix[1];
    }
  }

  lemma NoLineBreak(o: Object)
    requires WellFormed(o)
    ensures Unbroken(BatchLine(o))
  {
    var n := NatToString(o.size);
    assert IsWord(o.kind);
    assert IsWord(n) by {
      forall k | 0 <= k < |n| ensures !IsSpace(n[k]) {
        assert IsDigit(n[k]);
      }
    }
    WordUnbroken(o.kind);
    WordUnbroken(o.hash);
    WordUnbroken(n);
    WordUnbroken(o.path);
    assert Unbroken("'") && Unbroken(" ");
    UnbrokenConcat("'", o.kind);
    UnbrokenConcat("'" + o.kind, " ");
    UnbrokenConcat("'" + o.kind + " ", o.hash);
    UnbrokenConcat("'" + o.kind + " " + o.hash, " ");
    UnbrokenConcat("'" + o.kind + " " + o.hash + " ", n);
    UnbrokenConcat("'" + o.kind + " " + o.hash + " " + n, " ");
    UnbrokenConcat("'" + o.kind + " " + o.hash + " " + n + " ", o.path);
    UnbrokenConcat("'" + o.kind + " " + o.hash + " " + n + " " + o.path, "'");
  }

  /** A listing of well-formed objects reads back as its blobs, in order:
      trees, commits and tags leave no row */
  lemma {:induction false} ParseBatchOutput(objects: seq<Object>)
    requires forall k | 0 <= k < |objects| :: WellFormed(objects[k])
    requires exists k | 0 <= k < |objects| :: objects[k].kind == "blob"
    ensures ParseSizeIndex(Terminated(BatchLines(objects))) == Ok(Blobs(objects))
  {
    var lines := BatchLines(objects);
    var out := Terminated(lines);
    LinesUnbroken(objects);
    SplitLinesTerminated(lines);
    KeptRows(objects);
    var rows := BlobFields(objects);
    assert FieldRows(out) == rows;
    var k :| 0 <= k < |objects| && objects[k].kind == "blob";
    var j := BlobFieldsWide(objects, k);
    BlobFieldsParse(objects);
    ParseOfRows(out, rows, j, Blobs(objects));
  }

  /** No batch line holds a line boundary */
  lemma LinesUnbroken(objects: seq<Object>)
    requires forall k | 0 <= k < |objects| :: WellFormed(objects[k])
    ensures var lines := BatchLines(objects);
      forall k, j | 0 <= k < |lines| && 0 <= j < |lines[k]| :: !IsLineBreak(lines[k][j])
  {
    var lines := BatchLines(objects);
    forall k | 0 <= k < |objects|
      ensures forall j | 0 <= j < |lines[k]| :: !IsLineBreak(lines[k][j])
    {
      NoLineBreak(objects[k]);
      assert Unbroken(lines[k]);
    }
  }

  /** With one full-width row, the index is the rows read as sizes */
  lemma ParseOfRows(out: string, rows: seq<seq<string>>, j: nat, blobs: seq<SizeRow>)
    requires FieldRows(out) == rows
    requires j < |rows| && |rows[j]| == Columns
    requires forall k | 0 <= k < |rows| :: rows[k] != []
    requires RowsOf(rows) == Ok(blobs)
    ensures ParseSizeIndex(out) == Ok(blobs)
  {
  }

  /** The cells of the kept lines, object by object */
  function BlobFields(objects: seq<Object>): (rows: seq<seq<string>>)
    ensures forall k | 0 <= k < |rows| :: |rows[k]| == Columns
  {
    if objects == [] then []
    else
      var o := objects[0];
      (if o.kind == "blob" then [[o.kind, o.hash, NatToString(o.size), o.path]] else [])
        + BlobFields(objects[1..])
  }

  lemma {:induction false} KeptRows(objects: seq<Object>)
    requires forall k | 0 <= k < |objects| :: WellFormed(objects[k])
    ensures FieldsOf(BlobLines(BatchLines(objects))) == BlobFields(objects)
    decreases |objects|
  {
    if objects != [] {
      var o := objects[0];
      var lines := BatchLines(objects);
      assert lines[1..] == BatchLines(objects[1..]);
      KeptRows(objects[1..]);
      BatchLineKept(o);
      if o.kind == "blob" {
        FieldsOfBatchLine(o);
        var kept := BlobLines(lines);
        assert kept == [lines[0]] + BlobLines(lines[1..]);
        assert kept[1..] == BlobLines(lines[1..]);
      }
    }
  }

  lemma {:induction false} BlobFieldsWide(objects: seq<Object>, k: nat) returns (j: nat)
    requires k < |objects| && objects[k].kind == "blob"
    ensures j < |BlobFields(objects)| && |BlobFields(objects)[j]| == Columns
    decreases |objects|
  {
    var fs := BlobFields(objects);
    if k == 0 {
      j := 0;
    } else {
      var i := BlobFieldsWide(objects[1..], k - 1);
      var rest := BlobFields(objects[1..]);
      j := |fs| - |rest| + i;
      assert fs[j] == rest[i];
    }
  }

  lemma {:induction false} BlobFieldsParse(objects: seq<Object>)
    requires forall k | 0 <= k < |objects| :: WellFormed(objects[k])
    ensures RowsOf(BlobFields(objects)) == Ok(Blobs(objects))
    decreases |objects|
  {
    if objects != [] {
      var o := objects[0];
      BlobFieldsParse(objects[1..]);
      if o.kind == "blob" {
        var f := [o.kind, o.hash, NatToString(o.size), o.path];
        var fs := BlobFields(objects);
        assert fs == [f] + BlobFields(objects[1..]);
        assert fs[1..] == BlobFields(objects[1..]);
        assert ParseNat(NatToString(o.size)) == Some(o.size);
        assert Size(Cell(f, 2)) == Ok(Some(o.size));
        assert Cell(f, 1) == Some(o.hash) && Cell(f, 3) == Some(o.path);
        assert Blobs(objects) == [SizeRow("blob", Some(o.hash), Some(o.size), Some(o.path))] + Blobs(objects[1..]);
        assert RowsOf(fs) == Ok([SizeRow(f[0], Cell(f, 1), Some(o.size), Cell(f, 3))] + Blobs(objects[1..]));
      } else {
        assert BlobFields(objects) == BlobFields(objects[1..]);
        assert Blobs(objects) == Blobs(objects[1..]);
      }
    }
  }
}

=== FILE: sorting.dfy ===
/** Ordering by an integer key, largest first: the model of
    `sort_values(..., ascending=False)` and of `Counter.most_common`. The sort
    is stable, which `most_common` guarantees and which is one of the orders
    pandas' default (unstable) sort may produce. */
module Sorting {

  ghost predicate NonIncreasing<T>(xs: seq<T>, key: T -> int) {
    forall i, j | 0 <= i < j < |xs| :: key(xs[i]) >= key(xs[j])
  }

  /** The elements whose key is `v`, in their original order */
  function WithKey<T>(xs: seq<T>, key: T -> int, v: int): seq<T> {
    if xs == [] then []
    else (if key(xs[0]) == v then [xs[0]] else []) + WithKey(xs[1..], key, v)
  }

  /** Places `x` before the first element whose key is not larger than its own */
  function Insert<T>(x: T, ys: seq<T>, key: T -> int): (r: seq<T>)
    ensures multiset(r) == multiset(ys) + multiset{x}
  {
    if ys == [] || key(ys[0]) <= key(x) then [x] + ys
    else
      assert ys == [ys[0]] + ys[1..];
      [ys[0]] + Insert(x, ys[1..], key)
  }

  lemma {:induction false} InsertSorted<T>(x: T, ys: seq<T>, key: T -> int)
    requires NonIncreasing(ys, key)
    ensures NonIncreasing(Insert(x, ys, key), key)
    decreases |ys|
  {
    if ys == [] || key(ys[0]) <= key(x) {
      forall j | 0 <= j < |ys|
        ensures key(ys[j]) <= key(x)
      {
        if j > 0 {
          assert key(ys[0]) >= key(ys[j]);
        }
      }
      ConsSorted(x, ys, key);
    } else {
      var rest := Insert(x, ys[1..], key);
      InsertSorted(x, ys[1..], key);
      forall j | 0 <= j < |rest|
        ensures key(rest[j]) <= key(ys[0])
      {
        var z := rest[j];
        assert z in multiset(rest);
        if z != x {
          assert z in multiset(ys[1..]);
          var k :| 0 <= k < |ys[1..]| && ys[1..][k] == z;
          assert ys[k + 1] == z;
        }
      }
      ConsSorted(ys[0], rest, key);
    }
  }

  /** A head whose key is at least every later key extends a sorted sequence */
  lemma ConsSorted<T>(y: T, rest: seq<T>, key: T -> int)
    requires NonIncreasing(rest, key)
    requires forall j | 0 <= j < |rest| :: key(rest[j]) <= key(y)
    ensures NonIncreasing([y] + rest, key)
  {
    var r := [y] + rest;
    forall i, j | 0 <= i < j < |r|
      ensures key(r[i]) >= key(r[j])
    {
      var m := j - 1;
      assert r[j] == rest[m];
      if i > 0 {
        var l := i - 1;
        assert r[i] == rest[l];
      }
    }
  }

  /** Insertion sort, largest key first */
  function SortDesc<T>(xs: seq<T>, key: T -> int): (r: seq<T>)
    ensures multiset(r) == multiset(xs)
    ensures |r| == |xs|
    ensures NonIncreasing(r, key)
  {
    if xs == [] then []
    else
      assert xs == [xs[0]] + xs[1..];
      var sorted := SortDesc(xs[1..], key);
      var r := Insert(xs[0], sorted, key);
      InsertSorted(xs[0], sorted, key);
      assert |r| == |multiset(r)|;
      r
  }

  lemma {:induction false} InsertWithKey<T>(x: T, ys: seq<T>, key: T -> int, v: int)
    ensures WithKey(Insert(x, ys, key), key, v)
         == (if key(x) == v then [x] else []) + WithKey(ys, key, v)
    decreases |ys|
  {
    if ys == [] || key(ys[0]) <= key(x) {
      assert ([x] + ys)[1..] == ys;
    } else {
      var rest := Insert(x, ys[1..], key);
      assert ([ys[0]] + rest)[1..] == rest;
      InsertWithKey(x, ys[1..], key, v);
    }
  }

  /** Stability: elements with equal keys keep their relative order */
  lemma {:induction false} SortDescStable<T>(xs: seq<T>, key: T -> int, v: int)
    ensures WithKey(SortDesc(xs, key), key, v) == WithKey(xs, key, v)
    decreases |xs|
  {
    if xs != [] {
      SortDescStable(xs[1..], key, v);
      InsertWithKey(xs[0], SortDesc(xs[1..], key), key, v);
    }
  }

  /** The first n elements of a sorted sequence carry the n largest keys */
  lemma SortedPrefixDominates<T>(r: seq<T>, key: T -> int, n: nat)
    requires NonIncreasing(r, key) && n <= |r|
    ensures forall i, j | 0 <= i < n <= j < |r| :: key(r[i]) >= key(r[j])
  {
  }
}

=== FILE: text.dfy ===
/** The handful of Python `str` operations the audit relies on, with the
    semantics of CPython: `startswith`, `strip`, `split`, `split(sep, 1)`,
    whitespace `split(maxsplit=…)`, `splitlines`, `replace` and `lower`. */
module Text {
  import opened Wrappers

  predicate IsDigit(c: char) {
    '0' <= c <= '9'
  }

  /** The ASCII class `[A-Z]` */
  predicate IsUpper(c: char) {
    'A' <= c <= 'Z'
  }

  /** Python's `str.isspace()` for one code point */
  predicate IsSpace(c: char) {
    || ('\t' <= c <= '\r')
    || ('\U{1c}' <= c <= '\U{1f}')
    || c == ' ' || c == '\U{85}' || c == '\U{a0}' || c == '\U{1680}'
    || ('\U{2000}' <= c <= '\U{200a}')
    || c == '\U{2028}' || c == '\U{2029}' || c == '\U{202f}' || c == '\U{205f}' || c == '\U{3000}'
  }

  /** The line boundaries `str.splitlines()` breaks on */
  predicate IsLineBreak(c: char) {
    || c == '\n' || c == '\r' || c == '\U{0b}' || c == '\U{0c}'
    || ('\U{1c}' <= c <= '\U{1e}')
    || c == '\U{85}' || c == '\U{2028}' || c == '\U{2029}'
  }

  predicate StartsWith(s: string, prefix: string) {
    |prefix| <= |s| && s[..|prefix|] == prefix
  }

  /** A one-letter prefix is the first character */
  lemma StartsWithLetter(s: string, c: char)
    ensures StartsWith(s, [c]) <==> s != [] && s[0] == c
  {
    if s != [] && s[0] == c {
      assert s[..1] == [c];
    }
  }

  predicate EndsWith(s: string, suffix: string) {
    |suffix| <= |s| && s[|s| - |suffix|..] == suffix
  }

  /** `pat` occurs somewhere in `s` (Python's `pat in s`) */
  predicate Contains(s: string, pat: string) {
    exists i | 0 <= i <= |s| - |pat| :: OccursAt(s, pat, i)
  }

  predicate OccursAt(s: string, pat: string, i: int)
    requires 0 <= i <= |s| - |pat|
  {
    s[i..i + |pat|] == pat
  }

  // ---------------------------------------------------------------------
  // strip

  /** Removes leading characters satisfying `drop` */
  function LStrip(s: string, drop: char -> bool): (r: string)
    ensures |r| <= |s| && r == s[|s| - |r|..]
    ensures forall k | 0 <= k < |s| - |r| :: drop(s[k])
    ensures r == [] || !drop(r[0])
  {
    if |s| > 0 && drop(s[0]) then
      var t := LStrip(s[1..], drop);
      var n := |s| - |t|;
      assert s[1..][n - 1..] == s[n..];
      assert forall k | 1 <= k < n :: s[k] == s[1..][k - 1];
      t
    else s
  }

  /** Removes trailing characters satisfying `drop` */
  function RStrip(s: string, drop: char -> bool): (r: string)
    ensures |r| <= |s| && r == s[..|r|]
    ensures forall k | |r| <= k < |s| :: drop(s[k])
    ensures r == [] || !drop(r[|r| - 1])
  {
    if |s| > 0 && drop(s[|s| - 1]) then RStrip(s[..|s| - 1], drop) else s
  }

  /** Nothing to strip on the left when the first character stays */
  lemma LStripKeeps(s: string, drop: char -> bool)
    requires s != [] && !drop(s[0])
    ensures LStrip(s, drop) == s
  {
  }

  /** Nothing to strip on the right when the last character stays */
  lemma RStripKeeps(s: string, drop: char -> bool)
    requires s != [] && !drop(s[|s| - 1])
    ensures RStrip(s, drop) == s
  {
  }

  /** Python's `s.strip()` */
  function Strip(s: string): string {
    RStrip(LStrip(s, IsSpace), IsSpace)
  }
  /** `strip` leaves a text whose ends are not white space unchanged */
  lemma StripNoSpaceEnds(s: string)
    requires s == [] || (!IsSpace(s[0]) && !IsSpace(s[|s| - 1]))
    ensures Strip(s) == s
  {
    if s == [] {
      assert LStrip(s, IsSpace) == [];
    } else {
      var l := LStrip(s, IsSpace);
      LStripKeeps(s, IsSpace);
      assert l == s;
      RStripKeeps(l, IsSpace);
    }
  }


  /** Python's `s.strip(c)` for a one-character argument */
  function StripChar(s: string, c: char): string {
    RStrip(LStrip(s, x => x == c), x => x == c)
  }

  /** Strip leaves an empty string exactly when `s` is blank */
  lemma StripEmptyIffBlank(s: string)
    ensures Strip(s) == [] <==> forall k | 0 <= k < |s| :: IsSpace(s[k])
  {
  }

  // ---------------------------------------------------------------------
  // split on one separator

  /** Inverse of Split: the pieces glued back with the separator */
  function Join(parts: seq<string>, sep: char): string
    requires |parts| >= 1
  {
    if |parts| == 1 then parts[0] else parts[0] + [sep] + Join(parts[1..], sep)
  }

  /** A character in none of the parts, and not the separator, is not in the joined text */
  lemma {:induction false} JoinAvoids(parts: seq<string>, sep: char, c: char)
    requires |parts| >= 1 && c != sep
    requires forall k | 0 <= k < |parts| :: c !in parts[k]
    ensures c !in Join(parts, sep)
    decreases |parts|
  {
    if |parts| > 1 {
      JoinAvoids(parts[1..], sep, c);
    }
  }

  /** Python's `s.split(sep)` for a one-character separator */
  function Split(s: string, sep: char): (parts: seq<string>)
    ensures |parts| >= 1
    ensures forall i | 0 <= i < |parts| :: sep !in parts[i]
    ensures Join(parts, sep) == s
  {
    if |s| == 0 then [""]
    else
      var rest := Split(s[1..], sep);
      if s[0] == sep then
        [""] + rest
      else
        var parts := [[s[0]] + rest[0]] + rest[1..];
        assert Join(parts, sep) == [s[0]] + Join(rest, sep) by {
          if |rest| > 1 {
            assert parts[1..] == rest[1..];
          }
        }
        assert s == [s[0]] + s[1..];
        parts
  }

  /** A separator-free prefix followed by the separator is split off as one piece */
  lemma {:induction false} SplitCons(a: string, sep: char, b: string)
    requires sep !in a
    ensures Split(a + [sep] + b, sep) == [a] + Split(b, sep)
    decreases |a|
  {
    var s := a + [sep] + b;
    if |a| > 0 {
      assert s[1..] == a[1..] + [sep] + b;
      SplitCons(a[1..], sep, b);
      assert a == [a[0]] + a[1..];
    } else {
      assert s[1..] == b;
    }
  }

  /** Whatever follows the last separator is the last piece */
  lemma {:induction false} SplitLastPiece(a: string, sep: char, b: string)
    requires sep !in b
    ensures var parts := Split(a + [sep] + b, sep);
      |parts| >= 2 && parts[|parts| - 1] == b
    decreases |a|
  {
    var s := a + [sep] + b;
    if |a| == 0 {
      assert s == [] + [sep] + b;
      SplitCons([], sep, b);
      SplitNoSep(b, sep);
    } else {
      assert s[1..] == a[1..] + [sep] + b;
      SplitLastPiece(a[1..], sep, b);
    }
  }

  /** A separator-free string is a single piece */
  lemma {:induction false} SplitNoSep(a: string, sep: char)
    requires sep !in a
    ensures Split(a, sep) == [a]
    decreases |a|
  {
    if |a| > 0 {
      SplitNoSep(a[1..], sep);
      assert a == [a[0]] + a[1..];
    }
  }

  /** Splitting undoes joining, for pieces that do not contain the separator */
  lemma {:induction false} SplitJoin(parts: seq<string>, sep: char)
    requires |parts| >= 1
    requires forall i | 0 <= i < |parts| :: sep !in parts[i]
    ensures Split(Join(parts, sep), sep) == parts
    decreases |parts|
  {
    if |parts| == 1 {
      SplitNoSep(parts[0], sep);
    } else {
      SplitJoin(parts[1..], sep);
      SplitCons(parts[0], sep, Join(parts[1..], sep));
    }
  }

  /** The last piece is glued on after the others */
  lemma {:induction false} JoinLast(parts: seq<string>, sep: char)
    requires |parts| >= 2
    ensures Join(parts, sep) == Join(parts[..|parts| - 1], sep) + [sep] + parts[|parts| - 1]
    decreases |parts|
  {
    if |parts| > 2 {
      JoinLast(parts[1..], sep);
      assert parts[1..][..|parts| - 2] == parts[..|parts| - 1][1..];
    } else {
      assert parts[..1] == [parts[0]];
    }
  }

  /** The string holds a separator exactly when it splits into several pieces */
  lemma SplitSingleIffNoSep(s: string, sep: char)
    ensures |Split(s, sep)| == 1 <==> sep !in s
  {
    var parts := Split(s, sep);
    if |parts| > 1 {
      assert s == parts[0] + [sep] + Join(parts[1..], sep);
      assert s[|parts[0]|] == sep;
    } else {
      assert s == parts[0];
    }
  }

  /** Python's `s.split(sep, 1)` unpacked into two names: None when there is
      no separator (the unpacking would raise ValueError) */
  function SplitOnce(s: string, sep: char): (r: Option<(string, string)>)
    ensures r.None? <==> sep !in s
    ensures r.Some? ==> sep !in r.value.0 && s == r.value.0 + [sep] + r.value.1
  {
    var parts := Split(s, sep);
    SplitSingleIffNoSep(s, sep);
    if |parts| == 1 then None else Some((parts[0], Join(parts[1..], sep)))
  }

  // ---------------------------------------------------------------------
  // whitespace split

  /** A string without whitespace */
  predicate IsWord(w: string) {
    forall k | 0 <= k < |w| :: !IsSpace(w[k])
  }

  /** A non-empty string that does not begin with whitespace */
  predicate StartsNonSpace(f: string) {
    f != [] && !IsSpace(f[0])
  }

  /** The first non-whitespace position at or after `i` */
  function SkipSpaces(s: string, i: nat): (k: nat)
    requires i <= |s|
    ensures i <= k <= |s| && (k == |s| || !IsSpace(s[k]))
    decreases |s| - i
  {
    if i == |s| || !IsSpace(s[i]) then i else SkipSpaces(s, i + 1)
  }

  /** The first whitespace position at or after `i` */
  function WordEnd(s: string, i: nat): (k: nat)
    requires i <= |s|
    ensures i <= k <= |s| && (k == |s| || IsSpace(s[k]))
    ensures forall j | i <= j < k :: !IsSpace(s[j])
    decreases |s| - i
  {
    if i == |s| || IsSpace(s[i]) then i else WordEnd(s, i + 1)
  }

  /** CPython's whitespace `split` from position `i` with `count` splits still
      allowed (a negative count never runs out): once they are used up, the
      rest (leading whitespace skipped) is the last field */
  function SplitWsFrom(s: string, i: nat, count: int): (fields: seq<string>)
    requires i <= |s|
    ensures count >= 0 ==> |fields| <= count + 1
    ensures |fields| <= |s| - i
    ensures forall k | 0 <= k < |fields| :: StartsNonSpace(fields[k])
    ensures forall k | 0 <= k < |fields| && (count < 0 || k < count) :: IsWord(fields[k])
    decreases |s| - i
  {
    var a := SkipSpaces(s, i);
    if a == |s| then []
    else if count == 0 then [s[a..]]
    else
      var b := WordEnd(s, a);
      [s[a..b]] + SplitWsFrom(s, b, if count < 0 then count else count - 1)
  }

  /** Python's `s.split(maxsplit=m)`; a negative `m` means no limit */
  function SplitWhitespace(s: string, maxsplit: int): (fields: seq<string>)
    ensures maxsplit >= 0 ==> |fields| <= maxsplit + 1
    ensures forall k | 0 <= k < |fields| :: StartsNonSpace(fields[k])
    ensures maxsplit < 0 ==> forall k | 0 <= k < |fields| :: IsWord(fields[k])
  {
    SplitWsFrom(s, 0, maxsplit)
  }

  /** With a split allowed, text that starts with a word yields that word first */
  lemma SplitWhitespaceFirst(s: string, maxsplit: int)
    requires s != [] && !IsSpace(s[0]) && maxsplit != 0
    ensures var fields := SplitWhitespace(s, maxsplit);
      fields != [] && fields[0] == s[..WordEnd(s, 0)]
  {
    assert SkipSpaces(s, 0) == 0;
  }

  /** Non-empty whitespace-free words */
  predicate Words(words: seq<string>) {
    forall k | 0 <= k < |words| :: words[k] != [] && IsWord(words[k])
  }

  /** Splitting single-space-separated words, with enough splits allowed,
      gives the words back */
  lemma SplitWhitespaceJoin(words: seq<string>, maxsplit: int)
    requires |words| >= 1 && (maxsplit < 0 || maxsplit + 1 >= |words|)
    requires Words(words)
    ensures SplitWhitespace(Join(words, ' '), maxsplit) == words
  {
    var s := Join(words, ' ');
    assert s[0..] == s;
    SplitWsFromJoin(s, 0, words, maxsplit);
  }

  lemma {:induction false} SplitWsFromJoin(s: string, i: nat, words: seq<string>, count: int)
    requires |words| >= 1 && (count < 0 || count + 1 >= |words|)
    requires i <= |s| && s[i..] == Join(words, ' ')
    requires Words(words)
    ensures SplitWsFrom(s, i, count) == words
    decreases |words|
  {
    var w := words[0];
    WordsSplit(words);
    if |words| == 1 {
      assert s[i..] == w;
      SplitWsFromLastWord(s, i, count);
      assert words == [w];
    } else {
      var more := words[1..];
      var rest := Join(more, ' ');
      assert s[i..] == w + [' '] + rest;
      var j := i + |w| + 1;
      SpacedSlices(s, i, w, j, rest);
      var next := if count < 0 then count else count - 1;
      SplitWsFromJoin(s, j, more, next);
      SplitWsFromWord(s, i, w, j, next, more, count);
      assert words == [w] + more;
    }
  }

  lemma WordsSplit(words: seq<string>)
    requires |words| >= 1 && Words(words)
    ensures words[0] != [] && IsWord(words[0]) && Words(words[1..])
  {
    var more := words[1..];
    forall k | 0 <= k < |more| ensures more[k] != [] && IsWord(more[k]) {
      assert more[k] == words[k + 1];
    }
  }

  /** A word followed by a space is one field, and the fields after the
      space follow it */
  lemma SplitWsFromWord(s: string, i: nat, w: string, j: nat, next: int, more: seq<string>, count: int)
    requires i < j <= |s| && s[i..j - 1] == w && s[j - 1] == ' '
    requires w != [] && IsWord(w) && count != 0
    requires next == (if count < 0 then count else count - 1)
    requires SplitWsFrom(s, j, next) == more
    ensures SplitWsFrom(s, i, count) == [w] + more
  {
    var b := j - 1;
    assert SkipSpaces(s, i) == i by {
      assert s[i] == w[0];
    }
    assert WordEnd(s, i) == b by {
      forall m | i <= m < b ensures !IsSpace(s[m]) {
        assert s[m] == w[m - i];
      }
      WordEndOver(s, i, b);
    }
    assert SkipSpaces(s, b) == SkipSpaces(s, b + 1);
  }

  /** Where a word and a space sit in the text */
  lemma SpacedSlices(s: string, i: nat, w: string, j: nat, rest: string)
    requires i <= |s| && s[i..] == w + [' '] + rest && j == i + |w| + 1
    ensures i < j <= |s| && s[i..j - 1] == w && s[j - 1] == ' ' && s[j..] == rest
  {
    assert s[i..][..|w|] == w;
    assert s[i..][|w|] == ' ';
    assert s[i..][|w| + 1..] == rest;
  }

  lemma SplitWsFromLastWord(s: string, i: nat, count: int)
    requires i < |s| && StartsNonSpace(s[i..]) && IsWord(s[i..])
    ensures SplitWsFrom(s, i, count) == [s[i..]]
  {
    assert SkipSpaces(s, i) == i;
    if count != 0 {
      assert WordEnd(s, i) == |s| by { WordEndOver(s, i, |s|); }
      var next := if count < 0 then count else count - 1;
      assert SplitWsFrom(s, |s|, next) == [];
      assert s[i..|s|] == s[i..];
    }
  }

  lemma {:induction false} WordEndOver(s: string, i: nat, b: nat)
    requires i <= b <= |s|
    requires forall j | i <= j < b :: !IsSpace(s[j])
    requires b == |s| || IsSpace(s[b])
    ensures WordEnd(s, i) == b
    decreases b - i
  {
    if i < b {
      WordEndOver(s, i + 1, b);
    }
  }

  // ---------------------------------------------------------------------
  // splitlines

  /** Text without a line boundary */
  predicate Unbroken(s: string) {
    forall k | 0 <= k < |s| :: !IsLineBreak(s[k])
  }

  lemma UnbrokenConcat(a: string, b: string)
    requires Unbroken(a) && Unbroken(b)
    ensures Unbroken(a + b)
  {
    forall k | 0 <= k < |a + b| ensures !IsLineBreak((a + b)[k]) {
      if k >= |a| {
        assert (a + b)[k] == b[k - |a|];
      }
    }
  }

  /** Line boundaries are whitespace, so a word has none */
  lemma WordUnbroken(w: string)
    requires IsWord(w)
    ensures Unbroken(w)
  {
    forall k | 0 <= k < |w| ensures !IsLineBreak(w[k]) {
      assert !IsSpace(w[k]);
    }
  }

  /** Index of the first line boundary, or |s| */
  function LineEnd(s: string): (e: nat)
    ensures e <= |s|
    ensures forall k | 0 <= k < e :: !IsLineBreak(s[k])
    ensures e == |s| || IsLineBreak(s[e])
  {
    if |s| == 0 || IsLineBreak(s[0]) then 0 else 1 + LineEnd(s[1..])
  }

  /** Python's `s.splitlines()`: `\r\n` is one boundary and a final boundary
      does not open an empty last line */
  function SplitLines(s: string): (lines: seq<string>)
    ensures forall i, j | 0 <= i < |lines| && 0 <= j < |lines[i]| :: !IsLineBreak(lines[i][j])
    decreases |s|
  {
    if s == [] then []
    else
      var e := LineEnd(s);
      var next :=
        if e == |s| then e
        else if s[e] == '\r' && e + 1 < |s| && s[e + 1] == '\n' then e + 2
        else e + 1;
      [s[..e]] + SplitLines(s[next..])
  }

  /** Lines each followed by a newline */
  function Terminated(lines: seq<string>): string {
    if lines == [] then [] else lines[0] + "\n" + Terminated(lines[1..])
  }

  /** splitlines recovers the lines of newline-terminated text */
  lemma {:induction false} SplitLinesTerminated(lines: seq<string>)
    requires forall i, j | 0 <= i < |lines| && 0 <= j < |lines[i]| :: !IsLineBreak(lines[i][j])
    ensures SplitLines(Terminated(lines)) == lines
    decreases |lines|
  {
    if lines != [] {
      var s := Terminated(lines);
      var rest := Terminated(lines[1..]);
      assert s == lines[0] + ("\n" + rest);
      assert LineEnd(s) == |lines[0]| by { LineEndPrefix(lines[0], "\n" + rest); }
      assert s[..|lines[0]|] == lines[0];
      assert s[|lines[0]| + 1..] == rest;
      SplitLinesTerminated(lines[1..]);
    }
  }

  lemma {:induction false} LineEndPrefix(line: string, rest: string)
    requires forall j | 0 <= j < |line| :: !IsLineBreak(line[j])
    requires rest != [] && IsLineBreak(rest[0])
    ensures LineEnd(line + rest) == |line|
    decreases |line|
  {
    if |line| > 0 {
      assert (line + rest)[1..] == line[1..] + rest;
      LineEndPrefix(line[1..], rest);
    } else {
      assert line + rest == rest;
    }
  }

  // ---------------------------------------------------------------------
  // replace, lower

  /** Python's `s.replace(pat, rep)`: left to right, non-overlapping */
  function ReplaceAll(s: string, pat: string, rep: string): (r: string)
    requires |pat| > 0
    ensures !Contains(s, pat) ==> r == s
    ensures rep == [] ==> |r| <= |s|
    decreases |s|
  {
    if |s| < |pat| then s
    else if s[..|pat|] == pat then
      assert OccursAt(s, pat, 0);
      rep + ReplaceAll(s[|pat|..], pat, rep)
    else
      ContainsTail(s, pat);
      [s[0]] + ReplaceAll(s[1..], pat, rep)
  }

  /** An occurrence in the tail is an occurrence in the whole */
  lemma ContainsTail(s: string, pat: string)
    requires s != []
    ensures Contains(s[1..], pat) ==> Contains(s, pat)
  {
    var t := s[1..];
    if Contains(t, pat) {
      var i :| 0 <= i <= |t| - |pat| && OccursAt(t, pat, i);
      var j := i + 1;
      assert t[i..i + |pat|] == s[j..j + |pat|];
      assert OccursAt(s, pat, j);
    }
  }

  /** `s` without any `c`: what `s.replace(c, "")` leaves */
  function RemoveChar(s: string, c: char): (r: string)
    ensures c !in r && |r| <= |s|
  {
    if s == [] then []
    else (if s[0] == c then [] else [s[0]]) + RemoveChar(s[1..], c)
  }

  lemma {:induction false} RemoveCharAppend(a: string, b: string, c: char)
    ensures RemoveChar(a + b, c) == RemoveChar(a, c) + RemoveChar(b, c)
    decreases |a|
  {
    if a != [] {
      assert (a + b)[1..] == a[1..] + b;
      RemoveCharAppend(a[1..], b, c);
    } else {
      assert a + b == b;
    }
  }

  lemma {:induction false} RemoveCharAbsent(s: string, c: char)
    requires c !in s
    ensures RemoveChar(s, c) == s
    decreases |s|
  {
    if s != [] {
      RemoveCharAbsent(s[1..], c);
    }
  }

  /** Replacing a one-character pattern by nothing removes that character */
  lemma {:induction false} ReplaceCharIsRemove(s: string, c: char)
    ensures ReplaceAll(s, [c], []) == RemoveChar(s, c)
    decreases |s|
  {
    if s != [] {
      ReplaceCharIsRemove(s[1..], c);
      if s[0] == c {
        assert s[..1] == [c];
      } else {
        assert s[..1][0] != c;
      }
    }
  }

  /** No whitespace field holds a character its source does not */
  lemma {:induction false} SplitWsFromAvoids(s: string, i: nat, count: int, c: char)
    requires i <= |s| && c !in s[i..]
    ensures forall k | 0 <= k < |SplitWsFrom(s, i, count)| :: c !in SplitWsFrom(s, i, count)[k]
    decreases |s| - i
  {
    var a := SkipSpaces(s, i);
    if a < |s| {
      assert forall j | a <= j < |s| :: s[j] == s[i..][j - i];
      if count != 0 {
        var b := WordEnd(s, a);
        assert c !in s[b..] by {
          assert forall j | b <= j < |s| :: s[j] == s[i..][j - i];
        }
        SplitWsFromAvoids(s, b, if count < 0 then count else count - 1, c);
      }
    }
  }

  function LowerChar(c: char): char {
    if IsUpper(c) then (c as int + 32) as char else c
  }

  /** `s.lower()` restricted to ASCII letters */
  function Lower(s: string): (r: string)
    ensures |r| == |s|
    ensures forall k | 0 <= k < |r| :: !IsUpper(r[k])
    ensures forall k | 0 <= k < |s| && !IsUpper(s[k]) :: r[k] == s[k]
  {
    seq(|s|, k requires 0 <= k < |s| => LowerChar(s[k]))
  }
}

=== FILE: trees.dfy ===
/** `get_blob_hashes_for_commits`: the files of every distinct commit, read
    from `git ls-tree -r -z <commit>`. Each NUL-terminated record is
    `<mode> <type> <hash>` TAB `<path>`; only blob records are kept. The
    listing itself is a parameter: `lsTree(arg)` is the command's output, or
    None when the command fails. */
module Trees {
  import opened Wrappers
  import opened Text
  import opened Seqs
  import opened Exceptions

  /** A file of a commit; `commit` is the log's value, None when no header preceded the change */
  datatype TreeEntry = TreeEntry(commit: Option<string>, blobHash: string, filename: string)

  /** `f'{commit}'`: a missing commit is formatted as `None` */
  function CommitArg(commit: Option<string>): string {
    match commit
    case Some(c) => c
    case None => "None"
  }

  /** `out.split('\0')[:-1]`: the records, each of which was followed by a NUL */
  function Records(out: string): (records: seq<string>)
    ensures |records| == |Split(out, '\0')| - 1
    ensures forall k | 0 <= k < |records| :: '\0' !in records[k]
  {
    var parts := Split(out, '\0');
    parts[..|parts| - 1]
  }

  /** The header names a blob: exactly three fields, the second `blob` */
  predicate IsBlobHeader(header: string) {
    var fields := SplitWhitespace(header, -1);
    |fields| == 3 && fields[1] == "blob"
  }

  /** `header, filename = part.split('\t', 1)`, then the blob test; a record
      without a tab cannot be unpacked (ValueError) */
  function ReadRecord(commit: Option<string>, part: string): (r: Result<Option<TreeEntry>, PyException>)
    ensures r.Err? <==> '\t' !in part
    ensures r.Ok? ==> var (header, filename) := SplitOnce(part, '\t').value;
      && (r.value.Some? <==> IsBlobHeader(header))
      && (r.value.Some? ==> r.value.value == TreeEntry(commit, SplitWhitespace(header, -1)[2], filename))
  {
    match SplitOnce(part, '\t')
    case None => Err(ValueError)
    case Some((header, filename)) =>
      var fields := SplitWhitespace(header, -1);
      if |fields| == 3 && fields[1] == "blob" then Ok(Some(TreeEntry(commit, fields[2], filename)))
      else Ok(None)
  }

  /** The blob entries of one listing, in order */
  function ReadRecords(commit: Option<string>, parts: seq<string>): (r: Result<seq<TreeEntry>, PyException>)
    ensures r.Err? <==> exists k | 0 <= k < |parts| :: '\t' !in parts[k]
    ensures r.Ok? ==> |r.value| <= |parts|
    ensures r.Ok? ==> forall k | 0 <= k < |r.value| :: r.value[k].commit == commit
  {
    if parts == [] then Ok([])
    else
      assert forall k | 1 <= k < |parts| :: parts[k] == parts[1..][k - 1];
      match ReadRecord(commit, parts[0])
      case Err(e) => Err(e)
      case Ok(entry) =>
        match ReadRecords(commit, parts[1..])
        case Err(e) =>
          assert exists k | 0 <= k < |parts[1..]| :: '\t' !in parts[1..][k];
          Err(e)
        case Ok(rest) =>
          Ok((if entry.Some? then [entry.value] else []) + rest)
  }

  /** One commit's files; a failed listing contributes nothing */
  function ListCommit(commit: Option<string>, lsTree: string -> Option<string>): (r: Result<seq<TreeEntry>, PyException>)
    ensures r.Ok? ==> forall k | 0 <= k < |r.value| :: r.value[k].commit == commit
    ensures lsTree(CommitArg(commit)).None? ==> r == Ok([])
  {
    match lsTree(CommitArg(commit))
    case None => Ok([])
    case Some(out) => ReadRecords(commit, Records(out))
  }

  /** The listings of the given commits, one after another */
  function ListAll(commits: seq<Option<string>>, lsTree: string -> Option<string>): (r: Result<seq<TreeEntry>, PyException>)
    ensures r.Ok? ==> forall k | 0 <= k < |r.value| :: r.value[k].commit in commits
  {
    if commits == [] then Ok([])
    else
      var first :- ListCommit(commits[0], lsTree);
      var rest :- ListAll(commits[1..], lsTree);
      assert forall k | 0 <= k < |rest| :: rest[k].commit in commits by {
        assert forall c | c in commits[1..] :: c in commits;
      }
      Ok(first + rest)
  }

  /** `get_blob_hashes_for_commits(commits)`: every distinct commit listed
      once, in order of first appearance. Failed listings are skipped. */
  function ListTrees(commits: seq<Option<string>>, lsTree: string -> Option<string>): (r: Result<seq<TreeEntry>, PyException>)
    ensures r.Ok? ==> forall k | 0 <= k < |r.value| :: r.value[k].commit in commits
  {
    var distinct := Distinct(commits);
    var r := ListAll(distinct, lsTree);
    assert r.Ok? ==> forall k | 0 <= k < |r.value| :: r.value[k].commit in commits by {
      if r.Ok? {
        forall k | 0 <= k < |r.value|
          ensures r.value[k].commit in commits
        {
          var i :| 0 <= i < |distinct| && distinct[i] == r.value[k].commit;
        }
      }
    }
    r
  }

  /** The listings of two runs of commits, one after the other; the first
      failure ends the loop */
  lemma {:induction false} ListAllAppend(a: seq<Option<string>>, b: seq<Option<string>>, lsTree: string -> Option<string>)
    ensures ListAll(a + b, lsTree) ==
      (var x :- ListAll(a, lsTree); var y :- ListAll(b, lsTree); Ok(x + y))
    decreases |a|
  {
    if a == [] {
      assert a + b == b;
      if ListAll(b, lsTree).Ok? {
        assert [] + ListAll(b, lsTree).value == ListAll(b, lsTree).value;
      }
    } else {
      assert (a + b)[0] == a[0] && (a + b)[1..] == a[1..] + b;
      ListAllAppend(a[1..], b, lsTree);
      var first := ListCommit(a[0], lsTree);
      var rest := ListAll(a[1..], lsTree);
      var more := ListAll(b, lsTree);
      if first.Ok? && rest.Ok? && more.Ok? {
        AppendAssoc(first.value, rest.value, more.value);
      }
    }
  }

  /** One commit alone is its own listing */
  lemma ListAllOne(c: Option<string>, lsTree: string -> Option<string>)
    ensures ListAll([c], lsTree) == ListCommit(c, lsTree)
  {
    assert [c][1..] == [];
    if ListCommit(c, lsTree).Ok? {
      assert ListCommit(c, lsTree).value + [] == ListCommit(c, lsTree).value;
    }
  }

  /** Each distinct commit is listed once, in order of first appearance: a
      commit seen before adds nothing, a new one adds its own listing at the
      end */
  lemma ListTreesOnce(commits: seq<Option<string>>, c: Option<string>, lsTree: string -> Option<string>)
    ensures c in commits ==> ListTrees(commits + [c], lsTree) == ListTrees(commits, lsTree)
    ensures c !in commits ==>
      ListTrees(commits + [c], lsTree) == (var a :- ListTrees(commits, lsTree); var b :- ListCommit(c, lsTree); Ok(a + b))
  {
    var d := Distinct(commits);
    DistinctSnoc(commits, c);
    assert c in d <==> c in commits by {
      if c in commits {
        var i :| 0 <= i < |commits| && commits[i] == c;
      }
    }
    if c !in commits {
      ListAllAppend(d, [c], lsTree);
      ListAllOne(c, lsTree);
    }
  }

  // ---------------------------------------------------------------------
  // the handler as written

  /** The loop as written: when a listing fails, the handler prints
      `ls_tree_cmd.stderr`, which is only bound if an earlier listing
      succeeded; otherwise the handler itself raises */
  function ListAllAsWritten(commits: seq<Option<string>>, lsTree: string -> Option<string>, bound: bool): Result<seq<TreeEntry>, PyException> {
    if commits == [] then Ok([])
    else
      match lsTree(CommitArg(commits[0]))
      case None =>
        if bound then ListAllAsWritten(commits[1..], lsTree, bound) else Err(UnboundLocalError)
      case Some(out) =>
        var first :- ReadRecords(commits[0], Records(out));
        var rest :- ListAllAsWritten(commits[1..], lsTree, true);
        Ok(first + rest)
  }

  function ListTreesAsWritten(commits: seq<Option<string>>, lsTree: string -> Option<string>): Result<seq<TreeEntry>, PyException> {
    ListAllAsWritten(Distinct(commits), lsTree, false)
  }

  /** Where the loop as written does not fail in its handler, it lists what
      the corrected loop lists */
  lemma {:induction false} AsWrittenAgrees(commits: seq<Option<string>>, lsTree: string -> Option<string>, bound: bool)
    requires ListAllAsWritten(commits, lsTree, bound) != Err(UnboundLocalError)
    ensures ListAllAsWritten(commits, lsTree, bound) == ListAll(commits, lsTree)
    decreases |commits|
  {
    if commits != [] {
      match lsTree(CommitArg(commits[0]))
      case None =>
        AsWrittenAgrees(commits[1..], lsTree, bound);
        var rest := ListAll(commits[1..], lsTree);
        if rest.Ok? {
          assert [] + rest.value == rest.value;
        }
      case Some(out) =>
        var first := ReadRecords(commits[0], Records(out));
        if first.Ok? {
          AsWrittenAgrees(commits[1..], lsTree, true);
        }
    }
  }

  /** A log whose only commit cannot be listed (a change before any header
      has no commit, listed as `None`) ends the audit as written, and is
      skipped by the corrected loop */
  lemma UnboundOnFirstFailure()
    ensures ListTreesAsWritten([None], Failing) == Err(UnboundLocalError)
    ensures ListTrees([None], Failing) == Ok([])
  {
    var commits: seq<Option<string>> := [None];
    assert Distinct(commits) == commits by {
      assert commits[..0] == [];
    }
    assert commits[1..] == [];
    assert ListCommit(commits[0], Failing) == Ok([]);
    var none: seq<TreeEntry> := [];
    assert ListAll(commits, Failing) == Ok(none + none);
    assert none + none == none;
    assert ListAll(Distinct(commits), Failing) == Ok(none);
    assert ListTrees(commits, Failing) == Ok(none);
  }

  /** A listing command that always fails */
  function Failing(arg: string): Option<string> {
    None
  }

  // ---------------------------------------------------------------------
  // round trip with the listing format

  /** One record of `ls-tree -r -z` */
  datatype Item = Item(mode: string, kind: string, hash: string, path: string)

  /** A header field: a non-empty word without tab or NUL */
  predicate HeaderField(w: string) {
    w != [] && IsWord(w) && '\0' !in w
  }

  predicate ValidItem(it: Item) {
    HeaderField(it.mode) && HeaderField(it.kind) && HeaderField(it.hash) && '\0' !in it.path
  }

  function Header(it: Item): string {
    Join([it.mode, it.kind, it.hash], ' ')
  }

  /** `<mode> <type> <hash>` TAB `<path>`; the path may hold tabs */
  function RecordText(it: Item): string {
    Header(it) + "\t" + it.path
  }

  function RecordTexts(items: seq<Item>): (texts: seq<string>)
    ensures |texts| == |items| && forall k | 0 <= k < |items| :: texts[k] == RecordText(items[k])
  {
    seq(|items|, k requires 0 <= k < |items| => RecordText(items[k]))
  }

  /** The output: every record followed by a NUL */
  function Listing(items: seq<Item>): string {
    Join(RecordTexts(items) + [""], '\0')
  }

  /** The entries the blob items should give */
  function BlobEntries(commit: Option<string>, items: seq<Item>): seq<TreeEntry> {
    if items == [] then []
    else
      var it := items[0];
      (if it.kind == "blob" then [TreeEntry(commit, it.hash, it.path)] else []) + BlobEntries(commit, items[1..])
  }

  lemma HeaderWords(it: Item)
    requires ValidItem(it)
    ensures '\t' !in Header(it) && '\0' !in Header(it)
    ensures SplitWhitespace(Header(it), -1) == [it.mode, it.kind, it.hash]
  {
    var words := [it.mode, it.kind, it.hash];
    assert words[1..] == [it.kind, it.hash] && words[1..][1..] == [it.hash];
    assert IsSpace('\t');
    SplitWhitespaceJoin(words, -1);
    JoinAvoids(words, ' ', '\t');
    JoinAvoids(words, ' ', '\0');
  }

  /** Splitting at the first tab finds the header again */
  lemma SplitOnceAt(h: string, p: string)
    requires '\t' !in h
    ensures SplitOnce(h + "\t" + p, '\t') == Some((h, p))
  {
    SplitCons(h, '\t', p);
    var parts := Split(h + "\t" + p, '\t');
    assert parts[1..] == Split(p, '\t');
  }

  lemma ReadItem(commit: Option<string>, it: Item)
    requires ValidItem(it)
    ensures ReadRecord(commit, RecordText(it))
         == Ok(if it.kind == "blob" then Some(TreeEntry(commit, it.hash, it.path)) else None)
  {
    HeaderWords(it);
    SplitOnceAt(Header(it), it.path);
    assert '\t' in RecordText(it) by {
      assert RecordText(it)[|Header(it)|] == '\t';
    }
  }

  lemma {:induction false} ReadItems(commit: Option<string>, items: seq<Item>)
    requires forall k | 0 <= k < |items| :: ValidItem(items[k])
    ensures ReadRecords(commit, RecordTexts(items)) == Ok(BlobEntries(commit, items))
    decreases |items|
  {
    if items != [] {
      var texts := RecordTexts(items);
      assert texts[1..] == RecordTexts(items[1..]);
      ReadItem(commit, items[0]);
      ReadItems(commit, items[1..]);
    }
  }

  /** A listing reads back as its blob records, in order, with the whole
      path after the first tab */
  lemma ListingRoundTrip(commit: Option<string>, items: seq<Item>)
    requires forall k | 0 <= k < |items| :: ValidItem(items[k])
    ensures ReadRecords(commit, Records(Listing(items))) == Ok(BlobEntries(commit, items))
  {
    var texts := RecordTexts(items);
    forall k | 0 <= k < |texts + [""]|
      ensures '\0' !in (texts + [""])[k]
    {
      if k < |texts| {
        HeaderWords(items[k]);
        assert (texts + [""])[k] == Header(items[k]) + "\t" + items[k].path;
      }
    }
    SplitJoin(texts + [""], '\0');
    assert (texts + [""])[..|texts|] == texts;
    ReadItems(commit, items);
  }
}

=== FILE: urls.dfy ===
/** What the audit reads out of a repository URL: `extract_owner_repo` and the
    URL list of `run_from_csv`, the report's `repo_name` and owner, and the
    links written into every row. */
module Urls {
  import opened Wrappers
  import opened Text
  import opened Seqs
  import opened Exceptions

  function Last(parts: seq<string>): string
    requires |parts| >= 1
  {
    parts[|parts| - 1]
  }

  /** The last two `/`-separated segments end `url`: `o/n` with neither
      holding a `/`, and with a `/` (or nothing) in front */
  predicate LastTwoSegments(url: string, o: string, n: string) {
    && '/' !in o && '/' !in n
    && EndsWith(url, o + "/" + n)
    && (|url| == |o| + 1 + |n| || url[|url| - |o| - |n| - 2] == '/')
  }

  lemma SuffixSegments(front: string, o: string, n: string)
    requires '/' !in o && '/' !in n
    ensures LastTwoSegments(o + "/" + n, o, n)
    ensures LastTwoSegments(front + "/" + (o + "/" + n), o, n)
  {
    var tail := o + "/" + n;
    var url := front + "/" + tail;
    assert url[|url| - |tail|..] == tail;
    assert url[|url| - |o| - |n| - 2] == '/';
    assert tail[|tail| - |tail|..] == tail;
  }

  lemma LastTwoOfSplit(url: string)
    requires |Split(url, '/')| >= 2
    ensures var parts := Split(url, '/');
      LastTwoSegments(url, parts[|parts| - 2], parts[|parts| - 1])
  {
    var parts := Split(url, '/');
    var n := |parts|;
    var o := parts[n - 2];
    var r := parts[n - 1];
    var init := parts[..n - 1];
    assert url == Join(init, '/') + "/" + r by {
      JoinLast(parts, '/');
    }
    if n == 2 {
      assert url == o + "/" + r by {
        assert init == [o];
      }
      SuffixSegments([], o, r);
    } else {
      var front := Join(parts[..n - 2], '/');
      assert Join(init, '/') == front + "/" + o by {
        JoinLast(init, '/');
        assert init[..|init| - 1] == parts[..n - 2];
      }
      Regroup(front, o, r);
      SuffixSegments(front, o, r);
    }
  }

  lemma Regroup(front: string, o: string, r: string)
    ensures front + "/" + o + "/" + r == front + "/" + (o + "/" + r)
  {
    AppendAssoc(front + "/" + o, "/", r);
    AppendAssoc(front + "/", o, "/" + r);
  }

  /** `extract_owner_repo(url)`; None stands for (None, None), which Python
      reaches through the IndexError of a URL without `/` */
  function ExtractOwnerRepo(url: string): (r: Option<(string, string)>)
    ensures r.None? <==> '/' !in url
    ensures r.Some? ==> LastTwoSegments(url, r.value.0, r.value.1)
  {
    var parts := Split(url, '/');
    SplitSingleIffNoSep(url, '/');
    if |parts| < 2 then None
    else
      LastTwoOfSplit(url);
      Some((parts[|parts| - 2], parts[|parts| - 1]))
  }

  /** A segment ending `s` after a `/` (or the start) is determined */
  lemma {:induction false} SegmentUnique(s: string, a: string, b: string)
    requires '/' !in a && '/' !in b && EndsWith(s, a) && EndsWith(s, b)
    requires |s| == |a| || s[|s| - |a| - 1] == '/'
    requires |s| == |b| || s[|s| - |b| - 1] == '/'
    ensures a == b
  {
    assert |a| == |b|;
  }

  /** The last two segments are determined, so ExtractOwnerRepo's contract
      pins its result down */
  lemma LastTwoUnique(url: string, o: string, n: string, o2: string, n2: string)
    requires LastTwoSegments(url, o, n) && LastTwoSegments(url, o2, n2)
    ensures o == o2 && n == n2
  {
    LastTwoParts(url, o, n);
    LastTwoParts(url, o2, n2);
    SegmentUnique(url, n, n2);
    var front := url[..|url| - |n| - 1];
    SegmentUnique(front, o, o2);
  }

  /** `url` ends in the segment `n` after a `/`, and what comes before
      that `/` ends in the segment `o` */
  lemma LastTwoParts(url: string, o: string, n: string)
    requires LastTwoSegments(url, o, n)
    ensures EndsWith(url, n) && url[|url| - |n| - 1] == '/'
    ensures var front := url[..|url| - |n| - 1];
      && EndsWith(front, o)
      && (|front| == |o| || front[|front| - |o| - 1] == '/')
  {
    var t := o + "/" + n;
    var start := |url| - |t|;
    assert url[start..] == t;
    var slash := start + |o|;
    assert url[slash] == t[|o|] == '/';
    assert url[slash + 1..] == t[|o| + 1..] == n;
    var front := url[..slash];
    assert front[start..] == t[..|o|] == o;
    if |front| != |o| {
      var before := start - 1;
      assert front[before] == url[before];
    }
  }

  /** A GitHub repository URL yields its owner and name */
  lemma ExtractGitHubUrl(o: string, n: string)
    requires '/' !in o && '/' !in n
    ensures ExtractOwnerRepo("https://github.com/" + o + "/" + n) == Some((o, n))
  {
    var url := "https://github.com/" + o + "/" + n;
    assert url == "https://github.com" + "/" + (o + "/" + n);
    SuffixSegments("https://github.com", o, n);
    assert url[6] == '/';
    var r := ExtractOwnerRepo(url);
    LastTwoUnique(url, o, n, r.value.0, r.value.1);
  }

  /** A URL ending in `/` has an empty last segment */
  lemma TrailingSlashEmptyRepo(url: string)
    requires url != [] && url[|url| - 1] == '/'
    ensures ExtractOwnerRepo(url).Some? && ExtractOwnerRepo(url).value.1 == []
  {
    var r := ExtractOwnerRepo(url);
    assert '/' in url;
    var n := r.value.1;
  }

  // ---------------------------------------------------------------------
  // run_from_csv

  /** What one cell of the CSV's first column contributes: NaN, blank
      cells and URLs without a non-empty owner and repository are skipped */
  function Target(cell: Option<string>): (t: Option<(string, string, string)>)
    ensures t.Some? ==>
      && cell.Some? && t.value.0 == Strip(cell.value) && t.value.0 != []
      && t.value.1 != [] && t.value.2 != []
      && LastTwoSegments(t.value.0, t.value.1, t.value.2)
  {
    match cell
    case None => None
    case Some(raw) =>
      var url := Strip(raw);
      if url == [] then None
      else
        match ExtractOwnerRepo(url)
        case None => None
        case Some((owner, repo)) =>
          if owner == [] || repo == [] then None else Some((url, owner, repo))
  }

  /** The (url, owner, repo) triples `run_from_csv` audits, in file order */
  function Targets(column: seq<Option<string>>): (ts: seq<(string, string, string)>)
    ensures |ts| <= |column|
    ensures forall k | 0 <= k < |column| && Target(column[k]).Some? :: Target(column[k]).value in ts
    ensures forall k | 0 <= k < |ts| :: Some(ts[k]) in TargetCells(column)
  {
    Somes(TargetCells(column))
  }

  function TargetCells(column: seq<Option<string>>): (ts: seq<Option<(string, string, string)>>)
    ensures |ts| == |column| && forall k | 0 <= k < |column| :: ts[k] == Target(column[k])
  {
    seq(|column|, k requires 0 <= k < |column| => Target(column[k]))
  }

  lemma EmptyRepoSkipped(raw: string)
    requires Strip(raw) != [] && ExtractOwnerRepo(Strip(raw)).Some?
    requires ExtractOwnerRepo(Strip(raw)).value.1 == []
    ensures Target(Some(raw)).None?
  {
  }

  /** A URL with a trailing slash is never audited */
  lemma TrailingSlashSkipped(raw: string)
    requires Strip(raw) != [] && Strip(raw)[|Strip(raw)| - 1] == '/'
    ensures Target(Some(raw)).None?
  {
    TrailingSlashEmptyRepo(Strip(raw));
    EmptyRepoSkipped(raw);
  }

  // ---------------------------------------------------------------------
  // repo_name and owner in audit_repository

  /** `git_url.split('/')[-1].replace('.git', '')`, as written: every `.git`
      in the last segment is removed, not only the suffix */
  function RepoNameAsWritten(url: string): string {
    ReplaceAll(Last(Split(url, '/')), ".git", "")
  }

  /** The repository name the URL means: its last segment without a `.git`
      suffix */
  function RepoName(url: string): (name: string)
    ensures var last := Last(Split(url, '/'));
      name == last || name + ".git" == last
    ensures '/' !in name
  {
    var last := Last(Split(url, '/'));
    if EndsWith(last, ".git") then
      assert last == last[..|last| - 4] + ".git";
      last[..|last| - 4]
    else last
  }

  lemma LastSegment(base: string, name: string)
    requires '/' !in name
    ensures Last(Split(base + "/" + name, '/')) == name
  {
    SplitLastPiece(base, '/', name);
  }

  /** The corrected name: the `.git` suffix, and only it, is dropped */
  lemma RepoNameOfClone(base: string, name: string)
    requires '/' !in name
    ensures RepoName(base + "/" + name + ".git") == name
    ensures !EndsWith(name, ".git") ==> RepoName(base + "/" + name) == name
  {
    LastSegment(base, name + ".git");
    assert base + "/" + name + ".git" == base + "/" + (name + ".git");
    assert (name + ".git")[..|name|] == name;
    LastSegment(base, name);
  }

  lemma ReplaceSkip(s: string, pat: string, rep: string, k: nat)
    requires k < |pat| <= |s| && s[k] != pat[k]
    ensures ReplaceAll(s, pat, rep) == [s[0]] + ReplaceAll(s[1..], pat, rep)
  {
    assert s[..|pat|][k] == s[k];
  }

  lemma ReplaceHit(s: string, pat: string, rep: string)
    requires 0 < |pat| <= |s| && s[..|pat|] == pat
    ensures ReplaceAll(s, pat, rep) == rep + ReplaceAll(s[|pat|..], pat, rep)
  {
  }

  lemma ReplaceGitExample()
    ensures ReplaceAll(".github", ".git", "") == "hub"
  {
    ReplaceHit(".github", ".git", "");
    assert ".github"[4..] == "hub";
  }

  lemma LastOfExample()
    ensures Last(Split("https://github.com/o/.github", '/')) == ".github"
  {
    assert "https://github.com/o/.github" == "https://github.com/o" + "/" + ".github";
    LastSegment("https://github.com/o", ".github");
  }

  /** As written, a `.git` inside the name is removed as well: the
      organisation profile repository `.github` is reported as `hub` */
  lemma RepoNameAsWrittenMangles()
    ensures RepoNameAsWritten("https://github.com/o/.github") == "hub"
    ensures RepoName("https://github.com/o/.github") == ".github"
  {
    LastOfExample();
    ReplaceGitExample();
    assert !EndsWith(".github", ".git") by {
      assert ".github"[3..][3] != ".git"[3];
    }
  }

  /** A name without `.git` loses exactly its `.git` suffix: the pattern
      cannot straddle the join, since no proper prefix of `.git` is also a
      suffix of it */
  lemma {:induction false} ReplaceSuffixOnly(name: string)
    requires !Contains(name, ".git")
    ensures ReplaceAll(name + ".git", ".git", "") == name
    decreases |name|
  {
    var s := name + ".git";
    if name == [] {
      assert s == ".git" && s[4..] == [];
    } else {
      assert s[..4] != ".git" by {
        if |name| >= 4 {
          assert s[..4] == name[0..4];
          assert !OccursAt(name, ".git", 0);
        } else {
          var k := |name|;
          assert s[k] == '.' && ".git"[k] != '.';
          assert s[..4][k] == s[k];
        }
      }
      ContainsTail(name, ".git");
      assert s[1..] == name[1..] + ".git";
      ReplaceSuffixOnly(name[1..]);
      assert name == [name[0]] + name[1..];
    }
  }

  /** A segment ending in `.git` contains it */
  lemma SuffixContained(last: string)
    requires EndsWith(last, ".git")
    ensures Contains(last, ".git")
  {
    assert OccursAt(last, ".git", |last| - 4);
  }

  /** The name as written and the corrected name agree whenever `.git`
      occurs in the last segment at most once, as its suffix (all clone
      URLs of ordinary repositories) */
  lemma RepoNameAgrees(url: string)
    requires var last := Last(Split(url, '/'));
      || !Contains(last, ".git")
      || (EndsWith(last, ".git") && !Contains(last[..|last| - 4], ".git"))
    ensures RepoNameAsWritten(url) == RepoName(url)
  {
    var last := Last(Split(url, '/'));
    if EndsWith(last, ".git") {
      SuffixContained(last);
      var name := last[..|last| - 4];
      assert last == name + ".git";
      ReplaceSuffixOnly(name);
    }
  }

  predicate IsSlash(c: char) {
    c == '/'
  }

  /** The owner of `git_url.rstrip("/").split("/")[-2]`; IndexError for a
      URL without an inner `/` */
  function Owner(url: string): (r: Result<string, PyException>)
    ensures r.Err? <==> '/' !in RStrip(url, IsSlash)
    ensures r.Ok? ==> '/' !in r.value
  {
    var parts := Split(RStrip(url, IsSlash), '/');
    SplitSingleIffNoSep(RStrip(url, IsSlash), '/');
    if |parts| < 2 then Err(IndexError) else Ok(parts[|parts| - 2])
  }

  lemma RStripKeeps(s: string, drop: char -> bool)
    requires s != [] && !drop(s[|s| - 1])
    ensures RStrip(s, drop) == s
  {
  }

  /** Where the URL's last segment is not empty, the audit's owner is the
      segment `extract_owner_repo` reads */
  lemma OwnerOfExtracted(url: string)
    requires ExtractOwnerRepo(url).Some? && ExtractOwnerRepo(url).value.1 != []
    ensures Owner(url) == Ok(ExtractOwnerRepo(url).value.0)
  {
    var o := ExtractOwnerRepo(url).value.0;
    var n := ExtractOwnerRepo(url).value.1;
    var tail := o + "/" + n;
    assert url[|url| - 1] == n[|n| - 1] by {
      assert EndsWith(url, tail);
      assert url[|url| - |tail|..][|tail| - 1] == tail[|tail| - 1];
    }
    assert n[|n| - 1] in n;
    RStripKeeps(url, IsSlash);
  }

  /** For every URL the CSV loop audits, the owner written into the report
      is the owner the loop read from the URL */
  lemma OwnerOfTarget(cell: Option<string>)
    requires Target(cell).Some?
    ensures Owner(Target(cell).value.0) == Ok(Target(cell).value.1)
  {
    var url := Target(cell).value.0;
    assert ExtractOwnerRepo(url) == Some((Target(cell).value.1, Target(cell).value.2));
    OwnerOfExtracted(url);
  }

  // ---------------------------------------------------------------------
  // links

  /** `str(commit)`, which prints a missing commit as "None" */
  function CommitText(commit: Option<string>): string {
    match commit
    case Some(c) => c
    case None => "None"
  }

  /** `filename.lstrip("/")` */
  function RelativePath(filename: string): (p: string)
    ensures p == [] || p[0] != '/'
    ensures EndsWith(filename, p)
    ensures forall k | 0 <= k < |filename| - |p| :: filename[k] == '/'
  {
    LStrip(filename, c => c == '/')
  }

  const GitHubHost := "https://github.com/"
  const RawHost := "https://raw.githubusercontent.com/"

  function RepoLink(owner: string, repo: string): string {
    GitHubHost + owner + "/" + repo
  }

  function RawLink(owner: string, repo: string, commit: Option<string>, filename: string): string {
    RawHost + owner + "/" + repo + "/" + CommitText(commit) + "/" + RelativePath(filename)
  }

  function FileLink(owner: string, repo: string, commit: Option<string>, filename: string): string {
    RepoLink(owner, repo) + "/blob/" + CommitText(commit) + "/" + RelativePath(filename)
  }

  lemma RestAfterHost(host: string, t: string)
    ensures StartsWith(host + t, host) && (host + t)[|host|..] == t
  {
    assert (host + t)[..|host|] == host;
  }

  lemma FileLinkText(owner: string, repo: string, c: string, p: string)
    ensures RepoLink(owner, repo) + "/blob/" + c + "/" + p
         == GitHubHost + (owner + "/" + (repo + "/" + ("blob" + "/" + (c + "/" + p))))
  {
    var t4 := c + "/" + p;
    assert "/blob/" + t4 == "/" + ("blob" + "/" + t4) by {
      assert "/blob/" == "/" + "blob" + "/";
    }
  }

  lemma FileLinkTail(owner: string, repo: string, c: string, p: string)
    requires '/' !in owner && '/' !in repo && '/' !in c
    ensures Split(owner + "/" + (repo + "/" + ("blob" + "/" + (c + "/" + p))), '/')
         == [owner, repo, "blob", c] + Split(p, '/')
  {
    var t4 := c + "/" + p;
    var t3 := "blob" + "/" + t4;
    var t2 := repo + "/" + t3;
    SplitCons(c, '/', p);
    SplitCons("blob", '/', t4);
    SplitCons(repo, '/', t3);
    SplitCons(owner, '/', t2);
  }

  /** A file link is the GitHub host followed by owner, repository, `blob`,
      commit and the file's own path segments */
  lemma FileLinkSegments(owner: string, repo: string, commit: Option<string>, filename: string)
    requires '/' !in owner && '/' !in repo && '/' !in CommitText(commit)
    ensures var link := FileLink(owner, repo, commit, filename);
      && StartsWith(link, GitHubHost)
      && Split(link[|GitHubHost|..], '/')
         == [owner, repo, "blob", CommitText(commit)] + Split(RelativePath(filename), '/')
  {
    var c := CommitText(commit);
    var p := RelativePath(filename);
    var t1 := owner + "/" + (repo + "/" + ("blob" + "/" + (c + "/" + p)));
    FileLinkTail(owner, repo, c, p);
    FileLinkText(owner, repo, c, p);
    RestAfterHost(GitHubHost, t1);
  }

  lemma RawLinkText(owner: string, repo: string, c: string, p: string)
    ensures RawHost + owner + "/" + repo + "/" + c + "/" + p
         == RawHost + (owner + "/" + (repo + "/" + (c + "/" + p)))
  {
  }

  /** The raw link carries the same owner, repository, commit and path after
      the raw-content host */
  lemma RawLinkSegments(owner: string, repo: string, commit: Option<string>, filename: string)
    requires '/' !in owner && '/' !in repo && '/' !in CommitText(commit)
    ensures var link := RawLink(owner, repo, commit, filename);
      && StartsWith(link, RawHost)
      && Split(link[|RawHost|..], '/')
         == [owner, repo, CommitText(commit)] + Split(RelativePath(filename), '/')
  {
    var c := CommitText(commit);
    var p := RelativePath(filename);
    var t1 := owner + "/" + (repo + "/" + (c + "/" + p));
    RawLinkTail(owner, repo, c, p);
    RawLinkText(owner, repo, c, p);
    RestAfterHost(RawHost, t1);
  }

  lemma RawLinkTail(owner: string, repo: string, c: string, p: string)
    requires '/' !in owner && '/' !in repo && '/' !in c
    ensures Split(owner + "/" + (repo + "/" + (c + "/" + p)), '/') == [owner, repo, c] + Split(p, '/')
  {
    var t3 := c + "/" + p;
    var t2 := repo + "/" + t3;
    SplitCons(c, '/', p);
    SplitCons(repo, '/', t3);
    SplitCons(owner, '/', t2);
  }
}

=== FILE: wrappers.dfy ===
/** Option stands for Python's None / pandas' NaN; Result for a value or the
    exception that would end the audit run. */
module Wrappers {

  datatype Option<+T> = None | Some(value: T) {

    /** Python's `x or default` for a nullable column value */
    function GetOr(default: T): T {
      match this
      case Some(v) => v
      case None => default
    }
  }

  datatype Result<+T, +E> = Ok(value: T) | Err(error: E) {

    predicate IsFailure() {
      Err?
    }

    function PropagateFailure<U>(): Result<U, E>
      requires Err?
    {
      Err(error)
    }

    function Extract(): T
      requires Ok?
    {
      value
    }
  }
}

/** The Python exceptions that escape the audit's handlers and end the run */
module Exceptions {

  datatype PyException =
    | ValueError   // `int()` of a non-number, an unpacking short of values, a frame of the wrong width
    | IndexError   // a list subscript past the end
    | UnboundLocalError  // a local read before anything was assigned to it
    | KeyError     // a merge on a column the frame does not have
}
